=== FILE: README.md ===
# Platformer gameplay core in Dafny

A Dafny model of the gameplay-rules layer of a Three.js/Rapier platformer.

**What is modelled.**
- The grappling hook and its spring links.
- The player controller with its jump, move and boost intents and the boost resource.
- The level orchestration:
  - collision and contact-force classification and dispatch;
  - the block-drag sound target;
  - the per-tick order;
  - the grapple handlers, `reset` and `destroy`.
- The level-model builder, which classifies the nodes of a glTF scene by name and folds them into buckets, counts and a scene list.
- Two entities: the patrolling enemy and the moveable block.
- The supporting state machines: the frame ticker, the audio pool, the audio manager, user input and the render-resolution controller.

**How the physics engine appears.** Rapier is replaced by an abstract `World` (module `Physics`):
- maps from opaque `nat` handles to body, collider and joint records;
- a next-handle counter per kind;
- the invariant `Valid`: every live handle lies below its counter.

The engine's answers are inputs:
- A ray cast is a function from a query to an optional hit, the hit carrying the parent body's handle, whether it is fixed, and its mass.
- Contact pairs are a predicate on two collider handles.
- What one physics step produced reaches the level's tick as a `StepOutcome`: the stepped world, the drained collision and contact-force events, and the player's velocity read back after the tick's impulse. The player's impulse is reported as already contained in that velocity; enemy impulses are reported for the engine to apply.

**Style.** Everything is an immutable datatype and a pure function. The JavaScript `Set` of grapple springs is a sequence, because the code relies on its insertion order and mutates it while iterating. Reals model the source's numbers exactly, since the core only uses clamps and linear formulas.

**Quirks kept as written.**
- A new player has 10000 units of boost against a capacity of 7000.
- The level matches collision and contact-force handles (collider handles) against the player's rigid-body handle.
- Running into an enemy fires no callback.
- `reset` gives the player's body a velocity of (0, 1, 0).
- `destroy` leaves the goal sensors in the world.
- `Ticker.resume` never sets the running flag.
- A grown audio instance does not inherit the pool's loop flag.
- `setMasterVolume` is not floored at 0.
- The render quality is not clamped.

**Resets keep velocity.** `Enemies.Reset` and `MoveableBlocks.Reset` set the translation and keep the velocity, as src/view/components/enemy/enemy.ts:138-140 and src/view/components/moveable-block/moveable-block.ts:72-74 do.

**Files.** One module per source component:

| file | module | models |
|---|---|---|
| `common.dfy` | `Common` | shared helpers |
| `physics.dfy` | `Physics` | the abstract world |
| `spring.dfy` | `Springs` | spring.ts |
| `grappling_hook.dfy` | `Grapple` | grappling-hook.ts |
| `player.dfy` | `PlayerController` | player.ts |
| `enemy.dfy` | `Enemies` | enemy.ts |
| `moveable_block.dfy` | `MoveableBlocks` | moveable-block.ts |
| `parse_level_model.dfy` | `LevelParser` | parse-level-model.ts |
| `game_level.dfy` | `GameLevel` | game-level.ts |
| `ticker.dfy` | `Tickers` | ticker.ts |
| `audio_pool.dfy` | `AudioPools` | audio-pool.ts |
| `audio_manager.dfy` | `AudioManagers` | audio-manager.ts |
| `user_input.dfy` | `UserInput` | user-input.ts |
| `render_resolution.dfy` | `RenderResolution` | render-resolution-controller.ts |

## Model

| member | source | states |
|---|---|---|
| Common.ContainsAt | src/view/parse-level-model.ts:43 | The recursive substring test the classifier uses holds exactly when the needle occurs at some index of the name, which is the meaning of `String.includes`. |
| Springs.NewSpring | src/view/components/spring/spring.ts:33-52 | A spring creates exactly one fresh joint between parent and child and changes nothing else. Omitted props take the defaults: length 1, stiffness 3, random offset 0, hit points at the origin. Given props are used as given. The joint's anchors and stiffness are the spring's, and its damping is 0.2. |
| Springs.AccessorsReadJoint | src/view/components/spring/spring.ts:111-129 | `parentRigidBody`/`childRigidBody` are the live joint's first and second bodies, which are the constructor's parent and child. The hit points and stiffness read back the values the joint was built with. |
| Springs.Destroy | src/view/components/spring/spring.ts:134-136 | Destroy removes exactly the spring's own joint and leaves every other joint, body and collider as it was. |
| Springs.NextAge | src/view/components/spring/spring.ts:96 | The stretch-in age never exceeds 1, never decreases for a non-negative delta, and saturates at 1 once 10·delta covers the gap. |
| Springs.AgeRunBounded | src/view/components/spring/spring.ts:31-96 | Over any run of non-negative deltas from a start in [0, 1], the age stays in [0, 1] and does not decrease. A new spring's age is 0. |
| Springs.ZScale | src/view/components/spring/spring.ts:104-108 | The link's thickness lies in [0.4, 1] for every distance. It falls linearly by 0.1 per unit between distances 0 and 6. |
| Springs.Update | src/view/components/spring/spring.ts:79-109 | Apart from the cosmetic pose, an update only advances the age. The joint, its construction values and the random origin offset are untouched. |
| Grapple.TargetStiffness | src/view/components/grappling-hook/grappling-hook.ts:64-66 | Link stiffness never exceeds 10. It is 10 for a fixed target and mass·20 + 0.1 for a dynamic one below the cap. |
| Grapple.StiffnessMonotoneInMass | src/view/components/grappling-hook/grappling-hook.ts:64-66 | A heavier dynamic target never gives a softer link. |
| Grapple.Grapple | src/view/components/grappling-hook/grappling-hook.ts:28-82 | Grapple fails, changing nothing, exactly when the ray misses or hits a collider without a parent body. On success: a full hook first drops its oldest link, and that link's joint leaves the world; the new link is last and runs from `from` to the hit body; the world's joints are the old ones, less the evicted joint, plus the new link's joint. The new link's stiffness depends on the target, and its child hit point is the ray contact for a fixed target only, the origin otherwise. Consistency with the world is preserved, and so is the bound of `maxInstances` links. |
| Grapple.Release | src/view/components/grappling-hook/grappling-hook.ts:84-96 | "first" removes the oldest link and the default removes the newest, destroying exactly that link's joint. Release on an empty hook is a no-op. Consistency is preserved. |
| Grapple.ReleaseFirstTwiceEmpties | src/view/components/grappling-hook/grappling-hook.ts:84-96 | Two oldest-first releases empty a two-link hook. |
| Grapple.PlanKeepsUnanchored | src/view/components/grappling-hook/grappling-hook.ts:103-108 | The links escape keeps are exactly the links not hanging from `from`, unchanged and in their original order. |
| Grapple.PlanMergesAnchored | src/view/components/grappling-hook/grappling-hook.ts:110-131 | The links escape creates are exactly the pairwise merges of the links hanging from `from`. Links that do not hang from `from` never disturb the pending link. |
| Grapple.PairUpHalves | src/view/components/grappling-hook/grappling-hook.ts:110-131 | Each new link consumes two anchored links, so there are at most half as many new links as anchored ones. |
| Grapple.PairUpShape | src/view/components/grappling-hook/grappling-hook.ts:115-127 | A new link runs from the later link's child to the earlier link's child, which are different bodies. Its stiffness is the mean of the two. |
| Grapple.EscapeMergeShape | src/view/components/grappling-hook/grappling-hook.ts:115-127 | Every link escape creates merges two links anchored at `from`, with the shape above. |
| Grapple.EscapeShrinks | src/view/components/grappling-hook/grappling-hook.ts:98-146 | Escape never grows the hook, and strictly shrinks it when any link hangs from `from`. |
| Grapple.EscapeDetaches | src/view/components/grappling-hook/grappling-hook.ts:98-146 | If no link ends at `from`, no link hangs from `from` after escape. |
| Grapple.RealizeFacts | src/view/components/grappling-hook/grappling-hook.ts:141-145 | Building the new springs keeps existing joints and kept links as they were. Each merge becomes a freshly linked spring built from its props, and new joints are numbered in iteration order. |
| Grapple.RealizeCreatesOnly | src/view/components/grappling-hook/grappling-hook.ts:119-127 | Building the new springs creates exactly one joint per merge and no other. |
| Grapple.Escape | src/view/components/grappling-hook/grappling-hook.ts:98-146 | After escape the hook follows the plan: kept links in place and merges realised in order. The world's joints are exactly the old ones plus one per merge, less those of the links anchored at `from`; every surviving old joint is unchanged, and consistency is preserved. |
| Grapple.Reset | src/view/components/grappling-hook/grappling-hook.ts:148-155 | Reset destroys exactly the hook's joints and leaves the hook empty. |
| Grapple.Update | src/view/components/grappling-hook/grappling-hook.ts:157-161 | Every link ages by the same delta, order and joints are kept, and the hook stays consistent with any world it was consistent with. |
| PlayerController.Jump | src/view/components/player/player.ts:147-164 | A jump always plays the burst and never pushes sideways. It pushes up by 40 from the ground, by 15 from a wall only, and by 0 with no contact. |
| PlayerController.JumpPushesIffContact | src/view/components/player/player.ts:147-164 | A jump pushes up exactly when some contact flag is set, and never harder than from the ground. |
| PlayerController.Boost | src/view/components/player/player.ts:166-168 | Boost only raises the request flag; the resource, the impulse, the facing and the three contact flags are untouched. |
| PlayerController.Move | src/view/components/player/player.ts:170-178 | A move adds −100 or +100 to the pending x impulse and faces that way; the y and z impulse, the resource, the boost request and the three contact flags are untouched. |
| PlayerController.MovesAccumulate | src/view/components/player/player.ts:170-178 | Within a tick, move intents add up to 100 times (rights − lefts), and the last one decides the facing. |
| PlayerController.BoostLogic | src/view/components/player/player.ts:258-291 | The boost logic always consumes the request. A request against a non-empty resource (tested before draining) adds 110 upward and drains at 10000/s, floored at 0. A request against an empty resource does nothing. No request refills at 10000/s, capped at 7000. Draining and refilling never happen in the same tick. |
| PlayerController.BoostStaysInRange | src/view/components/player/player.ts:258-291 | For non-negative deltas the resource never goes negative. It is back within [0, 7000] after any run that contains a tick without a request, or that starts within range. |
| PlayerController.InitialBoostAboveCapacity | src/view/components/player/player.ts:55-81 | A new player starts above capacity, and a first tick spent boosting leaves it there. |
| PlayerController.UpdateHitState | src/view/components/player/player.ts:293-297 | Each contact flag is true exactly when its 0.6-long ray (down, left, right) hits something, the player's own collider excluded. |
| PlayerController.LimitVelocity | src/view/components/player/player.ts:235-238 | The velocity changes only when \|vx\| > 10. Then vx is damped to 0.9·vx, so it shrinks in magnitude and keeps its sign; y and z are untouched. |
| PlayerController.Update | src/view/components/player/player.ts:200-256 | A tick refreshes the contact flags from the post-step position before the boost logic. It applies the assembled impulse scaled by delta only when its x or y is non-zero. It then zeroes the pending impulse and the request, and limits the read-back velocity. |
| Enemies.NewEnemy | src/view/components/enemy/enemy.ts:34-49 | A new enemy faces right, remembers its model position as its start, and creates one fresh dynamic body there with a solid 0.2 ball collider. |
| Enemies.Update | src/view/components/enemy/enemy.ts:99-118 | A left-wall hit sends the enemy right. Failing that, a right-wall hit sends it left. Failing both, it keeps its direction. The impulse is overwritten each tick as ±2.5·delta along x only, and nothing else about the enemy changes. |
| Enemies.UpdateWalks | src/view/components/enemy/enemy.ts:105-118 | For a positive delta, the impulse points the way the enemy now faces, and a left wall always wins. |
| Enemies.UpdateHeading | src/view/components/enemy/enemy.ts:99-118 | Independently of the branch order: the enemy pushes right exactly when a wall is on its left, or no wall is on its right and it faced right, and pushes left in the remaining cases; always at speed 2.5·delta. A second update with the same ray answers keeps the decision, so the enemy never oscillates in place. |
| Enemies.Reset | src/view/components/enemy/enemy.ts:138-140 | Reset moves only the enemy's body back to its start; the velocity and everything else stay. |
| Physics.RemoveColliderAndBody | src/view/components/enemy/enemy.ts:130-133 | Tearing down an entity removes exactly its collider and its body, and keeps every joint. |
| Enemies.Destroy | src/view/components/enemy/enemy.ts:130-133 | Destroy removes exactly the enemy's collider and body. |
| MoveableBlocks.HalfExtent | src/view/components/moveable-block/moveable-block.ts:81-82 | The cube's half-extent is never below 0.1. Above that floor it is half the scaled x span less the 0.2 skin. |
| MoveableBlocks.HalfExtentMonotone | src/view/components/moveable-block/moveable-block.ts:81-82 | A wider bounding box never gives a smaller cube, for a non-negative scale. |
| MoveableBlocks.NewBlock | src/view/components/moveable-block/moveable-block.ts:76-96 | Construction fails exactly when the mesh has no bounding box. Otherwise the start is one unit above the mesh, and one fresh dynamic body is created there with the mesh's rotation and a solid cube collider of that half-extent. |
| MoveableBlocks.Update | src/view/components/moveable-block/moveable-block.ts:53-59 | The visual pose becomes the body's translation and rotation, and nothing else changes. |
| MoveableBlocks.UpdateIdempotent | src/view/components/moveable-block/moveable-block.ts:53-59 | Following the body twice is the same as once, whatever the deltas. |
| MoveableBlocks.Reset | src/view/components/moveable-block/moveable-block.ts:72-74 | Reset moves only the block's body back to its start. |
| MoveableBlocks.Destroy | src/view/components/moveable-block/moveable-block.ts:64-67 | Destroy removes exactly the block's collider and body. |
| LevelParser.ClassifyIsFirstMatch | src/view/parse-level-model.ts:42-141 | The classifier picks the first rule of the ordered list that matches: "user-data" and "textured" for any node, then the mesh-only rules "light", "glow", "enemy", "moveable-block", "goal_sensor" and "danger", else batched. A non-mesh node matching neither of the first two is dropped. |
| LevelParser.DroppedNodeIsIgnored | src/view/parse-level-model.ts:42-58 | A dropped node changes no bucket, count or colour. |
| LevelParser.VisitRoutes | src/view/parse-level-model.ts:109-138 | Only a batched mesh named "ground" creates a terrain collider. Goal and danger meshes each create one sensor; enemies, blocks and the rest create nothing. |
| LevelParser.TraverseSelects | src/view/parse-level-model.ts:98-107 | The enemy and block buckets are exactly the nodes of those kinds, in traversal order. |
| LevelParser.TraverseBatched | src/view/parse-level-model.ts:124-125 | The batched bucket is exactly the batched nodes, in traversal order. |
| LevelParser.TraverseScene | src/view/parse-level-model.ts:52-122 | The passthrough scene list is exactly the ids of the nodes that go to the scene (danger meshes included, goal meshes excluded), in traversal order. |
| LevelParser.TraverseSensorCounts | src/view/parse-level-model.ts:109-122 | There is one goal sensor per goal mesh and one danger sensor per danger mesh. |
| LevelParser.TraverseGroundCount | src/view/parse-level-model.ts:133-138 | There is one terrain collider per batched "ground" mesh. |
| LevelParser.TraverseVertices | src/view/parse-level-model.ts:127-131 | The vertex count is the sum over the batched meshes. |
| LevelParser.TraverseIndices | src/view/parse-level-model.ts:127-131 | The index count is the sum over the batched meshes; an unindexed mesh adds 0. |
| LevelParser.TraverseLast | src/view/parse-level-model.ts:43-96 | The fog colour, sky glow and atlas are those of the last node of each kind visited, or the defaults if there is none. |
| LevelParser.TraverseCreated | src/view/parse-level-model.ts:109-138 | Every collider the traversal creates is fresh and of the right kind. No handle repeats within or across the goal, danger and terrain lists, and the world only grows. |
| LevelParser.MakeEnemiesFacts | src/view/parse-level-model.ts:143-147 | There is one enemy per enemy mesh, in order, at its mesh's position and facing right, and each is live in the resulting world. |
| LevelParser.MakeBlocksFails | src/view/parse-level-model.ts:149-157 | Building the blocks fails exactly when some block mesh lacks a bounding box. |
| LevelParser.MakeBlocksFacts | src/view/parse-level-model.ts:149-157 | There is one block per block mesh, in order, one unit above its mesh and live in the resulting world. |
| LevelParser.ParseFails | src/view/parse-level-model.ts:22-189 | The whole parse fails exactly when some moveable-block mesh has no bounding box. |
| LevelParser.ParseEnemies | src/view/parse-level-model.ts:143-147 | A parsed level has one enemy per enemy mesh, in traversal order, at its start facing right and live in the final world. The final world only grew from the initial one. |
| LevelParser.ParseSeparateBodies | src/view/parse-level-model.ts:143-157 | The parsed enemies and blocks own fresh bodies, and no two of them share one. |
| LevelParser.ParseBlocks | src/view/parse-level-model.ts:149-157 | A parsed level has one block per block mesh, one unit up and live. It has one collider per goal, danger and ground node. |
| LevelParser.ParseScene | src/view/parse-level-model.ts:159-188 | The scene list is the passthroughs, then the enemies, then the blocks, with the batched mesh last. The fog runs from followDistance − 25 to the render distance. The sky glow is the last glow mesh. The batched mesh's instances and counts come from the batched nodes. |
| LevelParser.ParseCreatesDistinctColliders | src/view/parse-level-model.ts:191-226 | The goal, danger and terrain colliders of a parsed level are fresh and live, and are sensors or solid as their kind requires. No handle repeats within or across the three lists. |
| GameLevel.NewLevelSeparate | src/view/game-level.ts:77-131 | When the player's body already exists, a level just built gives the player, every enemy and every block a body of its own. |
| GameLevel.NewLevel | src/view/game-level.ts:77-131 | A level fails to build exactly when its model fails to parse. Otherwise it holds the given player, body and collider, the parsed sensors, terrain, enemies and blocks, and an empty hook; when the player's body already exists, the built level is live in the built world. |
| GameLevel.LevelFog | src/view/game-level.ts:89-96 | A model parsed with the level's configuration gets a fog band from 20 to 95 units, and the camera's follow distance of 45 lies inside it. |
| GameLevel.ClassifyCollision | src/view/game-level.ts:348-374 | Only a started event involving the player's body handle has an outcome. It is a goal hit exactly when a goal sensor is involved; an enemy hit exactly when, failing that, an enemy collider is; a danger hit exactly when, failing both, a danger sensor is. |
| GameLevel.Dispatch | src/view/game-level.ts:270-284 | Danger fires the death callback and the goal fires the goal callback. An enemy hit and no outcome fire nothing. |
| GameLevel.ReachedGoalIff | src/view/game-level.ts:270-284 | Over a drain, the goal callback fires exactly when some event is a goal hit, and the death callback exactly when some event is a danger hit. |
| GameLevel.GoalBeatsDanger | src/view/game-level.ts:361-373 | A sensor that is both goal and danger counts as the goal. |
| GameLevel.ClassifyContactForce | src/view/game-level.ts:328-346 | A contact force involving the player's body handle counts as the player's. Failing that, one involving a block collider counts as the block's; otherwise it is ignored. |
| GameLevel.ForceAudio | src/view/game-level.ts:286-302 | A player thud plays at min(total·0.0003, 1) and a wood hit at min(max·0.002, 1); an ignored event plays nothing. |
| GameLevel.DrainForcesPlays | src/view/game-level.ts:286-302 | The contact-force drain plays the player thud exactly when some event involves the player, and the wood hit exactly when some event involves a block and not the player. It plays or sets the volume of no other sound. |
| GameLevel.DrainForcesVolumes | src/view/game-level.ts:286-302 | Every volume the contact-force drain sets is at most 1, and at least 0 for non-negative magnitudes. |
| GameLevel.DragVolume | src/view/game-level.ts:312-315 | A qualifying drag's volume lies in (0.01, 1]. |
| GameLevel.DragTargetIff | src/view/game-level.ts:305-318 | The drag target is 0 or lies in (0.01, 1]. It is positive exactly when some terrain collider touches a block sliding faster than 0.1 along x. |
| GameLevel.ComputeDragTarget | src/view/game-level.ts:309-318 | The nested loops (terrain outside, blocks inside, each qualifying pair overwriting) compute the target volume of the last qualifying pair. |
| GameLevel.DragAudio | src/view/game-level.ts:320-325 | The drag sound is always played. It is then given the damped volume when that is positive, and stopped otherwise. |
| GameLevel.Update | src/view/game-level.ts:233-303 | A tick only rewrites body records: handles, colliders and joints are kept. The player ticks first: its impulse and new state come from its own update, and the held inputs are applied after it. Its body takes the velocity read back after the impulse, damped to 0.9·vx when \|vx\| > 10, so the written speed never exceeds the read-back one; every other body is untouched. The enemies and blocks then tick against that world, in order. Callbacks are the collision drain in event order. Audio is the drag sound, then the contact-force sounds. The drag target is read from the post-player world, and the hook ages. |
| GameLevel.InputTakesEffectNextTick | src/view/game-level.ts:237-254 | This tick's applied impulse does not depend on the held input. Afterwards the pending impulse is exactly the held directions' forces, the boost request is the held boost, and each contact flag is the answer of its ray cast this tick, so a held move cannot turn a mid-air jump into a ground jump. |
| GameLevel.UpdateKeepsLive | src/view/game-level.ts:233-303 | A tick keeps the hook, the player's body, and every enemy and block live in the world. |
| GameLevel.HandleGrapplePressed | src/view/game-level.ts:151-177 | The handler grapples from the player's body, and plays the grapple sound (volume 0.7, detune in [0, 1000), rate in [0.75, 1.25)) exactly when the grapple succeeds. |
| GameLevel.HandleGrappleRelease | src/view/game-level.ts:179-181 | The release key is the hook's newest-first release on the level's world: the newest link and exactly its joint go, and nothing else in the level changes. |
| GameLevel.HandleGrappleEscape | src/view/game-level.ts:183-185 | The escape key is the hook's escape from the player's body: every link hanging from the body is detached, the hook never grows, and nothing else in the level changes. |
| GameLevel.Reset | src/view/game-level.ts:187-198 | Reset empties the hook and destroys exactly its joints. Bodies change as `ResetBodies` says, colliders stay, and every level object stays live. |
| GameLevel.ResetBodiesPlayer | src/view/game-level.ts:188-190 | The player's body ends at (0, 1, 0) with velocity (0, 1, 0). |
| GameLevel.ResetBodiesEnemies | src/view/game-level.ts:191-193 | Each enemy's body ends at its start with nothing else changed. |
| GameLevel.ResetBodiesBlocks | src/view/game-level.ts:194-196 | Each block's body ends at its start with nothing else changed. |
| GameLevel.DestroyLeavesNoJoints | src/view/game-level.ts:204-220 | When every joint belongs to the hook, none survives destroy: the hook is released before any body is removed. |
| GameLevel.Destroy | src/view/game-level.ts:204-231 | Destroy empties the hook and stops the five level sounds. It removes exactly the hook's joints, the terrain colliders with their parent bodies, the danger sensors, and the enemies and blocks. |
| GameLevel.DestroyStopsEverySound | src/view/game-level.ts:209-213 | Destroy stops every sound the level has. |
| GameLevel.DestroyKeepsGoals | src/view/game-level.ts:215-230 | The goal sensors and the player's body survive destroy unchanged, unless the same handle is also among those destroy removes. |
| Tickers.NewTicker | src/application/ticker/ticker.ts:16-18 | A new ticker is stopped and empty, with its time base at construction. |
| Tickers.Delta | src/application/ticker/ticker.ts:48-53 | The delta is the elapsed time, capped at 0.1. |
| Tickers.Tick | src/application/ticker/ticker.ts:55-67 | A stopped ticker does nothing. A running one calls the before-hook, every update function in insertion order with one delta, then the after-hook, and moves the time base. |
| Tickers.TickDeltaBounded | src/application/ticker/ticker.ts:55-67 | Every update function of a tick sees the same delta, never above 0.1. |
| Tickers.Start | src/application/ticker/ticker.ts:20-26 | Start is a no-op when running. Otherwise it sets the flag, resets the time base and ticks once; the ticker is running afterwards. |
| Tickers.Stop | src/application/ticker/ticker.ts:28-30 | Stop clears the running flag only. |
| Tickers.Resume | src/application/ticker/ticker.ts:32-38 | Resume never changes the running flag. On a stopped ticker it only moves the time base. |
| Tickers.StoppedStaysSilent | src/application/ticker/ticker.ts:28-38 | After stop, neither resume nor a tick runs any update function. |
| Tickers.Add | src/application/ticker/ticker.ts:40-42 | Add appends a new function and ignores a known one, so the queue stays duplicate-free. |
| Tickers.AddIdempotent | src/application/ticker/ticker.ts:40-42 | A second add changes nothing, and the function appears in the queue. |
| Tickers.Remove | src/application/ticker/ticker.ts:44-46 | Remove drops the function and keeps every other one. |
| Tickers.AddRemoveRoundTrip | src/application/ticker/ticker.ts:40-46 | Removing a function just added restores the ticker. |
| Tickers.RemoveCutsSlot | src/application/ticker/ticker.ts:44-46 | Removing a function queued once cuts exactly its slot, so the functions before and after it keep their order. |
| AudioPools.NewPool | src/audio-manager/audio-pool.ts:22-33 | A new pool holds one silent instance at play index 0. |
| AudioPools.Play | src/audio-manager/audio-pool.ts:35-46 | The pool grows by a fresh instance exactly when the current one is playing and there is room; otherwise the current one is reused. The returned instance is playing and the pool's shape is kept. |
| AudioPools.PlayGrowth | src/audio-manager/audio-pool.ts:35-46 | A play grows the pool by at most one. A full pool never moves its index. |
| AudioPools.PlaysBounded | src/audio-manager/audio-pool.ts:35-46 | However often it plays, a pool never exceeds max(1, maxPoolSize) instances. |
| AudioPools.GrownInstanceDoesNotLoop | src/audio-manager/audio-pool.ts:75-83 | A grown instance does not take the pool's loop flag. |
| AudioPools.SetVolume | src/audio-manager/audio-pool.ts:59-62 | A volume change on an instance that is not playing is ignored. |
| AudioPools.SetDetune | src/audio-manager/audio-pool.ts:48-50 | Detune changes only the addressed instance. |
| AudioPools.SetPlaybackRate | src/audio-manager/audio-pool.ts:51-53 | The rate changes only the addressed instance. |
| AudioPools.SetLoop | src/audio-manager/audio-pool.ts:54-56 | The loop flag changes only on the addressed instance. |
| AudioPools.Ended | src/audio-manager/audio-pool.ts:57 | Stopping an instance keeps the pool's shape. |
| AudioPools.StopAll | src/audio-manager/audio-pool.ts:67-69 | Every instance stops, and nothing else changes. |
| AudioPools.StopAllThenPlayReuses | src/audio-manager/audio-pool.ts:35-69 | After stopping everything, a play reuses the current instance instead of growing. |
| AudioManagers.Clamp01 | src/audio-manager/audio-manager.ts:25 | The clamp lies in [0, 1] and is the identity inside. |
| AudioManagers.PoolFor | src/audio-manager/audio-manager.ts:29-36 | An asset's pool takes its settings, or defaults of one instance, volume 1 and no loop. |
| AudioManagers.NewManager | src/audio-manager/audio-manager.ts:24-40 | There is one pool per asset, and the master volume is clamped into [0, 1]. |
| AudioManagers.Defaults | src/audio-manager/audio-manager.ts:33-35 | An asset without settings gets one non-looping instance at full volume. |
| AudioManagers.Play | src/audio-manager/audio-manager.ts:42-50 | Play plays from that asset's pool only. |
| AudioManagers.SetVolume | src/audio-manager/audio-manager.ts:46-48 | The control forwards master·v to that asset's pool and leaves the others alone. |
| AudioManagers.MasterNeverAmplifies | src/audio-manager/audio-manager.ts:46-48 | A volume set after `setMasterVolume(mv)` lands on a playing instance as min(mv, 1)·v, and a silent instance ignores it. For a non-negative master volume the result lies between 0 and v: the master volume never amplifies. |
| AudioManagers.Stop | src/audio-manager/audio-manager.ts:52-54 | Stop silences only that asset's pool. |
| AudioManagers.StopAll | src/audio-manager/audio-manager.ts:56-60 | StopAll silences every pool. |
| AudioManagers.SetMasterVolume | src/audio-manager/audio-manager.ts:65-68 | The master volume is capped at 1 but not floored. |
| AudioManagers.NegativeMasterVolume | src/audio-manager/audio-manager.ts:24-68 | A negative volume survives `setMasterVolume` but is clamped to 0 by the constructor. |
| UserInput.RoleOf | src/application/user-input.ts:90-103 | Each key maps to its role exactly (space/w/ArrowUp boost, s/ArrowDown down, a/ArrowLeft left, d/ArrowRight right, / and e release, . and q escape), and every role key is a game key. |
| UserInput.KeyDown | src/application/user-input.ts:80-104 | Keydown ignores other targets and repeats. Otherwise it sets the key's flag and fires jump, release or escape for those keys, and it prevents the default exactly for game keys on the element. |
| UserInput.OnlyBoostKeysBoost | src/application/user-input.ts:80-104 | Only a boost key's fresh keydown raises the boost flag. |
| UserInput.KeyUp | src/application/user-input.ts:106-125 | Keyup clears only the key's flag and never fires a callback. |
| UserInput.KeyPressRoundTrip | src/application/user-input.ts:80-125 | A press and release of a key whose flag was clear restores the state. |
| UserInput.MouseDown | src/application/user-input.ts:127-149 | Button 0 grapples with the element's size, 1 escapes, 2 releases, and any other button does nothing. |
| UserInput.MouseUp | src/application/user-input.ts:151-155 | Mouseup only prevents the default, and only inside the element. |
| UserInput.TouchStart | src/application/user-input.ts:157-171 | A touch start zeroes the look vector and records the first touch as the origin. A second finger presses up; no other flag changes. |
| UserInput.TouchMove | src/application/user-input.ts:173-182 | The look vector is measured from the touch origin. |
| UserInput.TouchEnd | src/application/user-input.ts:184-192 | A touch end zeroes the look vector and releases up. |
| UserInput.MouseMove | src/application/user-input.ts:194-205 | The look vector follows the mouse only while no button is held. |
| UserInput.TwoFingerTouchPressesUp | src/application/user-input.ts:157-192 | A two-finger touch holds up until it ends, and the end leaves the look vector at rest with the other flags untouched. |
| RenderResolution.MaxPixelRatio | src/application/render-resolution-controller/render-resolution-controller.ts:68 | The upper ratio never exceeds 2. |
| RenderResolution.MinPixelRatio | src/application/render-resolution-controller/render-resolution-controller.ts:69 | The lower ratio never exceeds 0.5. |
| RenderResolution.PixelRatio | src/application/render-resolution-controller/render-resolution-controller.ts:67-74 | The ratio is non-finite exactly when the screen has zero area and a budget is not positive. Over a non-empty screen, quality 0 gives the lower ratio and quality 100 the upper. |
| RenderResolution.PixelRatioBounded | src/application/render-resolution-controller/render-resolution-controller.ts:67-74 | With minPixels ≤ maxPixels, a positive screen and a quality in [0, 100], the ratio lies between the lower and the upper ratio, which is at most 2. |
| RenderResolution.QualityAbove100Overshoots | src/application/render-resolution-controller/render-resolution-controller.ts:71 | An unclamped quality of 200 overshoots the upper ratio. |
| RenderResolution.ZeroScreenUsesCaps | src/application/render-resolution-controller/render-resolution-controller.ts:67-74 | With positive budgets, a zero-area screen takes the capped ratios: 0.5 at quality 0, 2 at quality 100, and between them for a quality in [0, 100]. |
| RenderResolution.ApplyTo | src/application/render-resolution-controller/render-resolution-controller.ts:40-65 | Applying fails exactly when the ratio is non-finite or a perspective camera meets a zero height. Otherwise the renderer gets the canvas size and the ratio, and the resolution is the size times the ratio. A perspective camera gets width/height as its aspect; an orthographic one a frustum of ±0.05 of the size. |
| RenderResolution.ZeroWidthApplies | src/application/render-resolution-controller/render-resolution-controller.ts:40-74 | A zero-width canvas of positive height with positive budgets still applies, with the capped ratio and a perspective aspect of 0. |
| RenderResolution.ResolutionKeepsAspect | src/application/render-resolution-controller/render-resolution-controller.ts:52-53 | The drawing buffer keeps the canvas's aspect ratio. |

## Left out

- Rapier itself is left out: world stepping, ray geometry, joint solving and the trimesh built with `mergeVertices`. Its answers are inputs: the ray-cast function, the contact predicate and the step outcome.
- Removing a body in the model does not remove its colliders, whereas Rapier's does. Every removal site in the source removes the collider explicitly, so the surviving handle sets are the same.
- Removing a body in the model also keeps the joints attached to it, whereas Rapier's drops them. The only joints the game creates are grapple springs, and destroy releases the hook (src/view/game-level.ts:207) before it removes any body (from line 218 on); `GameLevel.DestroyLeavesNoJoints` shows that no joint survives when the hook's springs are all the joints there are.
- Rendering, the camera follow behaviour, shadows, shaders, the debug renderer and every cosmetic left out for the same reason:
  - the player's tilt, walk timescale and boost indicator;
  - the spring's look-at and length interpolation;
  - the enemy's yaw and tilt;
  - the damping of the block-drag volume, which enters `GameLevel.DragAudio` as an input.

  All are floating-point presentation with no effect on the rules.
- The screen-space projection of the grapple direction: the handlers take the projected direction as input.
- The player's footstep and jetpack-loop sounds (src/view/components/player/player.ts:216-231, 264-285) are left out: their volumes and rates are damped presentation values and they never change the player's state.
- `Math.random` is left out; the spring's origin jitter and the grapple sound's detune and rate draws are parameters.
- `setShadowMapQuality` (src/view/game-level.ts:138-145) is dead code, since the light it would touch is never assigned.
- `handleJumpPressed` (src/view/game-level.ts:147-149) only calls the player's jump, modelled as `PlayerController.Jump`.
- Asset loading, bootstrapping and UI wiring are I/O. The application's tick gate (a level exists and the game scene is shown) is a caller's condition on `GameLevel.Update`.
- The scene-graph traversal is given as the list of nodes in traversal order; a node carries only the fields the builder reads.
- LevelParser.Parse: a failing parse returns an error and discards the physics effects of the partly built level. The source throws after those effects.
- RenderResolution.PixelRatio: a NaN or infinite ratio is reported as `None` rather than carried through. `RenderResolution.ApplyTo` does the same for a perspective camera's aspect on a zero-height canvas. A zero screen is taken as +0, as for a canvas of non-negative size; JavaScript's -0 is not modelled.
- GameLevel.DrainCollisions and GameLevel.DrainForces state only length bounds in their own contracts. Their meaning is stated by `GameLevel.ReachedGoalIff`, `GameLevel.DrainForcesPlays` and `GameLevel.DrainForcesVolumes`.
- GameLevel.ResetBodiesPlayer, GameLevel.ResetBodiesEnemies and GameLevel.ResetBodiesBlocks assume the player, enemies and blocks own distinct bodies; `GameLevel.NewLevelSeparate` proves this of every level just built around an existing player body. Without that, a later reset of a shared body would overwrite an earlier one.
- Grapple.Grapple: the bound on the hook's size is stated for `maxInstances` ≥ 1, which covers the hook's constant 4.
- GameLevel.HandleGrapplePressed: the detune and rate ranges are stated for random draws in [0, 1), as `Math.random` returns.

=== FILE: audio_manager.dfy ===
/** The audio manager: one pool per named asset and a master volume that
    scales every volume set through `play`'s controls. */
module AudioManagers {
  import opened Common
  import AudioPools

  /** An asset's optional settings; `None` is an omitted field. */
  datatype AssetConfig = AssetConfig(maxInstances: Option<int>, volume: Option<real>, loop: Option<bool>)

  datatype Manager<N(==)> = Manager(pools: map<N, AudioPools.Pool>, masterVolume: real)

  predicate Inv<N(==)>(m: Manager<N>) {
    forall n :: n in m.pools ==> AudioPools.Inv(m.pools[n])
  }

  /** `max(min(v, 1), 0)`. */
  function Clamp01(v: real): (r: real)
    ensures 0.0 <= r <= 1.0
    ensures 0.0 <= v <= 1.0 ==> r == v
    ensures v > 1.0 ==> r == 1.0
    ensures v < 0.0 ==> r == 0.0
  {
    Max(Min(v, 1.0), 0.0)
  }

  /** The pool an asset gets: at most one instance, full volume and no loop
      unless the asset says otherwise. */
  function PoolFor(c: AssetConfig): (p: AudioPools.Pool)
    ensures AudioPools.Inv(p)
    ensures p.maxPoolSize == c.maxInstances.GetOr(1) && p.volume == c.volume.GetOr(1.0)
    ensures p.instances[0].loop == c.loop.GetOr(false)
  {
    AudioPools.NewPool(c.maxInstances.GetOr(1), c.volume.GetOr(1.0), c.loop.GetOr(false))
  }

  /** `new AudioManager(...)`: the master volume is clamped into [0, 1]. */
  function NewManager<N(==)>(masterVolume: real, assets: map<N, AssetConfig>): (m: Manager<N>)
    ensures Inv(m) && m.pools.Keys == assets.Keys
    ensures 0.0 <= m.masterVolume <= 1.0 && m.masterVolume == Clamp01(masterVolume)
    ensures forall n :: n in assets ==> m.pools[n] == PoolFor(assets[n])
  {
    Manager(map n | n in assets :: PoolFor(assets[n]), Clamp01(masterVolume))
  }

  /** An asset with no settings gets one instance, volume 1 and no loop. */
  lemma Defaults()
    ensures var p := PoolFor(AssetConfig(None, None, None));
      p.maxPoolSize == 1 && p.volume == 1.0 && !p.instances[0].loop && |p.instances| == 1
  {
  }

  /** `play(name)`: plays from the asset's pool. */
  function Play<N(==)>(m: Manager<N>, name: N): (r: (Manager<N>, nat))
    requires Inv(m) && name in m.pools
    ensures Inv(r.0) && r.0.masterVolume == m.masterVolume && r.0.pools.Keys == m.pools.Keys
    ensures r.0.pools == m.pools[name := AudioPools.Play(m.pools[name]).0] && r.1 == AudioPools.Play(m.pools[name]).1
  {
    var (p, k) := AudioPools.Play(m.pools[name]);
    (m.(pools := m.pools[name := p]), k)
  }

  /** The `setVolume` control `play` returns: it forwards master · v. */
  function SetVolume<N(==)>(m: Manager<N>, name: N, k: nat, v: real): (r: Manager<N>)
    requires name in m.pools && k < |m.pools[name].instances|
    ensures r.pools.Keys == m.pools.Keys && r.masterVolume == m.masterVolume
    ensures forall n :: n in m.pools && n != name ==> r.pools[n] == m.pools[n]
    ensures r.pools[name] == AudioPools.SetVolume(m.pools[name], k, m.masterVolume * v)
  {
    m.(pools := m.pools[name := AudioPools.SetVolume(m.pools[name], k, m.masterVolume * v)])
  }

  /** A volume set after `setMasterVolume(mv)` lands on a playing instance as
      min(mv, 1) · v, and a silent instance ignores it. Because the master
      volume is capped at 1, it never amplifies: for a non-negative master
      volume the instance ends between 0 and the requested volume. */
  lemma MasterNeverAmplifies<N>(m: Manager<N>, mv: real, name: N, k: nat, v: real)
    requires name in m.pools && k < |m.pools[name].instances|
    ensures var after := SetVolume(SetMasterVolume(m, mv), name, k, v).pools[name].instances[k].volume;
      && (m.pools[name].instances[k].playing ==> after == Min(mv, 1.0) * v)
      && (!m.pools[name].instances[k].playing ==> after == m.pools[name].instances[k].volume)
      && (m.pools[name].instances[k].playing && 0.0 <= mv && 0.0 <= v ==> 0.0 <= after <= v)
  {
    var master := Min(mv, 1.0);
    if 0.0 <= mv && 0.0 <= v {
      MulNonNeg(master, v);
      MulNonNeg(1.0 - master, v);
      assert (1.0 - master) * v == v - master * v;
    }
  }

  /** `stop(name)`: stops only that asset's pool. */
  function Stop<N(==)>(m: Manager<N>, name: N): (r: Manager<N>)
    requires name in m.pools
    ensures r.pools.Keys == m.pools.Keys && r.masterVolume == m.masterVolume
    ensures forall n :: n in m.pools && n != name ==> r.pools[n] == m.pools[n]
    ensures forall i :: 0 <= i < |r.pools[name].instances| ==> !r.pools[name].instances[i].playing
    ensures Inv(m) ==> Inv(r)
  {
    m.(pools := m.pools[name := AudioPools.StopAll(m.pools[name])])
  }

  /** `stopAll()`: every pool stops. */
  function StopAll<N(==)>(m: Manager<N>): (r: Manager<N>)
    ensures r.pools.Keys == m.pools.Keys && r.masterVolume == m.masterVolume
    ensures forall n :: n in r.pools ==> r.pools[n] == AudioPools.StopAll(m.pools[n])
    ensures forall n, i :: n in r.pools && 0 <= i < |r.pools[n].instances| ==> !r.pools[n].instances[i].playing
    ensures Inv(m) ==> Inv(r)
  {
    m.(pools := map n | n in m.pools :: AudioPools.StopAll(m.pools[n]))
  }

  /** `setMasterVolume(v)`: capped at 1 but, unlike the constructor, not floored at 0. */
  function SetMasterVolume<N(==)>(m: Manager<N>, v: real): (r: Manager<N>)
    ensures r.pools == m.pools
    ensures r.masterVolume <= 1.0
    ensures v <= 1.0 ==> r.masterVolume == v
    ensures v > 1.0 ==> r.masterVolume == 1.0
  {
    m.(masterVolume := Min(v, 1.0))
  }

  /** A negative master volume survives `setMasterVolume` but not the constructor. */
  lemma NegativeMasterVolume<N>(m: Manager<N>, assets: map<N, AssetConfig>)
    ensures SetMasterVolume(m, -0.5).masterVolume == -0.5
    ensures NewManager(-0.5, assets).masterVolume == 0.0
  {
  }
}

=== FILE: audio_pool.dfy ===
/** A pool of audio instances sharing one buffer. The pool grows by one
    instance when the instance at the play index is still playing and there
    is room; otherwise the instance at the index is reused. Whether an
    instance is playing is the environment's business (a sound ends on its
    own); `Ended` is that transition. */
module AudioPools {
  datatype Instance = Instance(playing: bool, loop: bool, volume: real, detune: real, rate: real)

  datatype Pool = Pool(instances: seq<Instance>, playIndex: nat, maxPoolSize: int, volume: real)

  /** A fresh three.js audio object with the pool's buffer and volume. */
  function Fresh(loop: bool, volume: real): Instance {
    Instance(false, loop, volume, 0.0, 1.0)
  }

  /** The pool's shape: the play index is the last instance, and the pool
      holds at least one and at most max(1, maxPoolSize) instances. */
  predicate Inv(p: Pool) {
    && 1 <= |p.instances|
    && p.playIndex == |p.instances| - 1
    && (|p.instances| == 1 || |p.instances| <= p.maxPoolSize)
  }

  /** `new AudioPool(...)`: one silent instance with the given loop flag and
      volume, at play index 0. */
  function NewPool(maxPoolSize: int, volume: real, loop: bool): (p: Pool)
    ensures Inv(p) && |p.instances| == 1 && p.playIndex == 0
    ensures p.instances[0] == Fresh(loop, volume)
  {
    Pool([Fresh(loop, volume)], 0, maxPoolSize, volume)
  }

  /** `play()`: the pool and the index of the instance the controls drive. */
  function Play(p: Pool): (r: (Pool, nat))
    requires Inv(p)
    ensures var (q, k) := r;
      && Inv(q) && k == q.playIndex && q.instances[k].playing
      && q.maxPoolSize == p.maxPoolSize && q.volume == p.volume
    ensures var grows := p.instances[p.playIndex].playing && |p.instances| < p.maxPoolSize;
      && (grows ==> r.0.instances == p.instances + [Fresh(false, p.volume).(playing := true)])
      && (!grows ==> r.0.instances == p.instances[p.playIndex := p.instances[p.playIndex].(playing := true)])
  {
    var grows := p.instances[p.playIndex].playing && |p.instances| < p.maxPoolSize;
    var instances := if grows then p.instances + [Fresh(false, p.volume)] else p.instances;
    var index := if grows then (p.playIndex + 1) % |instances| else p.playIndex;
    var current := instances[index];
    var started := if current.playing then current else current.(playing := true);
    (p.(instances := instances[index := started], playIndex := index), index)
  }

  /** The pool grows by exactly one instance, only when the instance at the
      index is playing and there is room; a full pool never moves its index. */
  lemma PlayGrowth(p: Pool)
    requires Inv(p)
    ensures var q := Play(p).0;
      && (|q.instances| == |p.instances| + 1 <==> p.instances[p.playIndex].playing && |p.instances| < p.maxPoolSize)
      && (|q.instances| == |p.instances| || |q.instances| == |p.instances| + 1)
      && (|p.instances| >= p.maxPoolSize ==> q.playIndex == p.playIndex && |q.instances| == |p.instances|)
  {
  }

  /** However many times it plays, a pool never holds more than
      max(1, maxPoolSize) instances. */
  lemma {:induction false} PlaysBounded(p: Pool, n: nat)
    requires Inv(p)
    ensures Inv(Plays(p, n)) && |Plays(p, n).instances| <= if p.maxPoolSize < 1 then 1 else p.maxPoolSize
    decreases n
  {
    if n > 0 {
      PlaysBounded(Play(p).0, n - 1);
    }
  }

  function Plays(p: Pool, n: nat): Pool
    requires Inv(p)
    decreases n
  {
    if n == 0 then p else Plays(Play(p).0, n - 1)
  }

  /** A grown instance has the three.js default loop flag, not the pool's. */
  lemma GrownInstanceDoesNotLoop(p: Pool)
    requires Inv(p) && p.instances[p.playIndex].playing && |p.instances| < p.maxPoolSize
    ensures var q := Play(p); !q.0.instances[q.1].loop
  {
  }

  /** The control `setVolume`: ignored unless the instance is playing. */
  function SetVolume(p: Pool, k: nat, v: real): (q: Pool)
    requires k < |p.instances|
    ensures |q.instances| == |p.instances| && q.playIndex == p.playIndex
    ensures p.instances[k].playing ==> q.instances == p.instances[k := p.instances[k].(volume := v)]
    ensures !p.instances[k].playing ==> q == p
  {
    if !p.instances[k].playing then p
    else p.(instances := p.instances[k := p.instances[k].(volume := v)])
  }

  /** The controls `setDetune`, `setPlaybackRate` and `setLoop` act unconditionally. */
  function SetDetune(p: Pool, k: nat, cents: real): (q: Pool)
    requires k < |p.instances|
    ensures q.instances == p.instances[k := p.instances[k].(detune := cents)] && q.playIndex == p.playIndex
  {
    p.(instances := p.instances[k := p.instances[k].(detune := cents)])
  }

  function SetPlaybackRate(p: Pool, k: nat, rate: real): (q: Pool)
    requires k < |p.instances|
    ensures q.instances == p.instances[k := p.instances[k].(rate := rate)] && q.playIndex == p.playIndex
  {
    p.(instances := p.instances[k := p.instances[k].(rate := rate)])
  }

  function SetLoop(p: Pool, k: nat, loop: bool): (q: Pool)
    requires k < |p.instances|
    ensures q.instances == p.instances[k := p.instances[k].(loop := loop)] && q.playIndex == p.playIndex
  {
    p.(instances := p.instances[k := p.instances[k].(loop := loop)])
  }

  /** The control `stop`, and equally a sound ending on its own. */
  function Ended(p: Pool, k: nat): (q: Pool)
    requires k < |p.instances|
    ensures q.instances == p.instances[k := p.instances[k].(playing := false)] && q.playIndex == p.playIndex
    ensures Inv(p) ==> Inv(q)
  {
    p.(instances := p.instances[k := p.instances[k].(playing := false)])
  }

  /** `stopAll()`: every instance stops; nothing else about them changes. */
  function StopAll(p: Pool): (q: Pool)
    ensures |q.instances| == |p.instances| && q.playIndex == p.playIndex
    ensures forall i :: 0 <= i < |p.instances| ==> q.instances[i] == p.instances[i].(playing := false)
    ensures Inv(p) ==> Inv(q)
  {
    p.(instances := seq(|p.instances|, i requires 0 <= i < |p.instances| => p.instances[i].(playing := false)))
  }

  /** After `stopAll` a play reuses the instance at the index instead of growing. */
  lemma StopAllThenPlayReuses(p: Pool)
    requires Inv(p)
    ensures var q := StopAll(p);
      Play(q).1 == p.playIndex && |Play(q).0.instances| == |p.instances|
  {
  }
}

=== FILE: common.dfy ===
/** Small shared vocabulary: optional values, results, facing direction,
    the clamps the game logic is built from, and substring search on names. */
module Common {

  datatype Option<+T> = None | Some(value: T) {
    function GetOr(default: T): T {
      match this
      case Some(v) => v
      case None => default
    }
  }

  datatype Result<+T, +E> = Ok(value: T) | Err(error: E)

  /** The "left" | "right" facing shared by the player and the enemies. */
  datatype Direction = Left | Right

  function Min(a: real, b: real): (r: real)
    ensures r <= a && r <= b
    ensures r == a || r == b
  {
    if a <= b then a else b
  }

  function Max(a: real, b: real): (r: real)
    ensures r >= a && r >= b
    ensures r == a || r == b
  {
    if a >= b then a else b
  }

  function Abs(a: real): (r: real)
    ensures r >= 0.0
    ensures r == a || r == -a
  {
    if a < 0.0 then -a else a
  }

  predicate StartsWith(s: string, p: string) {
    |p| <= |s| && s[..|p|] == p
  }

  /** p occurs in s starting at position i. */
  predicate OccursAt(s: string, p: string, i: int) {
    0 <= i <= |s| - |p| && s[i..i + |p|] == p
  }

  /** `s.includes(p)`: s or one of its suffixes starts with p (the empty
      string occurs everywhere). */
  predicate Contains(s: string, p: string)
    decreases |s|
  {
    StartsWith(s, p) || (|s| > 0 && Contains(s[1..], p))
  }

  /** The suffix search agrees with the positional definition of an occurrence. */
  lemma {:induction false} ContainsAt(s: string, p: string)
    ensures Contains(s, p) <==> exists i :: OccursAt(s, p, i)
    decreases |s|
  {
    if StartsWith(s, p) {
      assert OccursAt(s, p, 0);
    }
    if |s| > 0 {
      ContainsAt(s[1..], p);
      if Contains(s[1..], p) {
        var i :| OccursAt(s[1..], p, i);
        assert s[i + 1..i + 1 + |p|] == s[1..][i..i + |p|];
        assert OccursAt(s, p, i + 1);
      }
      if exists i :: OccursAt(s, p, i) {
        var i :| OccursAt(s, p, i);
        if i > 0 {
          assert s[1..][i - 1..i - 1 + |p|] == s[i..i + |p|];
          assert OccursAt(s[1..], p, i - 1);
        } else {
          assert StartsWith(s, p);
        }
      }
    } else {
      if exists i :: OccursAt(s, p, i) {
        var i :| OccursAt(s, p, i);
        assert StartsWith(s, p);
      }
    }
  }

  /** The elements of s satisfying p, in order. */
  function Filter<T>(s: seq<T>, p: T -> bool): (r: seq<T>)
    ensures |r| <= |s|
    ensures forall x :: x in r ==> x in s && p(x)
    decreases |s|
  {
    if s == [] then [] else (if p(s[0]) then [s[0]] else []) + Filter(s[1..], p)
  }

  /** Filtering commutes with appending one element at the end. */
  lemma {:induction false} FilterAppend<T>(s: seq<T>, x: T, p: T -> bool)
    ensures Filter(s + [x], p) == Filter(s, p) + (if p(x) then [x] else [])
    decreases |s|
  {
    if s != [] {
      assert (s + [x])[1..] == s[1..] + [x];
      FilterAppend(s[1..], x, p);
    }
  }

  /** The product of two non-negative reals is non-negative. */
  lemma MulNonNeg(a: real, b: real)
    requires 0.0 <= a && 0.0 <= b
    ensures 0.0 <= a * b
  {
  }

  /** Filtering keeps every element that satisfies the predicate. */
  lemma {:induction false} FilterComplete<T>(s: seq<T>, p: T -> bool)
    ensures forall x :: x in s && p(x) ==> x in Filter(s, p)
    decreases |s|
  {
    if s != [] {
      FilterComplete(s[1..], p);
      forall x | x in s && p(x) ensures x in Filter(s, p) {
        if x != s[0] {
          assert x in s[1..];
        }
      }
    }
  }

  /** The index of the last element of s satisfying p. */
  function Last<T>(s: seq<T>, p: T -> bool): (r: Option<nat>)
    ensures r.Some? ==> r.value < |s| && p(s[r.value]) && forall j :: r.value < j < |s| ==> !p(s[j])
    ensures r.None? ==> forall j :: 0 <= j < |s| ==> !p(s[j])
    decreases |s|
  {
    if s == [] then None
    else if p(s[|s| - 1]) then Some(|s| - 1)
    else Last(s[..|s| - 1], p)
  }

  predicate Distinct<T(==)>(s: seq<T>) {
    forall i, j :: 0 <= i < |s| && 0 <= j < |s| && i != j ==> s[i] != s[j]
  }

  predicate Disjoint<T(==)>(a: seq<T>, b: seq<T>) {
    forall x :: x in a ==> x !in b
  }
}

=== FILE: enemy.dfy ===
/** A patrolling enemy: a dynamic ball body that walks in its current
    direction and turns around when a short horizontal ray meets a wall.
    Facing and tilt animations are cosmetic and not modelled. */
module Enemies {
  import opened Common
  import opened Physics

  const EnemyMoveForce := 2.5
  const EnemyRayLength := 0.45
  const EnemyRadius := 0.2

  datatype Enemy = Enemy(body: BodyHandle, collider: ColliderHandle, start: Vec3, direction: Direction)

  /** The enemy's physics representation is live in the world. */
  predicate Present(e: Enemy, w: World) {
    && e.body in w.bodies
    && e.collider in w.colliders
    && w.colliders[e.collider].parent == Some(e.body)
  }

  /** `new Enemy(...)`: remembers the model position as its start, faces right,
      and creates a dynamic body there with a solid 0.2 ball collider. */
  function NewEnemy(w: World, position: Vec3): (r: (Enemy, World))
    requires Valid(w)
    ensures var (e, w') := r;
      && e.start == position && e.direction == Right
      && e.body !in w.bodies && e.collider !in w.colliders
      && w'.bodies == w.bodies[e.body := Body(Dynamic, position, Origin, Identity)]
      && w'.colliders == w.colliders[e.collider := Collider(Some(e.body), false, Ball(EnemyRadius))]
      && w'.joints == w.joints
      && Valid(w') && Present(e, w')
  {
    var (b, w1) := CreateBody(w, Body(Dynamic, position, Origin, Identity));
    var (c, w2) := CreateCollider(w1, Collider(Some(b), false, Ball(EnemyRadius)));
    (Enemy(b, c, position, Right), w2)
  }

  function SideRay(origin: Vec3, d: Direction, own: ColliderHandle): RayQuery {
    RayQuery(origin, Vec3(if d == Left then -1.0 else 1.0, 0.0, 0.0), EnemyRayLength, own)
  }

  datatype EnemyTick = EnemyTick(enemy: Enemy, impulse: Vec3)

  /** `update(delta)`: a wall on the left sends the enemy right; otherwise a
      wall on the right sends it left; otherwise it keeps going. The right ray
      is only cast when the left one missed. The walking impulse is scaled by delta. */
  function Update(e: Enemy, delta: real, origin: Vec3, cast: RayCaster): (r: EnemyTick)
    ensures cast(SideRay(origin, Left, e.collider)).Some? ==> r.enemy.direction == Right
    ensures cast(SideRay(origin, Left, e.collider)).None? && cast(SideRay(origin, Right, e.collider)).Some?
      ==> r.enemy.direction == Left
    ensures cast(SideRay(origin, Left, e.collider)).None? && cast(SideRay(origin, Right, e.collider)).None?
      ==> r.enemy.direction == e.direction
    ensures r.enemy.(direction := e.direction) == e
    ensures r.impulse.y == 0.0 && r.impulse.z == 0.0
    ensures r.impulse.x == (if r.enemy.direction == Right then EnemyMoveForce else -EnemyMoveForce) * delta
  {
    var dir :=
      if cast(SideRay(origin, Left, e.collider)).Some? then Right
      else if cast(SideRay(origin, Right, e.collider)).Some? then Left
      else e.direction;
    var force := if dir == Right then EnemyMoveForce else -EnemyMoveForce;
    EnemyTick(e.(direction := dir), Vec3(force * delta, 0.0, 0.0))
  }

  /** Between two walls an enemy always heads right, and with no wall in
      reach the walking impulse points the way it already faced. */
  lemma UpdateWalks(e: Enemy, delta: real, origin: Vec3, cast: RayCaster)
    requires delta > 0.0
    ensures cast(SideRay(origin, Left, e.collider)).Some? ==> Update(e, delta, origin, cast).impulse.x > 0.0
    ensures cast(SideRay(origin, Left, e.collider)).None? && cast(SideRay(origin, Right, e.collider)).Some?
      ==> Update(e, delta, origin, cast).impulse.x < 0.0
    ensures (Update(e, delta, origin, cast).impulse.x > 0.0) <==> Update(e, delta, origin, cast).enemy.direction == Right
  {
  }

  /** The walk, stated without the branch order: the enemy pushes right
      exactly when a wall is on its left, or no wall is on its right and it
      already faced right; always at the same speed. With the same ray
      results a second update keeps the decision, so the enemy does not
      oscillate in place. */
  lemma UpdateHeading(e: Enemy, delta: real, origin: Vec3, cast: RayCaster)
    requires delta > 0.0
    ensures var t := Update(e, delta, origin, cast);
      var wallLeft := cast(SideRay(origin, Left, e.collider)).Some?;
      var wallRight := cast(SideRay(origin, Right, e.collider)).Some?;
      && (t.impulse.x > 0.0 <==> wallLeft || (!wallRight && e.direction == Right))
      && (t.impulse.x < 0.0 <==> !wallLeft && (wallRight || e.direction == Left))
      && Abs(t.impulse.x) == EnemyMoveForce * delta
      && Update(t.enemy, delta, origin, cast) == t
  {
    var t := Update(e, delta, origin, cast);
    assert t.enemy.collider == e.collider;
  }

  /** `reset()`: moves the body back to the start; its velocity and the
      facing are left as they are. */
  function Reset(e: Enemy, w: World): (w': World)
    requires e.body in w.bodies
    ensures w'.bodies.Keys == w.bodies.Keys
    ensures w'.bodies[e.body] == w.bodies[e.body].(translation := e.start)
    ensures forall h :: h in w.bodies && h != e.body ==> w'.bodies[h] == w.bodies[h]
    ensures w'.colliders == w.colliders && w'.joints == w.joints
  {
    SetTranslation(w, e.body, e.start)
  }

  /** `destroy()`: removes the enemy's collider, then its body. */
  function Destroy(e: Enemy, w: World): (w': World)
    ensures w'.colliders == w.colliders - {e.collider}
    ensures w'.bodies == w.bodies - {e.body}
    ensures w'.joints == w.joints
    ensures !Present(e, w')
  {
    RemoveColliderAndBody(w, e.collider, e.body)
  }
}

=== FILE: game_level.dfy ===
/** The level: owns the player's link to the level's entities, the grappling
    hook, the sensor and terrain colliders and the enemies and blocks the
    builder produced. Each tick it updates every entity, applies the held
    inputs, mixes the block-drag sound from contact pairs and turns the
    engine's collision and contact-force events into callbacks and sounds.
    The physics step itself and the camera are outside the model: what the
    step produced reaches `Update` as a `StepOutcome`. */
module GameLevel {
  import opened Common
  import opened Physics
  import P = PlayerController
  import Grapple
  import Springs
  import Enemies
  import MoveableBlocks
  import LevelParser

  const CameraFollowDistance := 45.0
  const RenderDistance := CameraFollowDistance + 50.0
  const CameraFov := 20.0

  /** The configuration the level hands to the builder (shadows off). */
  const BuilderConfig := LevelParser.LevelConfig(CameraFollowDistance, RenderDistance, false)

  datatype Sound = GrappleSound | WoodHit | Drop | PlayerHit | BlockDrag

  /** What the level asks of the audio manager, in order. */
  datatype AudioCall =
    | Play(sound: Sound)
    | SetVolume(sound: Sound, volume: real)
    | SetDetune(sound: Sound, cents: real)
    | SetPlaybackRate(sound: Sound, rate: real)
    | Stop(sound: Sound)

  datatype Callback = PlayerDied | ReachedGoal

  datatype Level = Level(
    playerBody: BodyHandle,
    playerCollider: ColliderHandle,
    player: P.PlayerState,
    hook: Grapple.Hook,
    goalSensors: seq<ColliderHandle>,
    dangerSensors: seq<ColliderHandle>,
    terrainColliders: seq<ColliderHandle>,
    enemies: seq<Enemies.Enemy>,
    blocks: seq<MoveableBlocks.Block>)

  /** The level's own objects are live in the world and the hook agrees with it. */
  predicate Live(l: Level, w: World) {
    && Grapple.Consistent(l.hook, w)
    && l.playerBody in w.bodies
    && (forall i :: 0 <= i < |l.enemies| ==> Enemies.Present(l.enemies[i], w))
    && (forall i :: 0 <= i < |l.blocks| ==> MoveableBlocks.Present(l.blocks[i], w))
  }

  /** `new GameLevel(...)`: builds the level model with the level's own
      configuration and starts with an empty hook. */
  function NewLevel(nodes: seq<LevelParser.Node>, w0: World, playerBody: BodyHandle,
                    playerCollider: ColliderHandle, player: P.PlayerState): (r: Result<(Level, World), MoveableBlocks.BlockError>)
    requires Valid(w0)
    ensures LevelParser.Parse(nodes, w0, BuilderConfig).Err? <==> r.Err?
    ensures r.Ok? ==>
      var (l, w) := r.value;
      var parsed := LevelParser.Parse(nodes, w0, BuilderConfig).value;
      && l.hook == Grapple.NewHook && l.player == player && l.playerBody == playerBody && l.playerCollider == playerCollider
      && l.goalSensors == parsed.goalSensors && l.dangerSensors == parsed.dangerSensors
      && l.terrainColliders == parsed.terrainColliders
      && l.enemies == parsed.enemies && l.blocks == parsed.blocks
      && w == parsed.world && Valid(w)
    ensures r.Ok? && playerBody in w0.bodies ==> Live(r.value.0, r.value.1)
  {
    match LevelParser.Parse(nodes, w0, BuilderConfig)
    case Err(e) => Err(e)
    case Ok(parsed) =>
      var l := Level(playerBody, playerCollider, player, Grapple.NewHook, parsed.goalSensors, parsed.dangerSensors,
                     parsed.terrainColliders, parsed.enemies, parsed.blocks);
      ParsedLive(nodes, w0, l);
      Ok((l, parsed.world))
  }

  /** A level holding the parsed entities and an empty hook is live in the
      parsed world whenever its player's body was live before the build. */
  lemma ParsedLive(nodes: seq<LevelParser.Node>, w0: World, l: Level)
    requires Valid(w0) && LevelParser.Parse(nodes, w0, BuilderConfig).Ok?
    requires var parsed := LevelParser.Parse(nodes, w0, BuilderConfig).value;
      l.hook == Grapple.NewHook && l.enemies == parsed.enemies && l.blocks == parsed.blocks
    ensures l.playerBody in w0.bodies ==> Live(l, LevelParser.Parse(nodes, w0, BuilderConfig).value.world)
  {
    var parsed := LevelParser.Parse(nodes, w0, BuilderConfig).value;
    LevelParser.ParseEnemies(nodes, w0, BuilderConfig);
    LevelParser.ParseBlocks(nodes, w0, BuilderConfig);
    assert forall i :: 0 <= i < |l.enemies| ==> Enemies.Present(l.enemies[i], parsed.world);
    assert forall i :: 0 <= i < |l.blocks| ==> MoveableBlocks.Present(l.blocks[i], parsed.world);
    assert Grapple.Consistent(l.hook, parsed.world);
  }

  /** A level just built gives the player, every enemy and every block a
      body of its own, which is what the reset lemmas below rely on. */
  lemma NewLevelSeparate(nodes: seq<LevelParser.Node>, w0: World, playerBody: BodyHandle,
                         playerCollider: ColliderHandle, player: P.PlayerState)
    requires Valid(w0)
    ensures var r := NewLevel(nodes, w0, playerBody, playerCollider, player);
      r.Ok? && playerBody in w0.bodies ==> SeparateBodies(r.value.0)
  {
    LevelParser.ParseSeparateBodies(nodes, w0, BuilderConfig);
  }

  /** A level's model, parsed with the level's configuration, gets a fog band
      from 20 to 95 units, which the camera's follow distance of 45 lies inside. */
  lemma LevelFog(nodes: seq<LevelParser.Node>, w0: World)
    requires Valid(w0)
    ensures var r := LevelParser.Parse(nodes, w0, BuilderConfig);
      r.Ok? ==> && r.value.fog.near == 20.0 && r.value.fog.far == RenderDistance
                && r.value.fog.near < CameraFollowDistance < r.value.fog.far
  {
    LevelParser.ParseScene(nodes, w0, BuilderConfig);
  }

  // ---------------------------------------------------------------------------
  // collision events

  datatype CollisionEvent = CollisionEvent(handle1: ColliderHandle, handle2: ColliderHandle, started: bool)

  datatype CollisionKind = HitGoal | HitEnemy | HitDanger

  /** The player test compares the event's collider handles with the player's
      rigid-body handle, exactly as the level does. */
  predicate IsPlayer(l: Level, h1: ColliderHandle, h2: ColliderHandle) {
    h1 == l.playerBody || h2 == l.playerBody
  }

  predicate TouchesAny(hs: seq<ColliderHandle>, h1: ColliderHandle, h2: ColliderHandle) {
    h1 in hs || h2 in hs
  }

  function EnemyColliders(l: Level): (r: seq<ColliderHandle>)
    ensures |r| == |l.enemies| && forall i :: 0 <= i < |l.enemies| ==> r[i] == l.enemies[i].collider
  {
    seq(|l.enemies|, i requires 0 <= i < |l.enemies| => l.enemies[i].collider)
  }

  function BlockColliders(l: Level): (r: seq<ColliderHandle>)
    ensures |r| == |l.blocks| && forall i :: 0 <= i < |l.blocks| ==> r[i] == l.blocks[i].collider
  {
    seq(|l.blocks|, i requires 0 <= i < |l.blocks| => l.blocks[i].collider)
  }

  /** `#processCollisionEvent`: only started events involving the player
      count; a goal wins over an enemy, an enemy over a danger sensor. */
  function ClassifyCollision(l: Level, e: CollisionEvent): (r: Option<CollisionKind>)
    ensures r.Some? ==> e.started && IsPlayer(l, e.handle1, e.handle2)
    ensures r == Some(HitGoal) <==> e.started && IsPlayer(l, e.handle1, e.handle2) && TouchesAny(l.goalSensors, e.handle1, e.handle2)
    ensures r == Some(HitEnemy) <==>
      && e.started && IsPlayer(l, e.handle1, e.handle2)
      && !TouchesAny(l.goalSensors, e.handle1, e.handle2)
      && exists i :: 0 <= i < |l.enemies| && (l.enemies[i].collider == e.handle1 || l.enemies[i].collider == e.handle2)
    ensures r == Some(HitDanger) <==>
      && e.started && IsPlayer(l, e.handle1, e.handle2)
      && !TouchesAny(l.goalSensors, e.handle1, e.handle2)
      && !(exists i :: 0 <= i < |l.enemies| && (l.enemies[i].collider == e.handle1 || l.enemies[i].collider == e.handle2))
      && TouchesAny(l.dangerSensors, e.handle1, e.handle2)
  {
    var goal := TouchesAny(l.goalSensors, e.handle1, e.handle2);
    var danger := TouchesAny(l.dangerSensors, e.handle1, e.handle2);
    var player := IsPlayer(l, e.handle1, e.handle2);
    var enemy := TouchesAny(EnemyColliders(l), e.handle1, e.handle2);
    assert enemy <==> exists i :: 0 <= i < |l.enemies| && (l.enemies[i].collider == e.handle1 || l.enemies[i].collider == e.handle2) by {
      if enemy {
        var c := EnemyColliders(l);
        if e.handle1 in c {
          var i :| 0 <= i < |c| && c[i] == e.handle1;
          assert l.enemies[i].collider == e.handle1;
        } else {
          var i :| 0 <= i < |c| && c[i] == e.handle2;
          assert l.enemies[i].collider == e.handle2;
        }
      }
    }
    if e.started && goal && player then Some(HitGoal)
    else if e.started && player && enemy then Some(HitEnemy)
    else if e.started && player && danger then Some(HitDanger)
    else None
  }

  /** The drain's switch: danger kills, the goal finishes, an enemy does nothing. */
  function Dispatch(k: Option<CollisionKind>): (r: seq<Callback>)
    ensures |r| <= 1
    ensures r == [PlayerDied] <==> k == Some(HitDanger)
    ensures r == [ReachedGoal] <==> k == Some(HitGoal)
  {
    match k
    case Some(HitDanger) => [PlayerDied]
    case Some(HitGoal) => [ReachedGoal]
    case _ => []
  }

  /** `drainCollisionEvents`: the callbacks fired, in event order. */
  function DrainCollisions(l: Level, events: seq<CollisionEvent>): (r: seq<Callback>)
    ensures |r| <= |events|
    decreases |events|
  {
    if events == [] then [] else Dispatch(ClassifyCollision(l, events[0])) + DrainCollisions(l, events[1..])
  }

  /** The goal callback fires exactly when some started event pairs the
      player handle with a goal sensor; the death callback exactly when one
      is classified as a danger hit. */
  lemma ReachedGoalIff(l: Level, events: seq<CollisionEvent>)
    ensures ReachedGoal in DrainCollisions(l, events) <==>
      exists i :: 0 <= i < |events| && ClassifyCollision(l, events[i]) == Some(HitGoal)
    ensures PlayerDied in DrainCollisions(l, events) <==>
      exists i :: 0 <= i < |events| && ClassifyCollision(l, events[i]) == Some(HitDanger)
  {
    DrainFires(l, events, HitGoal, ReachedGoal);
    DrainFires(l, events, HitDanger, PlayerDied);
  }

  /** A callback that kind k dispatches is in the drain iff some event has kind k. */
  lemma {:induction false} DrainFires(l: Level, events: seq<CollisionEvent>, k: CollisionKind, c: Callback)
    requires Dispatch(Some(k)) == [c]
    ensures c in DrainCollisions(l, events) <==> exists i :: 0 <= i < |events| && ClassifyCollision(l, events[i]) == Some(k)
    decreases |events|
  {
    if events != [] {
      DrainFires(l, events[1..], k, c);
      var head := Dispatch(ClassifyCollision(l, events[0]));
      assert DrainCollisions(l, events) == head + DrainCollisions(l, events[1..]);
      assert c in head <==> ClassifyCollision(l, events[0]) == Some(k);
      if exists i :: 0 <= i < |events[1..]| && ClassifyCollision(l, events[1..][i]) == Some(k) {
        var i :| 0 <= i < |events[1..]| && ClassifyCollision(l, events[1..][i]) == Some(k);
        assert events[i + 1] == events[1..][i];
      }
      if exists i :: 0 <= i < |events| && ClassifyCollision(l, events[i]) == Some(k) {
        var i :| 0 <= i < |events| && ClassifyCollision(l, events[i]) == Some(k);
        if i > 0 {
          assert events[1..][i - 1] == events[i];
        }
      }
    }
  }

  /** Touching a sensor that is both a goal and a danger counts as the goal,
      and running into an enemy fires nothing. */
  lemma GoalBeatsDanger(l: Level, e: CollisionEvent)
    requires e.started && IsPlayer(l, e.handle1, e.handle2)
    requires TouchesAny(l.goalSensors, e.handle1, e.handle2) && TouchesAny(l.dangerSensors, e.handle1, e.handle2)
    ensures Dispatch(ClassifyCollision(l, e)) == [ReachedGoal]
  {
  }

  // ---------------------------------------------------------------------------
  // contact-force events

  datatype ForceEvent = ForceEvent(collider1: ColliderHandle, collider2: ColliderHandle,
                                   totalForceMagnitude: real, maxForceMagnitude: real)

  datatype ForceKind = PlayerForce | BlockForce

  /** `#processContactForceEvent`: the player (again by its body handle) wins
      over a moveable block. */
  function ClassifyContactForce(l: Level, e: ForceEvent): (r: Option<ForceKind>)
    ensures r == Some(PlayerForce) <==> IsPlayer(l, e.collider1, e.collider2)
    ensures r == Some(BlockForce) <==>
      !IsPlayer(l, e.collider1, e.collider2) && TouchesAny(BlockColliders(l), e.collider1, e.collider2)
  {
    if IsPlayer(l, e.collider1, e.collider2) then Some(PlayerForce)
    else if TouchesAny(BlockColliders(l), e.collider1, e.collider2) then Some(BlockForce)
    else None
  }

  /** The sound for one contact-force event: the player thud scales the total
      force by 0.0003, the wood hit the largest force by 0.002, both capped at 1. */
  function ForceAudio(l: Level, e: ForceEvent): (r: seq<AudioCall>)
    ensures ClassifyContactForce(l, e).None? <==> r == []
    ensures ClassifyContactForce(l, e) == Some(PlayerForce) ==>
      r == [Play(PlayerHit), SetVolume(PlayerHit, Min(e.totalForceMagnitude * 0.0003, 1.0))]
    ensures ClassifyContactForce(l, e) == Some(BlockForce) ==>
      r == [Play(WoodHit), SetVolume(WoodHit, Min(e.maxForceMagnitude * 0.002, 1.0))]
    ensures forall i :: 0 <= i < |r| && r[i].SetVolume? ==> r[i].volume <= 1.0
    ensures e.totalForceMagnitude >= 0.0 && e.maxForceMagnitude >= 0.0 ==>
      forall i :: 0 <= i < |r| && r[i].SetVolume? ==> r[i].volume >= 0.0
  {
    match ClassifyContactForce(l, e)
    case None => []
    case Some(PlayerForce) => [Play(PlayerHit), SetVolume(PlayerHit, Min(e.totalForceMagnitude * 0.0003, 1.0))]
    case Some(BlockForce) => [Play(WoodHit), SetVolume(WoodHit, Min(e.maxForceMagnitude * 0.002, 1.0))]
  }

  /** `drainContactForceEvents`: the sounds, in event order. */
  function DrainForces(l: Level, events: seq<ForceEvent>): (r: seq<AudioCall>)
    ensures |r| <= 2 * |events|
    decreases |events|
  {
    if events == [] then [] else ForceAudio(l, events[0]) + DrainForces(l, events[1..])
  }

  /** The drain plays the player thud exactly when some event involves the
      player, and the wood hit exactly when some event involves a block but
      not the player; it touches no other sound and only plays or sets volumes. */
  lemma {:induction false} DrainForcesPlays(l: Level, events: seq<ForceEvent>)
    ensures Play(PlayerHit) in DrainForces(l, events)
      <==> exists i :: 0 <= i < |events| && ClassifyContactForce(l, events[i]) == Some(PlayerForce)
    ensures Play(WoodHit) in DrainForces(l, events)
      <==> exists i :: 0 <= i < |events| && ClassifyContactForce(l, events[i]) == Some(BlockForce)
    ensures forall c :: c in DrainForces(l, events) ==>
      (c.Play? || c.SetVolume?) && (c.sound == PlayerHit || c.sound == WoodHit)
    decreases |events|
  {
    if events != [] {
      DrainForcesPlays(l, events[1..]);
      var head := ForceAudio(l, events[0]);
      var tail := DrainForces(l, events[1..]);
      assert DrainForces(l, events) == head + tail;
      forall k | 0 <= k < |events| - 1 ensures events[1..][k] == events[k + 1] {
      }
      if exists i :: 0 <= i < |events| && ClassifyContactForce(l, events[i]) == Some(PlayerForce) {
        var i :| 0 <= i < |events| && ClassifyContactForce(l, events[i]) == Some(PlayerForce);
        if i > 0 {
          assert ClassifyContactForce(l, events[1..][i - 1]) == Some(PlayerForce);
        }
      }
      if exists i :: 0 <= i < |events| && ClassifyContactForce(l, events[i]) == Some(BlockForce) {
        var i :| 0 <= i < |events| && ClassifyContactForce(l, events[i]) == Some(BlockForce);
        if i > 0 {
          assert ClassifyContactForce(l, events[1..][i - 1]) == Some(BlockForce);
        }
      }
    }
  }

  /** Every volume the drain sets is at most 1, and at least 0 when the
      engine reports non-negative magnitudes. */
  lemma {:induction false} DrainForcesVolumes(l: Level, events: seq<ForceEvent>)
    ensures forall c :: c in DrainForces(l, events) && c.SetVolume? ==> c.volume <= 1.0
    ensures (forall i :: 0 <= i < |events| ==> events[i].totalForceMagnitude >= 0.0 && events[i].maxForceMagnitude >= 0.0)
      ==> forall c :: c in DrainForces(l, events) && c.SetVolume? ==> c.volume >= 0.0
    decreases |events|
  {
    if events != [] {
      DrainForcesVolumes(l, events[1..]);
      var head := ForceAudio(l, events[0]);
      assert DrainForces(l, events) == head + DrainForces(l, events[1..]);
      if forall i :: 0 <= i < |events| ==> events[i].totalForceMagnitude >= 0.0 && events[i].maxForceMagnitude >= 0.0 {
        assert forall i :: 0 <= i < |events[1..]| ==> events[1..][i] == events[i + 1];
      }
      forall c | c in head && c.SetVolume?
        ensures c.volume <= 1.0
      {
        var i :| 0 <= i < |head| && head[i] == c;
      }
    }
  }

  // ---------------------------------------------------------------------------
  // block drag

  /** A drag qualifies when its block slides faster than 0.1 along x. */
  function DragVolume(speed: real): (v: real)
    requires speed > 0.1
    ensures 0.01 < v <= 1.0
  {
    Min(speed * 0.1, 1.0)
  }

  function BlockSpeed(w: World, b: MoveableBlocks.Block): real
    requires b.body in w.bodies
  {
    Abs(w.bodies[b.body].linvel.x)
  }

  /** Every block body is live in w. */
  predicate BlocksIn(blocks: seq<MoveableBlocks.Block>, w: World) {
    forall i :: 0 <= i < |blocks| ==> blocks[i].body in w.bodies
  }

  /** The drag volumes of one terrain collider's qualifying contacts, in block order. */
  function DragsWith(t: ColliderHandle, blocks: seq<MoveableBlocks.Block>, contact: (ColliderHandle, ColliderHandle) -> bool,
                     w: World): seq<real>
    requires BlocksIn(blocks, w)
    decreases |blocks|
  {
    if blocks == [] then []
    else
      var b := blocks[|blocks| - 1];
      var earlier := DragsWith(t, blocks[..|blocks| - 1], contact, w);
      if contact(t, b.collider) && BlockSpeed(w, b) > 0.1 then earlier + [DragVolume(BlockSpeed(w, b))] else earlier
  }

  /** All qualifying drag volumes, terrain-major as the nested loops visit them. */
  function Drags(terrain: seq<ColliderHandle>, blocks: seq<MoveableBlocks.Block>,
                 contact: (ColliderHandle, ColliderHandle) -> bool, w: World): seq<real>
    requires BlocksIn(blocks, w)
    decreases |terrain|
  {
    if terrain == [] then []
    else Drags(terrain[..|terrain| - 1], blocks, contact, w) + DragsWith(terrain[|terrain| - 1], blocks, contact, w)
  }

  function LastOr(s: seq<real>, d: real): real {
    if s == [] then d else s[|s| - 1]
  }

  /** The target drag volume: the last qualifying pair's volume overwrites
      the others; with none it is 0. */
  function DragTarget(terrain: seq<ColliderHandle>, blocks: seq<MoveableBlocks.Block>,
                      contact: (ColliderHandle, ColliderHandle) -> bool, w: World): real
    requires BlocksIn(blocks, w)
  {
    LastOr(Drags(terrain, blocks, contact, w), 0.0)
  }

  lemma {:induction false} DragsInRange(terrain: seq<ColliderHandle>, blocks: seq<MoveableBlocks.Block>,
                                        contact: (ColliderHandle, ColliderHandle) -> bool, w: World)
    requires BlocksIn(blocks, w)
    ensures forall v :: v in Drags(terrain, blocks, contact, w) ==> 0.01 < v <= 1.0
    decreases |terrain|
  {
    if terrain != [] {
      DragsInRange(terrain[..|terrain| - 1], blocks, contact, w);
      DragsWithInRange(terrain[|terrain| - 1], blocks, contact, w);
    }
  }

  lemma {:induction false} DragsWithInRange(t: ColliderHandle, blocks: seq<MoveableBlocks.Block>,
                                            contact: (ColliderHandle, ColliderHandle) -> bool, w: World)
    requires BlocksIn(blocks, w)
    ensures forall v :: v in DragsWith(t, blocks, contact, w) ==> 0.01 < v <= 1.0
    decreases |blocks|
  {
    if blocks != [] {
      DragsWithInRange(t, blocks[..|blocks| - 1], contact, w);
    }
  }

  /** The target volume is 0 or lies in (0.01, 1], and is positive exactly
      when some terrain collider is in contact with a block sliding faster
      than 0.1. */
  lemma DragTargetIff(terrain: seq<ColliderHandle>, blocks: seq<MoveableBlocks.Block>,
                      contact: (ColliderHandle, ColliderHandle) -> bool, w: World)
    requires BlocksIn(blocks, w)
    ensures DragTarget(terrain, blocks, contact, w) == 0.0 || 0.01 < DragTarget(terrain, blocks, contact, w) <= 1.0
    ensures DragTarget(terrain, blocks, contact, w) > 0.0 <==>
      exists i, j :: 0 <= i < |terrain| && 0 <= j < |blocks| &&
        contact(terrain[i], blocks[j].collider) && BlockSpeed(w, blocks[j]) > 0.1
  {
    DragsInRange(terrain, blocks, contact, w);
    DragsNonEmpty(terrain, blocks, contact, w);
    var d := Drags(terrain, blocks, contact, w);
    if d != [] {
      assert d[|d| - 1] in d;
    }
  }

  lemma {:induction false} DragsNonEmpty(terrain: seq<ColliderHandle>, blocks: seq<MoveableBlocks.Block>,
                                         contact: (ColliderHandle, ColliderHandle) -> bool, w: World)
    requires BlocksIn(blocks, w)
    ensures Drags(terrain, blocks, contact, w) != [] <==>
      exists i, j :: 0 <= i < |terrain| && 0 <= j < |blocks| &&
        contact(terrain[i], blocks[j].collider) && BlockSpeed(w, blocks[j]) > 0.1
    decreases |terrain|
  {
    if terrain != [] {
      var p := terrain[..|terrain| - 1];
      var t := terrain[|terrain| - 1];
      DragsNonEmpty(p, blocks, contact, w);
      DragsWithNonEmpty(t, blocks, contact, w);
      if exists i, j :: 0 <= i < |terrain| && 0 <= j < |blocks| &&
          contact(terrain[i], blocks[j].collider) && BlockSpeed(w, blocks[j]) > 0.1 {
        var i, j :| 0 <= i < |terrain| && 0 <= j < |blocks| &&
          contact(terrain[i], blocks[j].collider) && BlockSpeed(w, blocks[j]) > 0.1;
        if i < |p| {
          assert p[i] == terrain[i];
        }
      }
      if exists i, j :: 0 <= i < |p| && 0 <= j < |blocks| &&
          contact(p[i], blocks[j].collider) && BlockSpeed(w, blocks[j]) > 0.1 {
        var i, j :| 0 <= i < |p| && 0 <= j < |blocks| &&
          contact(p[i], blocks[j].collider) && BlockSpeed(w, blocks[j]) > 0.1;
        assert terrain[i] == p[i];
      }
    }
  }

  lemma {:induction false} DragsWithNonEmpty(t: ColliderHandle, blocks: seq<MoveableBlocks.Block>,
                                             contact: (ColliderHandle, ColliderHandle) -> bool, w: World)
    requires BlocksIn(blocks, w)
    ensures DragsWith(t, blocks, contact, w) != [] <==>
      exists j :: 0 <= j < |blocks| && contact(t, blocks[j].collider) && BlockSpeed(w, blocks[j]) > 0.1
    decreases |blocks|
  {
    if blocks != [] {
      var p := blocks[..|blocks| - 1];
      DragsWithNonEmpty(t, p, contact, w);
      if exists j :: 0 <= j < |p| && contact(t, p[j].collider) && BlockSpeed(w, p[j]) > 0.1 {
        var j :| 0 <= j < |p| && contact(t, p[j].collider) && BlockSpeed(w, p[j]) > 0.1;
        assert blocks[j] == p[j];
      }
      if exists j :: 0 <= j < |blocks| && contact(t, blocks[j].collider) && BlockSpeed(w, blocks[j]) > 0.1 {
        var j :| 0 <= j < |blocks| && contact(t, blocks[j].collider) && BlockSpeed(w, blocks[j]) > 0.1;
        if j < |p| {
          assert p[j] == blocks[j];
        }
      }
    }
  }

  /** `#processContactPairs`' nested loops: terrain colliders outside, blocks
      inside, every qualifying contact overwriting the target. */
  method ComputeDragTarget(terrain: seq<ColliderHandle>, blocks: seq<MoveableBlocks.Block>,
                           contact: (ColliderHandle, ColliderHandle) -> bool, w: World) returns (target: real)
    requires BlocksIn(blocks, w)
    ensures target == DragTarget(terrain, blocks, contact, w)
  {
    target := 0.0;
    var i := 0;
    while i < |terrain|
      invariant 0 <= i <= |terrain|
      invariant target == LastOr(Drags(terrain[..i], blocks, contact, w), 0.0)
    {
      var t := terrain[i];
      var j := 0;
      while j < |blocks|
        invariant 0 <= j <= |blocks|
        invariant target == LastOr(Drags(terrain[..i], blocks, contact, w) + DragsWith(t, blocks[..j], contact, w), 0.0)
      {
        var b := blocks[j];
        var speed := BlockSpeed(w, b);
        assert blocks[..j + 1][..j] == blocks[..j];
        if contact(t, b.collider) && speed > 0.1 {
          target := DragVolume(speed);
        }
        j := j + 1;
      }
      assert blocks[..j] == blocks;
      assert terrain[..i + 1][..i] == terrain[..i];
      i := i + 1;
    }
    assert terrain[..i] == terrain;
  }

  /** After the target: one `play`, then the damped volume if it is positive,
      otherwise a stop. The damping itself is cosmetic; its value is an input. */
  function DragAudio(dampedVolume: real): (r: seq<AudioCall>)
    ensures |r| == 2 && r[0] == Play(BlockDrag)
    ensures dampedVolume > 0.0 <==> r[1] == SetVolume(BlockDrag, dampedVolume)
    ensures dampedVolume <= 0.0 <==> r[1] == Stop(BlockDrag)
  {
    [Play(BlockDrag), if dampedVolume > 0.0 then SetVolume(BlockDrag, dampedVolume) else Stop(BlockDrag)]
  }

  // ---------------------------------------------------------------------------
  // the tick

  /** The held-input flags the tick reads. */
  datatype HeldInput = HeldInput(left: bool, right: bool, boost: bool)

  /** What the engine's step produced, as far as the tick reads it.
      `playerVelocity` is the player body's velocity as read back after the
      tick's own impulse, so it already includes that impulse. */
  datatype StepOutcome = StepOutcome(
    world: World,
    cast: RayCaster,
    playerVelocity: Vec3,
    contact: (ColliderHandle, ColliderHandle) -> bool,
    collisions: seq<CollisionEvent>,
    forces: seq<ForceEvent>,
    dampedDragVolume: real)

  datatype LevelTick = LevelTick(
    level: Level,
    world: World,
    callbacks: seq<Callback>,
    audio: seq<AudioCall>,
    playerImpulse: Option<Vec3>,
    enemyImpulses: seq<Vec3>,
    dragTarget: real)

  /** Every enemy ticks against the post-step world. */
  function UpdateEnemies(es: seq<Enemies.Enemy>, delta: real, w: World, cast: RayCaster): (r: (seq<Enemies.Enemy>, seq<Vec3>))
    requires forall i :: 0 <= i < |es| ==> es[i].body in w.bodies
    ensures |r.0| == |es| && |r.1| == |es|
    ensures forall i :: 0 <= i < |es| ==>
      var t := Enemies.Update(es[i], delta, w.bodies[es[i].body].translation, cast);
      r.0[i] == t.enemy && r.1[i] == t.impulse
  {
    var ticks := seq(|es|, i requires 0 <= i < |es| => Enemies.Update(es[i], delta, w.bodies[es[i].body].translation, cast));
    (seq(|es|, i requires 0 <= i < |es| => ticks[i].enemy), seq(|es|, i requires 0 <= i < |es| => ticks[i].impulse))
  }

  function UpdateBlocks(bs: seq<MoveableBlocks.Block>, delta: real, w: World): (r: seq<MoveableBlocks.Block>)
    requires BlocksIn(bs, w)
    ensures |r| == |bs| && forall i :: 0 <= i < |bs| ==> r[i] == MoveableBlocks.Update(bs[i], w, delta)
  {
    seq(|bs|, i requires 0 <= i < |bs| => MoveableBlocks.Update(bs[i], w, delta))
  }

  /** The held inputs, applied after the player's own update. */
  function ApplyHeld(p: P.PlayerState, input: HeldInput): (r: P.PlayerState)
    ensures r.boostRemaining == p.boostRemaining
    ensures r.hitDown == p.hitDown && r.hitLeft == p.hitLeft && r.hitRight == p.hitRight
  {
    var p1 := if input.left then P.Move(p, Left) else p;
    var p2 := if input.right then P.Move(p1, Right) else p1;
    if input.boost then P.Boost(p2) else p2
  }

  /** `update(delta)`. The player's body takes the read-back velocity,
      damped when over the limit; the player's impulse is reported as the
      part of that velocity the tick added. Enemy impulses are reported and
      the engine applies them. */
  function Update(l: Level, delta: real, input: HeldInput, o: StepOutcome): (r: LevelTick)
    requires l.playerBody in o.world.bodies
    requires forall i :: 0 <= i < |l.enemies| ==> l.enemies[i].body in o.world.bodies
    requires BlocksIn(l.blocks, o.world)
    ensures r.world.bodies.Keys == o.world.bodies.Keys
    ensures r.world.colliders == o.world.colliders && r.world.joints == o.world.joints
    ensures r.callbacks == DrainCollisions(l, o.collisions)
    ensures r.audio == DragAudio(o.dampedDragVolume) + DrainForces(l, o.forces)
    ensures BlocksIn(l.blocks, r.world) && r.dragTarget == DragTarget(l.terrainColliders, l.blocks, o.contact, r.world)
    ensures r.level.hook == Grapple.Update(l.hook, delta)
    ensures r.level.goalSensors == l.goalSensors && r.level.dangerSensors == l.dangerSensors
    ensures r.level.terrainColliders == l.terrainColliders
    ensures r.level.playerBody == l.playerBody && r.level.playerCollider == l.playerCollider
    ensures var pt := P.Update(l.player, delta, o.world.bodies[l.playerBody].translation, l.playerCollider,
                               o.cast, o.playerVelocity);
      && r.playerImpulse == pt.applied
      && r.level.player == ApplyHeld(pt.state, input)
      && r.world.bodies[l.playerBody] == o.world.bodies[l.playerBody].(linvel := pt.newVelocity.GetOr(o.playerVelocity))
    ensures var v := r.world.bodies[l.playerBody].linvel;
      && (Abs(o.playerVelocity.x) <= P.VelocityLimit ==> v == o.playerVelocity)
      && Abs(v.x) <= Abs(o.playerVelocity.x) && v.y == o.playerVelocity.y && v.z == o.playerVelocity.z
    ensures forall h :: h in o.world.bodies && h != l.playerBody ==> r.world.bodies[h] == o.world.bodies[h]
    ensures (r.level.enemies, r.enemyImpulses) == UpdateEnemies(l.enemies, delta, r.world, o.cast)
    ensures r.level.blocks == UpdateBlocks(l.blocks, delta, r.world)
  {
    var w := o.world;
    var origin := w.bodies[l.playerBody].translation;
    var pt := P.Update(l.player, delta, origin, l.playerCollider, o.cast, o.playerVelocity);
    var w1 := SetLinvel(w, l.playerBody, pt.newVelocity.GetOr(o.playerVelocity));
    var (enemies, impulses) := UpdateEnemies(l.enemies, delta, w1, o.cast);
    var blocks := UpdateBlocks(l.blocks, delta, w1);
    var hook := Grapple.Update(l.hook, delta);
    var player := ApplyHeld(pt.state, input);
    var target := DragTarget(l.terrainColliders, l.blocks, o.contact, w1);
    var audio := DragAudio(o.dampedDragVolume) + DrainForces(l, o.forces);
    LevelTick(l.(player := player, hook := hook, enemies := enemies, blocks := blocks), w1,
              DrainCollisions(l, o.collisions), audio, pt.applied, impulses, target)
  }

  /** The held inputs only load the next tick: this tick's applied impulse
      is the same whatever is held, and afterwards the pending impulse is
      exactly the held directions' forces and the boost flag the held boost. */
  lemma InputTakesEffectNextTick(l: Level, delta: real, a: HeldInput, b: HeldInput, o: StepOutcome)
    requires l.playerBody in o.world.bodies
    requires forall i :: 0 <= i < |l.enemies| ==> l.enemies[i].body in o.world.bodies
    requires BlocksIn(l.blocks, o.world)
    ensures Update(l, delta, a, o).playerImpulse == Update(l, delta, b, o).playerImpulse
    ensures var p := Update(l, delta, a, o).level.player;
      && p.impulse.x == (if a.right then P.HorizontalMovementForce else 0.0) - (if a.left then P.HorizontalMovementForce else 0.0)
      && p.impulse.y == 0.0 && p.impulse.z == 0.0
      && p.isBoosting == a.boost
      && (a.right ==> p.direction == Right)
      && (a.left && !a.right ==> p.direction == Left)
    ensures var p := Update(l, delta, a, o).level.player;
      var origin := o.world.bodies[l.playerBody].translation;
      && (p.hitDown <==> o.cast(P.HitRay(origin, P.Down, l.playerCollider)).Some?)
      && (p.hitLeft <==> o.cast(P.HitRay(origin, P.LeftDir, l.playerCollider)).Some?)
      && (p.hitRight <==> o.cast(P.HitRay(origin, P.RightDir, l.playerCollider)).Some?)
  {
  }

  /** A tick keeps the level's objects live: it only rewrites the player's
      velocity, and entities keep their handles. */
  lemma UpdateKeepsLive(l: Level, delta: real, input: HeldInput, o: StepOutcome)
    requires Live(l, o.world)
    ensures var r := Update(l, delta, input, o); Live(r.level, r.world)
  {
    var r := Update(l, delta, input, o);
    assert Grapple.Consistent(r.level.hook, o.world);
    forall j | j in o.world.joints ensures j in r.world.joints && r.world.joints[j] == o.world.joints[j] {
    }
    assert Grapple.Consistent(r.level.hook, r.world) by {
      forall i | 0 <= i < |r.level.hook.springs| ensures Springs.Linked(r.level.hook.springs[i], r.world) {
        assert Springs.Linked(r.level.hook.springs[i], o.world);
      }
    }
    forall i | 0 <= i < |r.level.enemies| ensures Enemies.Present(r.level.enemies[i], r.world) {
      assert Enemies.Present(l.enemies[i], o.world);
    }
    forall i | 0 <= i < |r.level.blocks| ensures MoveableBlocks.Present(r.level.blocks[i], r.world) {
      assert MoveableBlocks.Present(l.blocks[i], o.world);
    }
  }

  // ---------------------------------------------------------------------------
  // input handlers

  datatype Handled = Handled(level: Level, world: World, audio: seq<AudioCall>)

  /** `handleGrapplePressed`: grapples from the player's body along the
      look direction (projected by the caller) and, only on success, plays
      the grapple sound at 0.7 with a random detune of up to 1000 cents and a
      random rate in [0.75, 1.25). The two random draws are inputs. */
  function HandleGrapplePressed(l: Level, w: World, dx: real, dy: real, cast: RayCaster, jitter: real,
                                detuneDraw: real, rateDraw: real): (r: Handled)
    requires Valid(w) && l.playerBody in w.bodies
    ensures var g := Grapple.Grapple(l.hook, w, l.playerBody, l.playerCollider, w.bodies[l.playerBody].translation,
                                     dx, dy, cast, jitter);
      && r.level == l.(hook := g.hook) && r.world == g.world
      && (r.audio != [] <==> g.ok)
    ensures r.audio != [] ==> |r.audio| == 4 && r.audio[..2] == [Play(GrappleSound), SetVolume(GrappleSound, 0.7)]
    ensures r.audio != [] && 0.0 <= detuneDraw < 1.0 && 0.0 <= rateDraw < 1.0 ==>
      && r.audio[2].SetDetune? && 0.0 <= r.audio[2].cents < 1000.0
      && r.audio[3].SetPlaybackRate? && 0.75 <= r.audio[3].rate < 1.25
    ensures Live(l, w) ==> Live(r.level, r.world)
  {
    var g := Grapple.Grapple(l.hook, w, l.playerBody, l.playerCollider, w.bodies[l.playerBody].translation,
                             dx, dy, cast, jitter);
    var audio := if g.ok then [Play(GrappleSound), SetVolume(GrappleSound, 0.7),
                               SetDetune(GrappleSound, detuneDraw * 1000.0),
                               SetPlaybackRate(GrappleSound, 0.75 + rateDraw * 0.5)] else [];
    Handled(l.(hook := g.hook), g.world, audio)
  }

  /** `handleGrappleRelease`: releases with the default order, the newest link. */
  function HandleGrappleRelease(l: Level, w: World): (r: Handled)
    requires Valid(w)
    ensures |l.hook.springs| > 0 ==>
      && r.level.hook.springs == l.hook.springs[..|l.hook.springs| - 1]
      && r.world.joints.Keys == w.joints.Keys - {l.hook.springs[|l.hook.springs| - 1].joint}
    ensures |l.hook.springs| == 0 ==> r.level == l && r.world == w
    ensures (r.level.hook, r.world) == Grapple.Release(l.hook, w, Grapple.Last) && r.level == l.(hook := r.level.hook)
    ensures r.audio == []
    ensures Live(l, w) ==> Live(r.level, r.world)
  {
    var (h, w') := Grapple.Release(l.hook, w, Grapple.Last);
    Handled(l.(hook := h), w', [])
  }

  /** `handleGrappleEscape`: re-chains the links hanging from the player. */
  function HandleGrappleEscape(l: Level, w: World): (r: Handled)
    requires Valid(w)
    ensures forall s :: s in l.hook.springs && Grapple.AnchoredAt(s, l.playerBody) ==> s.joint !in r.world.joints
    ensures |r.level.hook.springs| <= |l.hook.springs|
    ensures (r.level.hook, r.world) == Grapple.Escape(l.hook, w, l.playerBody) && r.level == l.(hook := r.level.hook)
    ensures r.audio == []
    ensures Live(l, w) ==> Live(r.level, r.world)
  {
    var (h, w') := Grapple.Escape(l.hook, w, l.playerBody);
    Grapple.EscapeShrinks(l.hook.springs, l.playerBody);
    Handled(l.(hook := h), w', [])
  }

  // ---------------------------------------------------------------------------
  // reset

  /** No later entry shares the body of entry i, so i's write is the last one. */
  predicate LastEnemyOn(es: seq<Enemies.Enemy>, i: int)
    requires 0 <= i < |es|
  {
    forall j :: i < j < |es| ==> es[j].body != es[i].body
  }

  predicate LastBlockOn(bs: seq<MoveableBlocks.Block>, i: int)
    requires 0 <= i < |bs|
  {
    forall j :: i < j < |bs| ==> bs[j].body != bs[i].body
  }

  /** The same handles are live and only body records may differ. */
  predicate SameShape(w: World, w': World) {
    && w'.bodies.Keys == w.bodies.Keys && w'.colliders == w.colliders && w'.joints == w.joints
    && w'.nextBody == w.nextBody && w'.nextCollider == w.nextCollider && w'.nextJoint == w.nextJoint
  }

  /** Rewriting body records keeps every level object live. */
  lemma SameShapeKeepsLive(l: Level, w: World, w': World)
    requires Live(l, w) && SameShape(w, w')
    ensures Live(l, w')
  {
    assert Grapple.Consistent(l.hook, w') by {
      forall i | 0 <= i < |l.hook.springs| ensures Springs.Linked(l.hook.springs[i], w') {
        assert Springs.Linked(l.hook.springs[i], w);
      }
    }
    forall i | 0 <= i < |l.enemies| ensures Enemies.Present(l.enemies[i], w') {
      assert Enemies.Present(l.enemies[i], w);
    }
    forall i | 0 <= i < |l.blocks| ensures MoveableBlocks.Present(l.blocks[i], w') {
      assert MoveableBlocks.Present(l.blocks[i], w);
    }
  }

  /** Only body translations change. */
  predicate TranslationsOnly(w: World, w': World) {
    && SameShape(w, w')
    && forall h :: h in w.bodies ==> w'.bodies[h] == w.bodies[h].(translation := w'.bodies[h].translation)
  }

  /** The enemies' resets in list order. */
  function ResetEnemies(es: seq<Enemies.Enemy>, w: World): (w': World)
    requires forall i :: 0 <= i < |es| ==> es[i].body in w.bodies
    ensures SameShape(w, w')
    decreases |es|
  {
    if es == [] then w
    else Enemies.Reset(es[|es| - 1], ResetEnemies(es[..|es| - 1], w))
  }

  /** Resetting the enemies moves only their bodies, and only their translations. */
  lemma {:induction false} ResetEnemiesFrame(es: seq<Enemies.Enemy>, w: World)
    requires forall i :: 0 <= i < |es| ==> es[i].body in w.bodies
    ensures TranslationsOnly(w, ResetEnemies(es, w))
    ensures forall h :: h in w.bodies && h !in EnemyBodies(es) ==> ResetEnemies(es, w).bodies[h] == w.bodies[h]
    decreases |es|
  {
    if es != [] {
      ResetEnemiesFrame(es[..|es| - 1], w);
      EnemyBodiesStep(es);
    }
  }

  /** An enemy whose body no later enemy shares ends at its start. */
  lemma {:induction false} ResetEnemiesStarts(es: seq<Enemies.Enemy>, w: World)
    requires forall i :: 0 <= i < |es| ==> es[i].body in w.bodies
    ensures forall i :: 0 <= i < |es| && LastEnemyOn(es, i) ==> ResetEnemies(es, w).bodies[es[i].body].translation == es[i].start
    decreases |es|
  {
    if es != [] {
      var p := es[..|es| - 1];
      ResetEnemiesStarts(p, w);
      assert forall i :: 0 <= i < |p| && LastEnemyOn(es, i) ==> LastEnemyOn(p, i);
    }
  }

  /** The blocks' resets in list order. */
  function ResetBlocks(bs: seq<MoveableBlocks.Block>, w: World): (w': World)
    requires BlocksIn(bs, w)
    ensures SameShape(w, w')
    decreases |bs|
  {
    if bs == [] then w
    else MoveableBlocks.Reset(bs[|bs| - 1], ResetBlocks(bs[..|bs| - 1], w))
  }

  /** Resetting the blocks moves only their bodies, and only their translations. */
  lemma {:induction false} ResetBlocksFrame(bs: seq<MoveableBlocks.Block>, w: World)
    requires BlocksIn(bs, w)
    ensures TranslationsOnly(w, ResetBlocks(bs, w))
    ensures forall h :: h in w.bodies && h !in BlockBodies(bs) ==> ResetBlocks(bs, w).bodies[h] == w.bodies[h]
    decreases |bs|
  {
    if bs != [] {
      ResetBlocksFrame(bs[..|bs| - 1], w);
      BlockBodiesStep(bs);
    }
  }

  /** A block whose body no later block shares ends at its start. */
  lemma {:induction false} ResetBlocksStarts(bs: seq<MoveableBlocks.Block>, w: World)
    requires BlocksIn(bs, w)
    ensures forall i :: 0 <= i < |bs| && LastBlockOn(bs, i) ==> ResetBlocks(bs, w).bodies[bs[i].body].translation == bs[i].start
    decreases |bs|
  {
    if bs != [] {
      var p := bs[..|bs| - 1];
      ResetBlocksStarts(p, w);
      assert forall i :: 0 <= i < |p| && LastBlockOn(bs, i) ==> LastBlockOn(p, i);
    }
  }

  /** The player's body after reset, before the entities move. */
  function ResetPlayer(l: Level, w: World): (w': World)
    requires l.playerBody in w.bodies
    ensures SameShape(w, w')
    ensures w'.bodies[l.playerBody] == w.bodies[l.playerBody].(translation := Vec3(0.0, 1.0, 0.0), linvel := Vec3(0.0, 1.0, 0.0))
    ensures forall h :: h in w.bodies && h != l.playerBody ==> w'.bodies[h] == w.bodies[h]
  {
    var up := Vec3(0.0, 1.0, 0.0);
    SetLinvel(SetTranslation(w, l.playerBody, up), l.playerBody, up)
  }

  /** `reset()`: the player's body goes to (0, 1, 0) and, as written, gets
      the same (0, 1, 0) as its velocity; enemies and blocks go back to their
      starts; the hook drops every link. */
  function Reset(l: Level, w: World): (r: (Level, World))
    requires Live(l, w)
    ensures r.0 == l.(hook := r.0.hook) && r.0.hook.springs == []
    ensures r.1.bodies == ResetBodies(l, w).bodies && r.1.colliders == w.colliders
    ensures r.1.joints.Keys == w.joints.Keys - Grapple.JointsOf(l.hook.springs)
    ensures Live(r.0, r.1)
  {
    var w3 := ResetBodies(l, w);
    var (hook, w4) := Grapple.Reset(l.hook, w3);
    ResetHookKeepsLive(l, w3, hook, w4);
    (l.(hook := hook), w4)
  }

  /** The body half of reset: player, then enemies, then blocks. */
  function ResetBodies(l: Level, w: World): (w': World)
    requires Live(l, w)
    ensures SameShape(w, w') && Live(l, w')
  {
    var w1 := ResetPlayer(l, w);
    SameShapeKeepsLive(l, w, w1);
    var w2 := ResetEnemies(l.enemies, w1);
    SameShapeKeepsLive(l, w1, w2);
    var w3 := ResetBlocks(l.blocks, w2);
    SameShapeKeepsLive(l, w2, w3);
    w3
  }

  lemma ResetHookKeepsLive(l: Level, w: World, hook: Grapple.Hook, w': World)
    requires Live(l, w) && (hook, w') == Grapple.Reset(l.hook, w)
    ensures Live(l.(hook := hook), w')
  {
    forall i | 0 <= i < |l.enemies| ensures Enemies.Present(l.enemies[i], w') {
      assert Enemies.Present(l.enemies[i], w);
    }
    forall i | 0 <= i < |l.blocks| ensures MoveableBlocks.Present(l.blocks[i], w') {
      assert MoveableBlocks.Present(l.blocks[i], w);
    }
  }

  /** The player and every enemy and block own distinct bodies. */
  predicate SeparateBodies(l: Level) {
    && (forall i :: 0 <= i < |l.enemies| ==> l.enemies[i].body != l.playerBody)
    && (forall i :: 0 <= i < |l.blocks| ==> l.blocks[i].body != l.playerBody)
    && (forall i, j :: 0 <= i < |l.enemies| && 0 <= j < |l.blocks| ==> l.enemies[i].body != l.blocks[j].body)
    && (forall i, j :: 0 <= i < j < |l.enemies| ==> l.enemies[i].body != l.enemies[j].body)
    && (forall i, j :: 0 <= i < j < |l.blocks| ==> l.blocks[i].body != l.blocks[j].body)
  }

  /** With separate bodies, reset puts everything back where it started:
      the player at (0, 1, 0) moving at (0, 1, 0), each enemy and block at its
      start with its velocity untouched. `Reset` leaves exactly the bodies of
      `ResetBodies`, so these three lemmas speak about `Reset` too. */
  lemma ResetBodiesPlayer(l: Level, w: World)
    requires Live(l, w) && SeparateBodies(l)
    ensures ResetBodies(l, w).bodies[l.playerBody] ==
      w.bodies[l.playerBody].(translation := Vec3(0.0, 1.0, 0.0), linvel := Vec3(0.0, 1.0, 0.0))
  {
    var w1 := ResetPlayer(l, w);
    SameShapeKeepsLive(l, w, w1);
    ResetEnemiesFrame(l.enemies, w1);
    var w2 := ResetEnemies(l.enemies, w1);
    SameShapeKeepsLive(l, w1, w2);
    ResetBlocksFrame(l.blocks, w2);
  }

  lemma ResetBodiesEnemies(l: Level, w: World)
    requires Live(l, w) && SeparateBodies(l)
    ensures forall i :: 0 <= i < |l.enemies| ==>
      ResetBodies(l, w).bodies[l.enemies[i].body] == w.bodies[l.enemies[i].body].(translation := l.enemies[i].start)
  {
    var w1 := ResetPlayer(l, w);
    SameShapeKeepsLive(l, w, w1);
    ResetEnemiesFrame(l.enemies, w1);
    ResetEnemiesStarts(l.enemies, w1);
    var w2 := ResetEnemies(l.enemies, w1);
    SameShapeKeepsLive(l, w1, w2);
    ResetBlocksFrame(l.blocks, w2);
    var w3 := ResetBlocks(l.blocks, w2);
    forall i | 0 <= i < |l.enemies|
      ensures w3.bodies[l.enemies[i].body] == w.bodies[l.enemies[i].body].(translation := l.enemies[i].start)
    {
      assert LastEnemyOn(l.enemies, i);
      assert w3.bodies[l.enemies[i].body] == w2.bodies[l.enemies[i].body];
    }
  }

  lemma ResetBodiesBlocks(l: Level, w: World)
    requires Live(l, w) && SeparateBodies(l)
    ensures forall i :: 0 <= i < |l.blocks| ==>
      ResetBodies(l, w).bodies[l.blocks[i].body] == w.bodies[l.blocks[i].body].(translation := l.blocks[i].start)
  {
    var w1 := ResetPlayer(l, w);
    SameShapeKeepsLive(l, w, w1);
    ResetEnemiesFrame(l.enemies, w1);
    var w2 := ResetEnemies(l.enemies, w1);
    SameShapeKeepsLive(l, w1, w2);
    ResetBlocksFrame(l.blocks, w2);
    ResetBlocksStarts(l.blocks, w2);
    forall i | 0 <= i < |l.blocks|
      ensures ResetBlocks(l.blocks, w2).bodies[l.blocks[i].body] == w.bodies[l.blocks[i].body].(translation := l.blocks[i].start)
    {
      assert LastBlockOn(l.blocks, i);
      assert w2.bodies[l.blocks[i].body] == w.bodies[l.blocks[i].body];
    }
  }

  // ---------------------------------------------------------------------------
  // destroy

  function ColliderSet(cs: seq<ColliderHandle>): set<ColliderHandle> {
    set i | 0 <= i < |cs| :: cs[i]
  }

  /** The bodies the terrain colliders hang from, read before anything is removed. */
  function TerrainParents(cs: seq<ColliderHandle>, w: World): set<BodyHandle> {
    set i | 0 <= i < |cs| && cs[i] in w.colliders && w.colliders[cs[i]].parent.Some? :: w.colliders[cs[i]].parent.value
  }

  /** Each terrain collider: its parent body (if any) is removed, then the collider. */
  function RemoveTerrain(cs: seq<ColliderHandle>, w: World): (w': World)
    ensures w'.colliders == w.colliders - ColliderSet(cs)
    ensures w'.bodies == w.bodies - TerrainParents(cs, w)
    ensures w'.joints == w.joints
    ensures Valid(w) ==> Valid(w')
    decreases |cs|
  {
    if cs == [] then w
    else
      var p := cs[..|cs| - 1];
      var c := cs[|cs| - 1];
      var w1 := RemoveTerrain(p, w);
      var w2 := if c in w1.colliders && w1.colliders[c].parent.Some? then RemoveBody(w1, w1.colliders[c].parent.value) else w1;
      TerrainStep(cs, w);
      RemoveCollider(w2, c)
  }

  lemma TerrainStep(cs: seq<ColliderHandle>, w: World)
    requires cs != []
    ensures var p := cs[..|cs| - 1]; var c := cs[|cs| - 1];
      && ColliderSet(cs) == ColliderSet(p) + {c}
      && TerrainParents(cs, w) == TerrainParents(p, w) +
           (if c in w.colliders && w.colliders[c].parent.Some? then {w.colliders[c].parent.value} else {})
  {
    var p := cs[..|cs| - 1];
    forall x | x in ColliderSet(cs) ensures x in ColliderSet(p) + {cs[|cs| - 1]} {
      var i :| 0 <= i < |cs| && cs[i] == x;
      if i < |p| { assert p[i] == x; }
    }
    forall x | x in ColliderSet(p) ensures x in ColliderSet(cs) {
      var i :| 0 <= i < |p| && p[i] == x;
      assert cs[i] == x;
    }
    forall x | x in TerrainParents(cs, w) ensures x in TerrainParents(p, w) + TerrainParents([cs[|cs| - 1]], w) {
      var i :| 0 <= i < |cs| && cs[i] in w.colliders && w.colliders[cs[i]].parent.Some? && w.colliders[cs[i]].parent.value == x;
      if i < |p| { assert p[i] == cs[i]; } else { assert [cs[|cs| - 1]][0] == cs[i]; }
    }
    forall x | x in TerrainParents(p, w) ensures x in TerrainParents(cs, w) {
      var i :| 0 <= i < |p| && p[i] in w.colliders && w.colliders[p[i]].parent.Some? && w.colliders[p[i]].parent.value == x;
      assert cs[i] == p[i];
    }
  }

  /** Removes each collider in turn. */
  function RemoveColliders(cs: seq<ColliderHandle>, w: World): (w': World)
    ensures w'.colliders == w.colliders - ColliderSet(cs)
    ensures w'.bodies == w.bodies && w'.joints == w.joints
    ensures Valid(w) ==> Valid(w')
    decreases |cs|
  {
    if cs == [] then w
    else
      TerrainStep(cs, w);
      RemoveCollider(RemoveColliders(cs[..|cs| - 1], w), cs[|cs| - 1])
  }

  function EnemyBodies(es: seq<Enemies.Enemy>): set<BodyHandle> {
    set i | 0 <= i < |es| :: es[i].body
  }

  function EnemyColliderSet(es: seq<Enemies.Enemy>): set<ColliderHandle> {
    set i | 0 <= i < |es| :: es[i].collider
  }

  lemma EnemyBodiesStep(es: seq<Enemies.Enemy>)
    requires es != []
    ensures EnemyBodies(es) == EnemyBodies(es[..|es| - 1]) + {es[|es| - 1].body}
    ensures EnemyColliderSet(es) == EnemyColliderSet(es[..|es| - 1]) + {es[|es| - 1].collider}
  {
    var p := es[..|es| - 1];
    forall x | x in EnemyBodies(p) ensures x in EnemyBodies(es) {
      var i :| 0 <= i < |p| && p[i].body == x;
      assert es[i] == p[i];
    }
    forall x | x in EnemyColliderSet(p) ensures x in EnemyColliderSet(es) {
      var i :| 0 <= i < |p| && p[i].collider == x;
      assert es[i] == p[i];
    }
  }

  function DestroyEnemies(es: seq<Enemies.Enemy>, w: World): (w': World)
    ensures w'.colliders == w.colliders - EnemyColliderSet(es)
    ensures w'.bodies == w.bodies - EnemyBodies(es)
    ensures w'.joints == w.joints
    ensures Valid(w) ==> Valid(w')
    decreases |es|
  {
    if es == [] then w
    else
      var p := es[..|es| - 1];
      EnemyBodiesStep(es);
      Enemies.Destroy(es[|es| - 1], DestroyEnemies(p, w))
  }

  function BlockBodies(bs: seq<MoveableBlocks.Block>): set<BodyHandle> {
    set i | 0 <= i < |bs| :: bs[i].body
  }

  function BlockColliderSet(bs: seq<MoveableBlocks.Block>): set<ColliderHandle> {
    set i | 0 <= i < |bs| :: bs[i].collider
  }

  lemma BlockBodiesStep(bs: seq<MoveableBlocks.Block>)
    requires bs != []
    ensures BlockBodies(bs) == BlockBodies(bs[..|bs| - 1]) + {bs[|bs| - 1].body}
    ensures BlockColliderSet(bs) == BlockColliderSet(bs[..|bs| - 1]) + {bs[|bs| - 1].collider}
  {
    var p := bs[..|bs| - 1];
    forall x | x in BlockBodies(p) ensures x in BlockBodies(bs) {
      var i :| 0 <= i < |p| && p[i].body == x;
      assert bs[i] == p[i];
    }
    forall x | x in BlockColliderSet(p) ensures x in BlockColliderSet(bs) {
      var i :| 0 <= i < |p| && p[i].collider == x;
      assert bs[i] == p[i];
    }
  }

  function DestroyBlocks(bs: seq<MoveableBlocks.Block>, w: World): (w': World)
    ensures w'.colliders == w.colliders - BlockColliderSet(bs)
    ensures w'.bodies == w.bodies - BlockBodies(bs)
    ensures w'.joints == w.joints
    ensures Valid(w) ==> Valid(w')
    decreases |bs|
  {
    if bs == [] then w
    else
      var p := bs[..|bs| - 1];
      BlockBodiesStep(bs);
      MoveableBlocks.Destroy(bs[|bs| - 1], DestroyBlocks(p, w))
  }

  /** The five sounds the level stops, in order. */
  const StopAll := [Stop(GrappleSound), Stop(WoodHit), Stop(Drop), Stop(PlayerHit), Stop(BlockDrag)]

  /** `destroy()`: empties the hook, stops the level's five sounds, then
      removes the terrain (parent body first), the danger sensors, the
      enemies and the blocks. The goal sensors are not removed. */
  function Destroy(l: Level, w: World): (r: Handled)
    requires Valid(w)
    ensures Valid(r.world) && r.level == l.(hook := r.level.hook) && r.level.hook.springs == []
    ensures r.audio == StopAll
    ensures r.world.joints.Keys == w.joints.Keys - Grapple.JointsOf(l.hook.springs)
    ensures r.world.colliders == w.colliders - ColliderSet(l.terrainColliders) - ColliderSet(l.dangerSensors)
      - EnemyColliderSet(l.enemies) - BlockColliderSet(l.blocks)
    ensures r.world.bodies == w.bodies - TerrainParents(l.terrainColliders, w) - EnemyBodies(l.enemies) - BlockBodies(l.blocks)
  {
    var (hook, w1) := Grapple.Reset(l.hook, w);
    var w2 := RemoveTerrain(l.terrainColliders, w1);
    var w3 := RemoveColliders(l.dangerSensors, w2);
    var w4 := DestroyEnemies(l.enemies, w3);
    var w5 := DestroyBlocks(l.blocks, w4);
    assert TerrainParents(l.terrainColliders, w1) == TerrainParents(l.terrainColliders, w);
    Handled(l.(hook := hook), w5, StopAll)
  }

  /** The engine drops a removed body's joints along with it, which the
      model's body removal does not. In this game every joint is a grapple
      spring, and destroy releases the hook before it removes any body, so
      when the hook's springs are all the joints there are, none survives. */
  lemma DestroyLeavesNoJoints(l: Level, w: World)
    requires Valid(w) && w.joints.Keys <= Grapple.JointsOf(l.hook.springs)
    ensures Destroy(l, w).world.joints == map[]
  {
    assert Destroy(l, w).world.joints.Keys == {};
  }

  /** Destroy stops every sound the level has, so nothing a tick or a grapple
      press started keeps playing. */
  lemma DestroyStopsEverySound(l: Level, w: World)
    requires Valid(w)
    ensures forall s: Sound :: Stop(s) in Destroy(l, w).audio
  {
    forall s: Sound ensures Stop(s) in Destroy(l, w).audio {
      StopAllCovers(s);
    }
  }

  lemma StopAllCovers(s: Sound)
    ensures Stop(s) in StopAll
  {
    match s
    case GrappleSound => assert StopAll[0] == Stop(s);
    case WoodHit => assert StopAll[1] == Stop(s);
    case Drop => assert StopAll[2] == Stop(s);
    case PlayerHit => assert StopAll[3] == Stop(s);
    case BlockDrag => assert StopAll[4] == Stop(s);
  }

  /** A goal sensor that no other list of the level shares outlives destroy,
      and so does a player body that no terrain collider, enemy or block owns. */
  lemma DestroyKeepsGoals(l: Level, w: World)
    requires Valid(w)
    ensures var w' := Destroy(l, w).world;
      && (l.playerBody in w.bodies && l.playerBody !in TerrainParents(l.terrainColliders, w)
          && l.playerBody !in EnemyBodies(l.enemies) && l.playerBody !in BlockBodies(l.blocks) ==>
            l.playerBody in w'.bodies && w'.bodies[l.playerBody] == w.bodies[l.playerBody])
      &&
      forall c :: (c in l.goalSensors && c in w.colliders && c !in l.terrainColliders && c !in l.dangerSensors
        && c !in EnemyColliders(l) && c !in BlockColliders(l)) ==> c in w'.colliders && w'.colliders[c] == w.colliders[c]
  {
    var w' := Destroy(l, w).world;
    forall c | c in l.goalSensors && c in w.colliders && c !in l.terrainColliders && c !in l.dangerSensors
        && c !in EnemyColliders(l) && c !in BlockColliders(l)
      ensures c in w'.colliders
    {
      assert c !in ColliderSet(l.terrainColliders);
      assert c !in ColliderSet(l.dangerSensors);
    }
  }
}

=== FILE: grappling_hook.dfy ===
/** The grappling hook: an insertion-ordered collection of spring links fired
    from the player body. Links are added by a ray cast (evicting the oldest
    when full), released one at a time, re-chained pairwise by "escape", and
    cleared by reset. The JavaScript `Set` iterates in insertion order and is
    mutated while it is iterated, so the collection is a sequence here. */
module Grapple {
  import opened Common
  import opened Physics
  import opened Springs

  datatype Hook = Hook(springs: seq<Spring>, maxInstances: int, grappleRange: real)

  /** A new hook: no links, at most 4 of them, range 9. */
  const NewHook := Hook([], 4, 9.0)

  /** Stiffness of a link to a fixed body, and the cap for dynamic ones. */
  const MaxStiffness := 10.0

  datatype Order = First | Last

  predicate DistinctJoints(springs: seq<Spring>) {
    forall i, j :: 0 <= i < j < |springs| ==> springs[i].joint != springs[j].joint
  }

  /** Every link owns a live joint of its own in the world. */
  predicate Consistent(h: Hook, w: World) {
    && Valid(w)
    && (forall i :: 0 <= i < |h.springs| ==> Linked(h.springs[i], w))
    && DistinctJoints(h.springs)
  }

  function JointsOf(springs: seq<Spring>): set<JointHandle> {
    set s | s in springs :: s.joint
  }

  // ---------------------------------------------------------------------------
  // grapple

  /** Fixed targets get the full stiffness; dynamic ones `min(mass * 20 + 0.1, 10)`. */
  function TargetStiffness(fixed: bool, mass: real): (k: real)
    ensures k <= MaxStiffness
    ensures fixed ==> k == MaxStiffness
    ensures !fixed && mass * 20.0 + 0.1 <= MaxStiffness ==> k == mass * 20.0 + 0.1
    ensures !fixed && mass * 20.0 + 0.1 >= MaxStiffness ==> k == MaxStiffness
  {
    if fixed then MaxStiffness else Min(mass * 20.0 + 0.1, MaxStiffness)
  }

  /** Lighter dynamic targets never give stiffer links. */
  lemma StiffnessMonotoneInMass(m1: real, m2: real)
    requires m1 <= m2
    ensures TargetStiffness(false, m1) <= TargetStiffness(false, m2)
  {
  }

  /** The grapple ray: from the body's position along (dx, dy, 0), up to the
      hook's range, skipping sensors and the body's first collider. */
  function GrappleRay(h: Hook, origin: Vec3, dx: real, dy: real, fromCollider: ColliderHandle): RayQuery {
    RayQuery(origin, Vec3(dx, dy, 0.0), h.grappleRange, fromCollider)
  }

  datatype GrappleResult = GrappleResult(ok: bool, hook: Hook, world: World)

  /** `grapple({from, directionVector})`. `origin` is the body's translation,
      `fromCollider` its first collider, `jitter` the random origin offset. */
  function Grapple(h: Hook, w: World, from: BodyHandle, fromCollider: ColliderHandle, origin: Vec3,
                   dx: real, dy: real, cast: RayCaster, jitter: real): (r: GrappleResult)
    requires Valid(w)
    ensures var hit := cast(GrappleRay(h, origin, dx, dy, fromCollider));
      (hit.None? || hit.value.parent.None?) <==> !r.ok
    ensures !r.ok ==> r.hook == h && r.world == w
    ensures r.ok ==>
      var q := GrappleRay(h, origin, dx, dy, fromCollider);
      var target := cast(q).value.parent.value;
      var kept := if |h.springs| == h.maxInstances && |h.springs| > 0 then h.springs[1..] else h.springs;
      && |r.hook.springs| == |kept| + 1
      && r.hook.springs[..|kept|] == kept
      && var s := r.hook.springs[|kept|];
      && ParentRigidBody(s) == from && ChildRigidBody(s) == target.handle
      && s.stiffness == TargetStiffness(target.fixed, target.mass)
      && s.childHitPoint == (if target.fixed then PointAt(q, cast(q).value.toi) else Origin)
      && s.parentHitPoint == Origin && s.randomOriginOffset == jitter
      && s.jointData.restLength == 1.0
      && s.joint !in w.joints && Linked(s, r.world)
      && r.world.joints == (if |kept| < |h.springs| then w.joints - {h.springs[0].joint} else w.joints)[s.joint := s.jointData]
    ensures r.hook.maxInstances == h.maxInstances && r.hook.grappleRange == h.grappleRange
    ensures Valid(r.world) && r.world.bodies == w.bodies && r.world.colliders == w.colliders
    ensures Consistent(h, w) ==> Consistent(r.hook, r.world)
    ensures 1 <= h.maxInstances && |h.springs| <= h.maxInstances ==> |r.hook.springs| <= h.maxInstances
  {
    var q := GrappleRay(h, origin, dx, dy, fromCollider);
    var hit := cast(q);
    if hit.None? then GrappleResult(false, h, w)
    else if hit.value.parent.None? then GrappleResult(false, h, w)
    else
      var (h1, w1) := if |h.springs| == h.maxInstances then Release(h, w, First) else (h, w);
      var target := hit.value.parent.value;
      var hitPoint := PointAt(q, hit.value.toi);
      var props := SpringProps(from, target.handle, Some(1.0), Some(TargetStiffness(target.fixed, target.mass)),
                               Some(jitter), None, if target.fixed then Some(hitPoint) else None);
      var (s, w2) := NewSpring(props, w1);
      var h2 := h1.(springs := h1.springs + [s]);
      assert h2.springs[..|h1.springs|] == h1.springs;
      ConsistentAppend(h1, w1, s, w2);
      GrappleResult(true, h2, w2)
  }

  lemma ConsistentAppend(h: Hook, w: World, s: Spring, w': World)
    requires Valid(w') && Linked(s, w') && s.joint !in w.joints
    requires w'.joints == w.joints[s.joint := s.jointData]
    ensures Consistent(h, w) ==> Consistent(h.(springs := h.springs + [s]), w')
  {
    if Consistent(h, w) {
      var s' := h.springs + [s];
      forall i | 0 <= i < |s'|
        ensures Linked(s'[i], w')
      {
        if i < |h.springs| {
          assert Linked(h.springs[i], w);
        }
      }
      forall i, j | 0 <= i < j < |s'|
        ensures s'[i].joint != s'[j].joint
      {
        if j < |h.springs| {
        } else {
          assert Linked(h.springs[i], w);
        }
      }
    }
  }

  // ---------------------------------------------------------------------------
  // release

  /** `release(order)`: "first" drops the oldest link, the default the newest. */
  function Release(h: Hook, w: World, order: Order): (r: (Hook, World))
    requires Valid(w)
    ensures |h.springs| == 0 ==> r == (h, w)
    ensures |h.springs| > 0 ==>
      var victim := if order == First then h.springs[0] else h.springs[|h.springs| - 1];
      && r.0.springs == (if order == First then h.springs[1..] else h.springs[..|h.springs| - 1])
      && r.1.joints == w.joints - {victim.joint}
      && r.1.joints.Keys == w.joints.Keys - {victim.joint}
    ensures forall j :: j in r.1.joints ==> j in w.joints && r.1.joints[j] == w.joints[j]
    ensures r.0.maxInstances == h.maxInstances && r.0.grappleRange == h.grappleRange
    ensures Valid(r.1) && r.1.bodies == w.bodies && r.1.colliders == w.colliders
    ensures Consistent(h, w) ==> Consistent(r.0, r.1)
  {
    if |h.springs| == 0 then (h, w)
    else
      var i := if order == First then 0 else |h.springs| - 1;
      var rest := if order == First then h.springs[1..] else h.springs[..|h.springs| - 1];
      var w' := Destroy(h.springs[i], w);
      ConsistentRemove(h, w, i, rest, w');
      (h.(springs := rest), w')
  }

  lemma ConsistentRemove(h: Hook, w: World, i: nat, rest: seq<Spring>, w': World)
    requires i < |h.springs| && (i == 0 || i == |h.springs| - 1)
    requires rest == if i == 0 then h.springs[1..] else h.springs[..i]
    requires Valid(w) && w' == Destroy(h.springs[i], w)
    ensures Consistent(h, w) ==> Consistent(h.(springs := rest), w')
  {
    if Consistent(h, w) {
      forall k | 0 <= k < |rest|
        ensures Linked(rest[k], w')
      {
        var k' := if i == 0 then k + 1 else k;
        assert rest[k] == h.springs[k'];
        assert Linked(h.springs[k'], w);
      }
    }
  }

  /** Two releases of the oldest link empty a two-link hook; a release of an
      empty hook changes nothing. */
  lemma ReleaseFirstTwiceEmpties(h: Hook, w: World)
    requires Valid(w) && |h.springs| == 2
    ensures var (h1, w1) := Release(h, w, First);
      Release(h1, w1, First).0.springs == []
  {
  }

  // ---------------------------------------------------------------------------
  // escape

  /** A link is anchored at `from` when its joint's first body is `from`. */
  predicate AnchoredAt(s: Spring, from: BodyHandle) {
    ParentRigidBody(s) == from
  }

  /** The link `escape` builds from two anchored links: from the later one's
      far end to the earlier one's far end, at the mean stiffness. */
  function MergeProps(earlier: Spring, later: Spring): SpringProps {
    SpringProps(ChildRigidBody(later), ChildRigidBody(earlier), Some(1.0),
                Some((later.stiffness + earlier.stiffness) * 0.5), None,
                Some(later.childHitPoint), Some(earlier.childHitPoint))
  }

  /** One entry of the new collection, in iteration order. */
  datatype Step = Keep(spring: Spring) | Merge(props: SpringProps)

  /** The body the entry's link hangs from. */
  function StepParent(e: Step): BodyHandle {
    match e
    case Keep(s) => ParentRigidBody(s)
    case Merge(p) => p.parent
  }

  /** The iteration of `escape`: `pending` is the unpaired anchored link. */
  function Plan(springs: seq<Spring>, from: BodyHandle, pending: Option<Spring>): seq<Step>
    decreases |springs|
  {
    if springs == [] then []
    else
      var s := springs[0];
      if !AnchoredAt(s, from) then [Keep(s)] + Plan(springs[1..], from, pending)
      else if pending.None? then Plan(springs[1..], from, Some(s))
      else if ChildRigidBody(s) == ChildRigidBody(pending.value) then Plan(springs[1..], from, pending)
      else [Merge(MergeProps(pending.value, s))] + Plan(springs[1..], from, None)
  }

  function Unanchored(springs: seq<Spring>, from: BodyHandle): (r: seq<Spring>)
    ensures |r| <= |springs|
    decreases |springs|
  {
    if springs == [] then []
    else if AnchoredAt(springs[0], from) then Unanchored(springs[1..], from)
    else [springs[0]] + Unanchored(springs[1..], from)
  }

  function Anchored(springs: seq<Spring>, from: BodyHandle): (r: seq<Spring>)
    ensures |r| <= |springs|
    decreases |springs|
  {
    if springs == [] then []
    else if AnchoredAt(springs[0], from) then [springs[0]] + Anchored(springs[1..], from)
    else Anchored(springs[1..], from)
  }

  /** The pairing restricted to the anchored links alone. */
  function PairUp(anchored: seq<Spring>, pending: Option<Spring>): seq<SpringProps>
    decreases |anchored|
  {
    if anchored == [] then []
    else
      var s := anchored[0];
      if pending.None? then PairUp(anchored[1..], Some(s))
      else if ChildRigidBody(s) == ChildRigidBody(pending.value) then PairUp(anchored[1..], pending)
      else [MergeProps(pending.value, s)] + PairUp(anchored[1..], None)
  }

  function Kept(plan: seq<Step>): seq<Spring>
    decreases |plan|
  {
    if plan == [] then []
    else if plan[0].Keep? then [plan[0].spring] + Kept(plan[1..])
    else Kept(plan[1..])
  }

  function Merged(plan: seq<Step>): seq<SpringProps>
    decreases |plan|
  {
    if plan == [] then []
    else if plan[0].Merge? then [plan[0].props] + Merged(plan[1..])
    else Merged(plan[1..])
  }

  lemma {:induction false} KeptMergedLength(plan: seq<Step>)
    ensures |plan| == |Kept(plan)| + |Merged(plan)|
    decreases |plan|
  {
    if plan != [] {
      KeptMergedLength(plan[1..]);
    }
  }

  /** Links not anchored at `from` survive escape unchanged and in order. */
  lemma {:induction false} PlanKeepsUnanchored(springs: seq<Spring>, from: BodyHandle, pending: Option<Spring>)
    ensures Kept(Plan(springs, from, pending)) == Unanchored(springs, from)
    decreases |springs|
  {
    if springs != [] {
      var s := springs[0];
      if !AnchoredAt(s, from) {
        PlanKeepsUnanchored(springs[1..], from, pending);
        assert Plan(springs, from, pending)[1..] == Plan(springs[1..], from, pending);
      } else if pending.None? {
        PlanKeepsUnanchored(springs[1..], from, Some(s));
      } else if ChildRigidBody(s) == ChildRigidBody(pending.value) {
        PlanKeepsUnanchored(springs[1..], from, pending);
      } else {
        PlanKeepsUnanchored(springs[1..], from, None);
        assert Plan(springs, from, pending)[1..] == Plan(springs[1..], from, None);
      }
    }
  }

  /** The new links are exactly the pairing of the anchored links: links not
      anchored at `from` do not disturb the pending link. */
  lemma {:induction false} PlanMergesAnchored(springs: seq<Spring>, from: BodyHandle, pending: Option<Spring>)
    ensures Merged(Plan(springs, from, pending)) == PairUp(Anchored(springs, from), pending)
    decreases |springs|
  {
    if springs != [] {
      var s := springs[0];
      if !AnchoredAt(s, from) {
        PlanMergesAnchored(springs[1..], from, pending);
        assert Plan(springs, from, pending)[1..] == Plan(springs[1..], from, pending);
      } else {
        var a := Anchored(springs, from);
        assert a[0] == s && a[1..] == Anchored(springs[1..], from);
        if pending.None? {
          PlanMergesAnchored(springs[1..], from, Some(s));
        } else if ChildRigidBody(s) == ChildRigidBody(pending.value) {
          PlanMergesAnchored(springs[1..], from, pending);
        } else {
          PlanMergesAnchored(springs[1..], from, None);
          assert Plan(springs, from, pending)[1..] == Plan(springs[1..], from, None);
        }
      }
    }
  }

  /** Pairing at least halves: each new link consumes two anchored links (one
      of which may be the pending one). */
  lemma {:induction false} PairUpHalves(a: seq<Spring>, pending: Option<Spring>)
    ensures 2 * |PairUp(a, pending)| <= |a| + (if pending.Some? then 1 else 0)
    decreases |a|
  {
    if a != [] {
      var s := a[0];
      if pending.None? {
        PairUpHalves(a[1..], Some(s));
      } else if ChildRigidBody(s) == ChildRigidBody(pending.value) {
        PairUpHalves(a[1..], pending);
      } else {
        PairUpHalves(a[1..], None);
      }
    }
  }

  /** Every new link joins the far ends of two anchored links with different
      far ends, later to earlier, at their mean stiffness. */
  lemma {:induction false} PairUpShape(a: seq<Spring>, pending: Option<Spring>)
    ensures forall m :: m in PairUp(a, pending) ==>
      exists x, y :: (x in a || pending == Some(x)) && y in a
        && ChildRigidBody(x) != ChildRigidBody(y) && m == MergeProps(x, y)
    decreases |a|
  {
    if a != [] {
      var s := a[0];
      if pending.None? {
        PairUpShape(a[1..], Some(s));
      } else if ChildRigidBody(s) == ChildRigidBody(pending.value) {
        PairUpShape(a[1..], pending);
      } else {
        PairUpShape(a[1..], None);
        assert MergeProps(pending.value, s) == MergeProps(pending.value, s);
      }
    }
  }

  lemma {:induction false} SplitCount(springs: seq<Spring>, from: BodyHandle)
    ensures |Unanchored(springs, from)| + |Anchored(springs, from)| == |springs|
    ensures (exists i :: 0 <= i < |springs| && AnchoredAt(springs[i], from)) ==> |Anchored(springs, from)| > 0
    decreases |springs|
  {
    if springs != [] {
      SplitCount(springs[1..], from);
      if exists i :: 0 <= i < |springs| && AnchoredAt(springs[i], from) {
        var i :| 0 <= i < |springs| && AnchoredAt(springs[i], from);
        if i > 0 {
          assert AnchoredAt(springs[1..][i - 1], from);
        }
      }
    }
  }

  lemma {:induction false} AnchoredMembers(springs: seq<Spring>, from: BodyHandle)
    ensures forall x :: x in Anchored(springs, from) ==> x in springs && AnchoredAt(x, from)
    decreases |springs|
  {
    if springs != [] {
      AnchoredMembers(springs[1..], from);
    }
  }

  /** Escape never grows the collection, and shrinks it whenever some link
      hangs from `from`. */
  lemma EscapeShrinks(springs: seq<Spring>, from: BodyHandle)
    ensures |Plan(springs, from, None)| <= |springs|
    ensures (exists i :: 0 <= i < |springs| && AnchoredAt(springs[i], from)) ==> |Plan(springs, from, None)| < |springs|
  {
    var plan := Plan(springs, from, None);
    KeptMergedLength(plan);
    PlanKeepsUnanchored(springs, from, None);
    PlanMergesAnchored(springs, from, None);
    PairUpHalves(Anchored(springs, from), None);
    SplitCount(springs, from);
  }

  /** Every new link of escape is a merge of two links anchored at `from`. */
  lemma EscapeMergeShape(springs: seq<Spring>, from: BodyHandle)
    ensures forall m :: m in Merged(Plan(springs, from, None)) ==>
      exists x, y :: x in springs && y in springs && AnchoredAt(x, from) && AnchoredAt(y, from)
        && ChildRigidBody(x) != ChildRigidBody(y) && m == MergeProps(x, y)
  {
    PlanMergesAnchored(springs, from, None);
    PairUpShape(Anchored(springs, from), None);
    AnchoredMembers(springs, from);
  }

  lemma {:induction false} PlanParents(springs: seq<Spring>, from: BodyHandle, pending: Option<Spring>)
    requires forall i :: 0 <= i < |springs| ==> ChildRigidBody(springs[i]) != from
    requires pending.Some? ==> ChildRigidBody(pending.value) != from
    ensures forall e :: e in Plan(springs, from, pending) ==> StepParent(e) != from
    decreases |springs|
  {
    if springs != [] {
      var s := springs[0];
      assert ChildRigidBody(s) != from;
      if !AnchoredAt(s, from) {
        PlanParents(springs[1..], from, pending);
      } else if pending.None? {
        PlanParents(springs[1..], from, Some(s));
      } else if ChildRigidBody(s) == ChildRigidBody(pending.value) {
        PlanParents(springs[1..], from, pending);
      } else {
        PlanParents(springs[1..], from, None);
      }
    }
  }

  /** If no link ends at `from`, nothing hangs from `from` after escape. */
  lemma EscapeDetaches(springs: seq<Spring>, from: BodyHandle)
    requires forall i :: 0 <= i < |springs| ==> ChildRigidBody(springs[i]) != from
    ensures forall e :: e in Plan(springs, from, None) ==> StepParent(e) != from
  {
    PlanParents(springs, from, None);
  }

  lemma {:induction false} PlanKeepsMembers(springs: seq<Spring>, from: BodyHandle, pending: Option<Spring>)
    ensures forall e :: e in Plan(springs, from, pending) && e.Keep? ==> e.spring in springs && !AnchoredAt(e.spring, from)
    decreases |springs|
  {
    if springs != [] {
      var s := springs[0];
      if !AnchoredAt(s, from) {
        PlanKeepsMembers(springs[1..], from, pending);
      } else if pending.None? {
        PlanKeepsMembers(springs[1..], from, Some(s));
      } else if ChildRigidBody(s) == ChildRigidBody(pending.value) {
        PlanKeepsMembers(springs[1..], from, pending);
      } else {
        PlanKeepsMembers(springs[1..], from, None);
      }
    }
  }

  predicate DistinctKeeps(plan: seq<Step>) {
    forall i, j :: 0 <= i < j < |plan| && plan[i].Keep? && plan[j].Keep? ==> plan[i].spring.joint != plan[j].spring.joint
  }

  lemma {:induction false} PlanKeepsDistinct(springs: seq<Spring>, from: BodyHandle, pending: Option<Spring>)
    requires DistinctJoints(springs)
    ensures DistinctKeeps(Plan(springs, from, pending))
    decreases |springs|
  {
    if springs != [] {
      var s := springs[0];
      var rest := springs[1..];
      assert DistinctJoints(rest) by {
        forall i, j | 0 <= i < j < |rest| ensures rest[i].joint != rest[j].joint {
          assert rest[i] == springs[i + 1] && rest[j] == springs[j + 1];
        }
      }
      if !AnchoredAt(s, from) {
        PlanKeepsDistinct(rest, from, pending);
        PlanKeepsMembers(rest, from, pending);
        var plan := Plan(springs, from, pending);
        var tail := Plan(rest, from, pending);
        assert plan == [Keep(s)] + tail;
        forall i, j | 0 <= i < j < |plan| && plan[i].Keep? && plan[j].Keep?
          ensures plan[i].spring.joint != plan[j].spring.joint
        {
          assert plan[j] == tail[j - 1] && plan[j] in tail;
          if i == 0 {
            assert plan[j].spring in rest;
            var k :| 0 <= k < |rest| && rest[k] == plan[j].spring;
            assert springs[k + 1] == rest[k];
            assert springs[0].joint != springs[k + 1].joint;
          } else {
            assert plan[i] == tail[i - 1];
            assert DistinctKeeps(tail);
            assert 0 <= i - 1 < j - 1 < |tail| && tail[i - 1].Keep? && tail[j - 1].Keep?;
          }
        }
      } else if pending.None? {
        PlanKeepsDistinct(rest, from, Some(s));
        assert Plan(springs, from, pending) == Plan(rest, from, Some(s));
      } else if ChildRigidBody(s) == ChildRigidBody(pending.value) {
        PlanKeepsDistinct(rest, from, pending);
        assert Plan(springs, from, pending) == Plan(rest, from, pending);
      } else {
        PlanKeepsDistinct(rest, from, None);
        var plan := Plan(springs, from, pending);
        var tail := Plan(rest, from, None);
        assert plan == [Merge(MergeProps(pending.value, s))] + tail;
        forall i, j | 0 <= i < j < |plan| && plan[i].Keep? && plan[j].Keep?
          ensures plan[i].spring.joint != plan[j].spring.joint
        {
          assert plan[i] == tail[i - 1] && plan[j] == tail[j - 1];
          assert DistinctKeeps(tail);
          assert 0 <= i - 1 < j - 1 < |tail| && tail[i - 1].Keep? && tail[j - 1].Keep?;
        }
      }
    }
  }

  /** What a Merge entry becomes: a fresh spring built from its props. */
  predicate BuiltFrom(s: Spring, p: SpringProps) {
    && s.jointData == Joint(p.parent, p.child, p.parentHitPoint.GetOr(Origin), p.childHitPoint.GetOr(Origin),
                            p.length.GetOr(1.0), p.stiffness.GetOr(3.0), 0.2)
    && s.stiffness == p.stiffness.GetOr(3.0)
    && s.parentHitPoint == p.parentHitPoint.GetOr(Origin)
    && s.childHitPoint == p.childHitPoint.GetOr(Origin)
    && s.randomOriginOffset == p.randomOriginOffset.GetOr(0.0)
    && s.age == 0.0
  }

  /** Builds the springs of a plan in order, creating one joint per Merge entry. */
  function Realize(plan: seq<Step>, w: World): (r: (seq<Spring>, World))
    requires Valid(w)
    ensures |r.0| == |plan| && Valid(r.1)
    ensures r.1.bodies == w.bodies && r.1.colliders == w.colliders
    ensures w.nextJoint <= r.1.nextJoint
    decreases |plan|
  {
    if plan == [] then ([], w)
    else if plan[0].Keep? then
      var (rest, w') := Realize(plan[1..], w);
      ([plan[0].spring] + rest, w')
    else
      var (s, w1) := NewSpring(plan[0].props, w);
      var (rest, w') := Realize(plan[1..], w1);
      ([s] + rest, w')
  }

  /** Realize leaves existing joints alone and numbers new ones from `nextJoint` up. */
  lemma {:induction false} RealizeJoints(plan: seq<Step>, w: World)
    requires Valid(w)
    ensures var w' := Realize(plan, w).1;
      && (forall j :: j in w.joints ==> j in w'.joints && w'.joints[j] == w.joints[j])
      && (forall j :: j in w'.joints && j !in w.joints ==> w.nextJoint <= j)
    decreases |plan|
  {
    if plan != [] {
      if plan[0].Keep? {
        RealizeJoints(plan[1..], w);
      } else {
        var (s, w1) := NewSpring(plan[0].props, w);
        RealizeJoints(plan[1..], w1);
      }
    }
  }

  /** Realize keeps the Keep entries as they are. */
  lemma {:induction false} RealizeKeeps(plan: seq<Step>, w: World)
    requires Valid(w)
    ensures var out := Realize(plan, w).0;
      forall i :: 0 <= i < |out| && plan[i].Keep? ==> out[i] == plan[i].spring
    decreases |plan|
  {
    if plan != [] {
      var out := Realize(plan, w).0;
      var w1 := if plan[0].Keep? then w else NewSpring(plan[0].props, w).1;
      RealizeKeeps(plan[1..], w1);
      var rest := Realize(plan[1..], w1).0;
      assert out[1..] == rest;
      forall i | 0 <= i < |out| && plan[i].Keep? ensures out[i] == plan[i].spring {
        if i > 0 {
          assert out[i] == rest[i - 1] && plan[i] == plan[1..][i - 1];
        }
      }
    }
  }

  /** Realize turns each Merge entry into a freshly linked spring built from
      its props. */
  lemma {:induction false} RealizeMerges(plan: seq<Step>, w: World)
    requires Valid(w)
    ensures var (out, w') := Realize(plan, w);
      forall i :: 0 <= i < |out| && plan[i].Merge? ==>
        Linked(out[i], w') && BuiltFrom(out[i], plan[i].props) && w.nextJoint <= out[i].joint < w'.nextJoint
    decreases |plan|
  {
    if plan != [] {
      var (out, w') := Realize(plan, w);
      var w1 := if plan[0].Keep? then w else NewSpring(plan[0].props, w).1;
      RealizeMerges(plan[1..], w1);
      var rest := Realize(plan[1..], w1).0;
      assert out[1..] == rest;
      if plan[0].Merge? {
        RealizeJoints(plan[1..], w1);
        assert Linked(out[0], w');
      }
      forall i | 0 <= i < |out| && plan[i].Merge?
        ensures Linked(out[i], w') && BuiltFrom(out[i], plan[i].props) && w.nextJoint <= out[i].joint < w'.nextJoint
      {
        if i > 0 {
          assert out[i] == rest[i - 1] && plan[i] == plan[1..][i - 1];
        }
      }
    }
  }

  /** The joints Realize creates are numbered in plan order. */
  lemma {:induction false} RealizeOrders(plan: seq<Step>, w: World)
    requires Valid(w)
    ensures var out := Realize(plan, w).0;
      forall i, j :: 0 <= i < j < |out| && plan[i].Merge? && plan[j].Merge? ==> out[i].joint < out[j].joint
    decreases |plan|
  {
    if plan != [] {
      var out := Realize(plan, w).0;
      var w1 := if plan[0].Keep? then w else NewSpring(plan[0].props, w).1;
      RealizeOrders(plan[1..], w1);
      RealizeMerges(plan[1..], w1);
      var rest := Realize(plan[1..], w1).0;
      assert out[1..] == rest;
      forall i, j | 0 <= i < j < |out| && plan[i].Merge? && plan[j].Merge?
        ensures out[i].joint < out[j].joint
      {
        assert out[j] == rest[j - 1] && plan[j] == plan[1..][j - 1];
        if i > 0 {
          assert out[i] == rest[i - 1] && plan[i] == plan[1..][i - 1];
        }
      }
    }
  }

  /** The joints of the springs a plan's Merge entries became. */
  function MergeJoints(plan: seq<Step>, out: seq<Spring>): set<JointHandle>
    requires |out| == |plan|
  {
    set i | 0 <= i < |plan| && plan[i].Merge? :: out[i].joint
  }

  lemma MergeJointsCons(plan: seq<Step>, out: seq<Spring>)
    requires |out| == |plan| > 0
    ensures MergeJoints(plan, out) == (if plan[0].Merge? then {out[0].joint} else {}) + MergeJoints(plan[1..], out[1..])
  {
    var tail := MergeJoints(plan[1..], out[1..]);
    forall j | j in MergeJoints(plan, out)
      ensures j in (if plan[0].Merge? then {out[0].joint} else {}) + tail
    {
      var i :| 0 <= i < |plan| && plan[i].Merge? && out[i].joint == j;
      if i > 0 {
        assert plan[1..][i - 1] == plan[i] && out[1..][i - 1] == out[i];
      }
    }
    forall j | j in tail ensures j in MergeJoints(plan, out) {
      var i :| 0 <= i < |plan[1..]| && plan[1..][i].Merge? && out[1..][i].joint == j;
      assert plan[i + 1] == plan[1..][i] && out[i + 1] == out[1..][i];
    }
  }

  /** Realize creates no joint besides those of the Merge entries. */
  lemma {:induction false} RealizeCreatesOnly(plan: seq<Step>, w: World)
    requires Valid(w)
    ensures var (out, w') := Realize(plan, w);
      w'.joints.Keys == w.joints.Keys + MergeJoints(plan, out)
    decreases |plan|
  {
    if plan != [] {
      var (out, w') := Realize(plan, w);
      var w1 := if plan[0].Keep? then w else NewSpring(plan[0].props, w).1;
      RealizeCreatesOnly(plan[1..], w1);
      assert out[1..] == Realize(plan[1..], w1).0;
      MergeJointsCons(plan, out);
    }
  }

  /** The facts about Realize together. */
  lemma RealizeFacts(plan: seq<Step>, w: World)
    requires Valid(w)
    ensures var (out, w') := Realize(plan, w);
      && (forall j :: j in w.joints ==> j in w'.joints && w'.joints[j] == w.joints[j])
      && (forall j :: j in w'.joints && j !in w.joints ==> w.nextJoint <= j)
      && (forall i :: 0 <= i < |out| && plan[i].Keep? ==> out[i] == plan[i].spring)
      && (forall i :: 0 <= i < |out| && plan[i].Merge? ==>
            Linked(out[i], w') && BuiltFrom(out[i], plan[i].props) && w.nextJoint <= out[i].joint < w'.nextJoint)
      && (forall i, j :: 0 <= i < j < |out| && plan[i].Merge? && plan[j].Merge? ==> out[i].joint < out[j].joint)
  {
    RealizeJoints(plan, w);
    RealizeKeeps(plan, w);
    RealizeMerges(plan, w);
    RealizeOrders(plan, w);
  }

  function AnchoredJoints(springs: seq<Spring>, from: BodyHandle): set<JointHandle> {
    set s | s in springs && AnchoredAt(s, from) :: s.joint
  }

  /** `escape(from)`: re-chains the links hanging from `from` pairwise, keeps
      every other link in place, then destroys every link hanging from `from`. */
  function Escape(h: Hook, w: World, from: BodyHandle): (r: (Hook, World))
    requires Valid(w)
    ensures var plan := Plan(h.springs, from, None);
      && |r.0.springs| == |plan|
      && (forall i :: 0 <= i < |plan| && plan[i].Keep? ==> r.0.springs[i] == plan[i].spring)
      && (forall i :: 0 <= i < |plan| && plan[i].Merge? ==>
            BuiltFrom(r.0.springs[i], plan[i].props) && r.0.springs[i].joint !in w.joints)
    ensures forall s :: s in h.springs && AnchoredAt(s, from) ==> s.joint !in r.1.joints
    ensures forall j :: j in w.joints && j !in AnchoredJoints(h.springs, from) ==> j in r.1.joints && r.1.joints[j] == w.joints[j]
    ensures r.1.joints.Keys
      == (w.joints.Keys + MergeJoints(Plan(h.springs, from, None), r.0.springs)) - AnchoredJoints(h.springs, from)
    ensures r.0.maxInstances == h.maxInstances && r.0.grappleRange == h.grappleRange
    ensures Valid(r.1) && r.1.bodies == w.bodies && r.1.colliders == w.colliders
    ensures Consistent(h, w) ==> Consistent(r.0, r.1)
  {
    var plan := Plan(h.springs, from, None);
    var (out, w1) := Realize(plan, w);
    var dead := AnchoredJoints(h.springs, from);
    var w2 := w1.(joints := w1.joints - dead);
    RealizeFacts(plan, w);
    RealizeCreatesOnly(plan, w);
    EscapeConsistent(h, w, from, plan, out, w1, w2);
    (h.(springs := out), w2)
  }

  lemma EscapeConsistent(h: Hook, w: World, from: BodyHandle, plan: seq<Step>, out: seq<Spring>, w1: World, w2: World)
    requires Valid(w) && plan == Plan(h.springs, from, None) && (out, w1) == Realize(plan, w)
    requires w2 == w1.(joints := w1.joints - AnchoredJoints(h.springs, from))
    ensures Consistent(h, w) ==> Consistent(h.(springs := out), w2)
  {
    if Consistent(h, w) {
      EscapeLinked(h, w, from, plan, out, w1, w2);
      EscapeDistinct(h, w, from, plan, out, w1);
    }
  }

  /** Every spring after an escape is linked in the final world. */
  lemma EscapeLinked(h: Hook, w: World, from: BodyHandle, plan: seq<Step>, out: seq<Spring>, w1: World, w2: World)
    requires Consistent(h, w) && plan == Plan(h.springs, from, None) && (out, w1) == Realize(plan, w)
    requires w2 == w1.(joints := w1.joints - AnchoredJoints(h.springs, from))
    ensures forall i :: 0 <= i < |out| ==> Linked(out[i], w2)
  {
    RealizeJoints(plan, w);
    RealizeKeeps(plan, w);
    RealizeMerges(plan, w);
    PlanKeepsMembers(h.springs, from, None);
    forall i | 0 <= i < |out|
      ensures Linked(out[i], w2)
    {
      if plan[i].Keep? {
        assert plan[i] in plan;
        var k :| 0 <= k < |h.springs| && h.springs[k] == plan[i].spring;
        assert Linked(h.springs[k], w);
        KeptNotDead(h.springs, from, k);
      } else {
        NewNotDead(h, w, from, out[i].joint);
      }
    }
  }

  /** The springs after an escape own distinct joints. */
  lemma EscapeDistinct(h: Hook, w: World, from: BodyHandle, plan: seq<Step>, out: seq<Spring>, w1: World)
    requires Consistent(h, w) && plan == Plan(h.springs, from, None) && (out, w1) == Realize(plan, w)
    ensures DistinctJoints(out)
  {
    RealizeKeeps(plan, w);
    RealizeMerges(plan, w);
    RealizeOrders(plan, w);
    PlanKeepsMembers(h.springs, from, None);
    PlanKeepsDistinct(h.springs, from, None);
    assert DistinctKeeps(plan);
    forall i, j | 0 <= i < j < |out|
      ensures out[i].joint != out[j].joint
    {
      if plan[i].Keep? && plan[j].Keep? {
      } else if plan[i].Merge? && plan[j].Merge? {
      } else {
        var keep := if plan[i].Keep? then i else j;
        assert plan[keep] in plan;
        var k :| 0 <= k < |h.springs| && h.springs[k] == plan[keep].spring;
        assert Linked(h.springs[k], w);
      }
    }
  }

  lemma KeptNotDead(springs: seq<Spring>, from: BodyHandle, k: nat)
    requires DistinctJoints(springs) && k < |springs| && !AnchoredAt(springs[k], from)
    ensures springs[k].joint !in AnchoredJoints(springs, from)
  {
  }

  lemma NewNotDead(h: Hook, w: World, from: BodyHandle, j: JointHandle)
    requires Consistent(h, w) && j >= w.nextJoint
    ensures j !in AnchoredJoints(h.springs, from)
  {
    forall s | s in h.springs ensures s.joint < w.nextJoint {
      var m :| 0 <= m < |h.springs| && h.springs[m] == s;
      assert Linked(h.springs[m], w);
    }
  }

  // ---------------------------------------------------------------------------
  // reset and update

  /** `reset()`: destroys every link and empties the collection. */
  function Reset(h: Hook, w: World): (r: (Hook, World))
    requires Valid(w)
    ensures r.0.springs == [] && r.0.maxInstances == h.maxInstances && r.0.grappleRange == h.grappleRange
    ensures r.1.joints.Keys == w.joints.Keys - JointsOf(h.springs)
    ensures forall j :: j in r.1.joints ==> r.1.joints[j] == w.joints[j]
    ensures Valid(r.1) && r.1.bodies == w.bodies && r.1.colliders == w.colliders
    decreases |h.springs|
  {
    if h.springs == [] then (h, w)
    else
      var w1 := Destroy(h.springs[0], w);
      var (h', w') := Reset(h.(springs := h.springs[1..]), w1);
      assert JointsOf(h.springs) == {h.springs[0].joint} + JointsOf(h.springs[1..]);
      (h', w')
  }

  /** `update(delta)`: every link ages; nothing else changes. */
  function Update(h: Hook, delta: real): (r: Hook)
    ensures |r.springs| == |h.springs|
    ensures forall i :: 0 <= i < |h.springs| ==> r.springs[i] == Springs.Update(h.springs[i], delta)
    ensures r.maxInstances == h.maxInstances && r.grappleRange == h.grappleRange
    ensures forall w :: Consistent(h, w) ==> Consistent(r, w)
  {
    var r := h.(springs := seq(|h.springs|, i requires 0 <= i < |h.springs| => Springs.Update(h.springs[i], delta)));
    assert forall w :: Consistent(h, w) ==> Consistent(r, w) by {
      forall w | Consistent(h, w) ensures Consistent(r, w) {
        forall i | 0 <= i < |r.springs| ensures Linked(r.springs[i], w) {
          assert Linked(h.springs[i], w);
        }
      }
    }
    r
  }
}

=== FILE: moveable_block.dfy ===
/** A pushable block: a dynamic cube whose visual copies the body's pose each
    tick. Its half-extent is derived from the mesh's bounding box. */
module MoveableBlocks {
  import opened Common
  import opened Physics

  const MinHalfExtent := 0.1
  const ContactSkin := 0.2

  datatype BoundingBox = BoundingBox(min: Vec3, max: Vec3)

  /** The mesh a block is built from, as far as construction reads it. */
  datatype BlockMesh = BlockMesh(position: Vec3, scale: Vec3, rotation: Quat, boundingBox: Option<BoundingBox>)

  /** `position`/`rotation` are the visual pose, copied from the body by `update`. */
  datatype Block = Block(body: BodyHandle, collider: ColliderHandle, start: Vec3, halfExtent: real,
                         position: Vec3, rotation: Quat)

  datatype BlockError = MissingBoundingBox

  predicate Present(b: Block, w: World) {
    && b.body in w.bodies
    && b.collider in w.colliders
    && w.colliders[b.collider].parent == Some(b.body)
  }

  /** The cube's half-extent: half the box's x span scaled, less the contact
      skin, but never below 0.1. */
  function HalfExtent(bb: BoundingBox, scaleX: real): (r: real)
    ensures r >= MinHalfExtent
    ensures var raw := (Abs(bb.max.x) + Abs(bb.min.x)) * scaleX * 0.5 - ContactSkin;
      && (raw >= MinHalfExtent ==> r == raw)
      && (raw <= MinHalfExtent ==> r == MinHalfExtent)
  {
    Max(MinHalfExtent, (Abs(bb.max.x) + Abs(bb.min.x)) * scaleX * 0.5 - ContactSkin)
  }

  /** A wider box never gives a smaller cube (for a non-negative scale). */
  lemma HalfExtentMonotone(a: BoundingBox, b: BoundingBox, scaleX: real)
    requires scaleX >= 0.0
    requires Abs(a.max.x) + Abs(a.min.x) <= Abs(b.max.x) + Abs(b.min.x)
    ensures HalfExtent(a, scaleX) <= HalfExtent(b, scaleX)
  {
    var sa := Abs(a.max.x) + Abs(a.min.x);
    var sb := Abs(b.max.x) + Abs(b.min.x);
    MulNonNeg(sb - sa, scaleX);
    assert (sb - sa) * scaleX == sb * scaleX - sa * scaleX;
    assert sa * scaleX * 0.5 - ContactSkin <= sb * scaleX * 0.5 - ContactSkin;
  }

  /** `new MoveableBlock(...)`: fails without a bounding box; otherwise the
      start is one unit above the mesh, the body is created there with the
      mesh's rotation, and a solid cube collider hangs off it. The visual pose
      starts at the origin until the first update. */
  function NewBlock(w: World, mesh: BlockMesh): (r: Result<(Block, World), BlockError>)
    requires Valid(w)
    ensures mesh.boundingBox.None? <==> r.Err?
    ensures r.Ok? ==> var (b, w') := r.value;
      && mesh.boundingBox.Some?
      && b.start == Vec3(mesh.position.x, mesh.position.y + 1.0, mesh.position.z)
      && b.halfExtent == HalfExtent(mesh.boundingBox.value, mesh.scale.x)
      && b.body !in w.bodies && b.collider !in w.colliders
      && w'.bodies == w.bodies[b.body := Body(Dynamic, b.start, Origin, mesh.rotation)]
      && w'.colliders == w.colliders[b.collider := Collider(Some(b.body), false, Cuboid(b.halfExtent, b.halfExtent, b.halfExtent))]
      && w'.joints == w.joints
      && b.position == Origin && b.rotation == Identity
      && Valid(w') && Present(b, w')
  {
    match mesh.boundingBox
    case None => Err(MissingBoundingBox)
    case Some(bb) =>
      var start := Vec3(mesh.position.x, mesh.position.y + 1.0, mesh.position.z);
      var he := HalfExtent(bb, mesh.scale.x);
      var (body, w1) := CreateBody(w, Body(Dynamic, start, Origin, mesh.rotation));
      var (c, w2) := CreateCollider(w1, Collider(Some(body), false, Cuboid(he, he, he)));
      Ok((Block(body, c, start, he, Origin, Identity), w2))
  }

  /** `update(delta)`: the visual pose follows the body; delta is unused. */
  function Update(b: Block, w: World, delta: real): (r: Block)
    requires b.body in w.bodies
    ensures r.position == w.bodies[b.body].translation && r.rotation == w.bodies[b.body].rotation
    ensures r.(position := b.position, rotation := b.rotation) == b
  {
    b.(position := w.bodies[b.body].translation, rotation := w.bodies[b.body].rotation)
  }

  /** Following the body is idempotent and independent of delta. */
  lemma UpdateIdempotent(b: Block, w: World, d1: real, d2: real)
    requires b.body in w.bodies
    ensures Update(Update(b, w, d1), w, d2) == Update(b, w, d1)
  {
  }

  /** `reset()`: moves the body back to its start; nothing else changes. */
  function Reset(b: Block, w: World): (w': World)
    requires b.body in w.bodies
    ensures w'.bodies.Keys == w.bodies.Keys
    ensures w'.bodies[b.body] == w.bodies[b.body].(translation := b.start)
    ensures forall h :: h in w.bodies && h != b.body ==> w'.bodies[h] == w.bodies[h]
    ensures w'.colliders == w.colliders && w'.joints == w.joints
  {
    SetTranslation(w, b.body, b.start)
  }

  /** `destroy()`: removes the block's collider, then its body. */
  function Destroy(b: Block, w: World): (w': World)
    ensures w'.colliders == w.colliders - {b.collider}
    ensures w'.bodies == w.bodies - {b.body}
    ensures w'.joints == w.joints
    ensures !Present(b, w')
  {
    RemoveColliderAndBody(w, b.collider, b.body)
  }
}

=== FILE: parse_level_model.dfy ===
/** The level builder: one pass over the level model's nodes in traversal
    order classifies each node by name (first matching rule wins), creates
    sensor and terrain colliders as it goes, and collects the meshes that
    become enemies, moveable blocks and instances of the single batched mesh.
    Geometry, materials and colours are carried as opaque identifiers. */
module LevelParser {
  import opened Common
  import opened Physics
  import Enemies
  import MoveableBlocks

  /** What a node's `userData` says about the background colour. */
  datatype UserData = NoBackground | BackgroundString(colour: string) | BackgroundOther

  /** One node of the model tree, as the traversal reads it. `id` stands for
      the object itself; `gradientMaterial` tells whether its material is a
      standard material named "gradient material"; `hasPosition` whether its
      geometry has a position attribute. */
  datatype Node = Node(
    id: nat,
    name: string,
    isMesh: bool,
    userData: UserData,
    gradientMaterial: bool,
    hasPosition: bool,
    vertexCount: nat,
    indexCount: Option<nat>,
    position: Vec3,
    scale: Vec3,
    rotation: Quat,
    boundingBox: Option<MoveableBlocks.BoundingBox>)

  datatype LevelConfig = LevelConfig(cameraFollowDistance: real, renderDistance: real, shadows: bool)

  datatype Role =
    | UserDataNode | Textured | NotMesh | LightRays | Glow
    | EnemyMesh | BlockMesh | GoalSensor | DangerSensor | Batched

  /** The traversal's rules in their order; the first that applies decides. */
  function Classify(n: Node): Role {
    if Contains(n.name, "user-data") then UserDataNode
    else if Contains(n.name, "textured") then Textured
    else if !n.isMesh then NotMesh
    else if Contains(n.name, "light") then LightRays
    else if Contains(n.name, "glow") then Glow
    else if Contains(n.name, "enemy") then EnemyMesh
    else if Contains(n.name, "moveable-block") then BlockMesh
    else if Contains(n.name, "goal_sensor") then GoalSensor
    else if Contains(n.name, "danger") then DangerSensor
    else Batched
  }

  /** The classifier as a rule table: a rule applies when its pattern occurs
      in the name and, for mesh-only rules, the node is a mesh. */
  datatype Rule = Rule(pattern: string, role: Role, meshOnly: bool)

  const Rules := [
    Rule("user-data", UserDataNode, false), Rule("textured", Textured, false),
    Rule("light", LightRays, true), Rule("glow", Glow, true), Rule("enemy", EnemyMesh, true),
    Rule("moveable-block", BlockMesh, true), Rule("goal_sensor", GoalSensor, true),
    Rule("danger", DangerSensor, true)]

  /** The role of the first rule from index k on that applies, if any. */
  function FirstMatch(rules: seq<Rule>, k: nat, n: Node): Option<Role>
    decreases |rules| - k
  {
    if k >= |rules| then None
    else if Contains(n.name, rules[k].pattern) && (!rules[k].meshOnly || n.isMesh) then Some(rules[k].role)
    else FirstMatch(rules, k + 1, n)
  }

  /** The nested rules agree with the table: the first applicable rule
      decides; a mesh no rule claims is batched, any other node is dropped. */
  lemma ClassifyIsFirstMatch(n: Node)
    ensures Classify(n) == match FirstMatch(Rules, 0, n)
      case Some(role) => role
      case None => if n.isMesh then Batched else NotMesh
  {
    var r := Rules;
    assert FirstMatch(r, 8, n) == None;
    assert FirstMatch(r, 7, n) == (if Contains(n.name, "danger") && n.isMesh then Some(DangerSensor) else None);
    assert FirstMatch(r, 6, n) == (if Contains(n.name, "goal_sensor") && n.isMesh then Some(GoalSensor) else FirstMatch(r, 7, n));
    assert FirstMatch(r, 5, n) == (if Contains(n.name, "moveable-block") && n.isMesh then Some(BlockMesh) else FirstMatch(r, 6, n));
    assert FirstMatch(r, 4, n) == (if Contains(n.name, "enemy") && n.isMesh then Some(EnemyMesh) else FirstMatch(r, 5, n));
    assert FirstMatch(r, 3, n) == (if Contains(n.name, "glow") && n.isMesh then Some(Glow) else FirstMatch(r, 4, n));
    assert FirstMatch(r, 2, n) == (if Contains(n.name, "light") && n.isMesh then Some(LightRays) else FirstMatch(r, 3, n));
    assert FirstMatch(r, 1, n) == (if Contains(n.name, "textured") then Some(Textured) else FirstMatch(r, 2, n));
  }

  /** Nodes the traversal itself pushes onto the scene list. */
  predicate ToScene(n: Node) {
    Classify(n) == Textured || Classify(n) == LightRays || Classify(n) == Glow || Classify(n) == DangerSensor
  }

  /** Batched meshes whose name marks them as ground get a terrain collider. */
  predicate IsGround(n: Node) {
    Classify(n) == Batched && Contains(n.name, "ground")
  }

  /** A user-data node carrying a string background colour. */
  predicate SetsFog(n: Node) {
    Classify(n) == UserDataNode && n.userData.BackgroundString?
  }

  predicate IsGlow(n: Node) {
    Classify(n) == Glow
  }

  /** The material check runs only for meshes that got past the light and glow rules. */
  predicate SetsAtlas(n: Node) {
    n.gradientMaterial && Classify(n) in {EnemyMesh, BlockMesh, GoalSensor, DangerSensor, Batched}
  }

  function Select(nodes: seq<Node>, role: Role): seq<Node> {
    Filter(nodes, (n: Node) => Classify(n) == role)
  }

  /** Selecting from a non-empty list: select from all but the last, then the last. */
  lemma SelectStep(nodes: seq<Node>, role: Role)
    requires nodes != []
    ensures var p, n := nodes[..|nodes| - 1], nodes[|nodes| - 1];
      Select(nodes, role) == Select(p, role) + (if Classify(n) == role then [n] else [])
  {
    var p, n := nodes[..|nodes| - 1], nodes[|nodes| - 1];
    assert nodes == p + [n];
    FilterAppend(p, n, (m: Node) => Classify(m) == role);
  }

  lemma FilterStep(nodes: seq<Node>, q: Node -> bool)
    requires nodes != []
    ensures var p, n := nodes[..|nodes| - 1], nodes[|nodes| - 1];
      Filter(nodes, q) == Filter(p, q) + (if q(n) then [n] else [])
  {
    var p, n := nodes[..|nodes| - 1], nodes[|nodes| - 1];
    assert nodes == p + [n];
    FilterAppend(p, n, q);
  }

  function SceneNodes(nodes: seq<Node>): seq<Node> {
    Filter(nodes, ToScene)
  }

  function GroundNodes(nodes: seq<Node>): seq<Node> {
    Filter(nodes, IsGround)
  }

  function Ids(s: seq<Node>): (r: seq<nat>)
    ensures |r| == |s| && forall i :: 0 <= i < |s| ==> r[i] == s[i].id
  {
    seq(|s|, i requires 0 <= i < |s| => s[i].id)
  }

  /** What a batched mesh adds to the vertex and index counts: nothing when
      its geometry has no position attribute, and no indices when it is not indexed. */
  function Vertices(n: Node): nat {
    if n.hasPosition then n.vertexCount else 0
  }

  function Indices(n: Node): nat {
    if n.hasPosition then n.indexCount.GetOr(0) else 0
  }

  function VertexSum(s: seq<Node>): nat {
    if s == [] then 0 else Vertices(s[0]) + VertexSum(s[1..])
  }

  function IndexSum(s: seq<Node>): nat {
    if s == [] then 0 else Indices(s[0]) + IndexSum(s[1..])
  }

  lemma {:induction false} SumsAppend(s: seq<Node>, n: Node)
    ensures VertexSum(s + [n]) == VertexSum(s) + Vertices(n)
    ensures IndexSum(s + [n]) == IndexSum(s) + Indices(n)
    decreases |s|
  {
    if s != [] {
      assert (s + [n])[1..] == s[1..] + [n];
      SumsAppend(s[1..], n);
    }
  }

  datatype FogColour = White | Css(colour: string)

  datatype Fog = Fog(colour: FogColour, near: real, far: real)

  const SensorCollider := Collider(None, true, TriMesh)
  const GroundBody := Body(Fixed, Origin, Origin, Identity)

  function GroundCollider(b: BodyHandle): Collider {
    Collider(Some(b), false, TriMesh)
  }

  /** Collider c is a terrain collider: a solid trimesh on a fixed body. */
  predicate IsTerrain(w: World, c: ColliderHandle)
    requires c in w.colliders
  {
    && w.colliders[c].parent.Some?
    && w.colliders[c].parent.value in w.bodies
    && w.bodies[w.colliders[c].parent.value].kind == Fixed
    && w.colliders[c] == GroundCollider(w.colliders[c].parent.value)
  }

  /** w only adds to w0: everything w0 holds is still there unchanged. */
  predicate Extends(w0: World, w: World) {
    && (forall h :: h in w0.bodies ==> h in w.bodies && w.bodies[h] == w0.bodies[h])
    && (forall h :: h in w0.colliders ==> h in w.colliders && w.colliders[h] == w0.colliders[h])
    && w.joints == w0.joints
  }

  /** The physics side of the traversal: the world and the colliders created so far. */
  datatype Made = Made(
    world: World,
    goalSensors: seq<ColliderHandle>,
    dangerSensors: seq<ColliderHandle>,
    terrainColliders: seq<ColliderHandle>)

  function AddGoal(m: Made): (r: Made)
    requires Valid(m.world)
    ensures Valid(r.world) && Extends(m.world, r.world)
  {
    var (c, w) := CreateCollider(m.world, SensorCollider);
    m.(world := w, goalSensors := m.goalSensors + [c])
  }

  function AddDanger(m: Made): (r: Made)
    requires Valid(m.world)
    ensures Valid(r.world) && Extends(m.world, r.world)
  {
    var (c, w) := CreateCollider(m.world, SensorCollider);
    m.(world := w, dangerSensors := m.dangerSensors + [c])
  }

  /** A ground collider sits on a fixed body of its own. */
  function AddGround(m: Made): (r: Made)
    requires Valid(m.world)
    ensures Valid(r.world) && Extends(m.world, r.world)
  {
    var (b, w1) := CreateBody(m.world, GroundBody);
    var (c, w2) := CreateCollider(w1, GroundCollider(b));
    m.(world := w2, terrainColliders := m.terrainColliders + [c])
  }

  /** What one node does to the physics side. */
  function Make(m: Made, n: Node): (r: Made)
    requires Valid(m.world)
    ensures Valid(r.world) && Extends(m.world, r.world)
  {
    match Classify(n)
    case GoalSensor => AddGoal(m)
    case DangerSensor => AddDanger(m)
    case Batched => if Contains(n.name, "ground") then AddGround(m) else m
    case _ => m
  }

  /** The traversal's other accumulators. */
  datatype Acc = Acc(
    made: Made,
    scene: seq<nat>,
    batched: seq<Node>,
    enemyMeshes: seq<Node>,
    blockMeshes: seq<Node>,
    vertices: nat,
    indices: nat,
    atlas: Option<nat>,
    skyGlow: Option<nat>,
    fogColour: FogColour)

  function Start(w: World): Acc {
    Acc(Made(w, [], [], []), [], [], [], [], 0, 0, None, None, White)
  }

  /** The traversal callback applied to one node, accumulator by accumulator;
      the callback's early returns are what `Classify` encodes. */
  function Visit(a: Acc, n: Node): (r: Acc)
    requires Valid(a.made.world)
    ensures Valid(r.made.world)
  {
    var role := Classify(n);
    var batched := role == Batched;
    Acc(
      Make(a.made, n),
      a.scene + (if ToScene(n) then [n.id] else []),
      a.batched + (if batched then [n] else []),
      a.enemyMeshes + (if role == EnemyMesh then [n] else []),
      a.blockMeshes + (if role == BlockMesh then [n] else []),
      a.vertices + (if batched then Vertices(n) else 0),
      a.indices + (if batched then Indices(n) else 0),
      if SetsAtlas(n) then Some(n.id) else a.atlas,
      if IsGlow(n) then Some(n.id) else a.skyGlow,
      if SetsFog(n) then Css(n.userData.colour) else a.fogColour)
  }

  /** `model.traverse(...)` over the nodes in traversal order. */
  function Traverse(nodes: seq<Node>, w0: World): (r: Acc)
    requires Valid(w0)
    ensures Valid(r.made.world)
    decreases |nodes|
  {
    if nodes == [] then Start(w0)
    else Visit(Traverse(nodes[..|nodes| - 1], w0), nodes[|nodes| - 1])
  }

  /** The colliders the traversal created are fresh, of the right kind, and
      no handle is shared between or within the three lists. */
  predicate Created(m: Made, w0: World) {
    && Extends(w0, m.world)
    && (forall c :: c in m.goalSensors ==> c in m.world.colliders && c !in w0.colliders && m.world.colliders[c] == SensorCollider)
    && (forall c :: c in m.dangerSensors ==> c in m.world.colliders && c !in w0.colliders && m.world.colliders[c] == SensorCollider)
    && (forall c :: c in m.terrainColliders ==> c in m.world.colliders && c !in w0.colliders && IsTerrain(m.world, c))
    && Distinct(m.goalSensors) && Distinct(m.dangerSensors) && Distinct(m.terrainColliders)
    && Disjoint(m.goalSensors, m.dangerSensors)
    && Disjoint(m.goalSensors, m.terrainColliders)
    && Disjoint(m.dangerSensors, m.terrainColliders)
  }

  lemma DistinctAppend(s: seq<ColliderHandle>, c: ColliderHandle)
    requires Distinct(s) && c !in s
    ensures Distinct(s + [c])
  {
    forall i, j | 0 <= i < |s| + 1 && 0 <= j < |s| + 1 && i != j
      ensures (s + [c])[i] != (s + [c])[j]
    {
      if i == |s| {
        assert (s + [c])[j] == s[j];
      } else if j == |s| {
        assert (s + [c])[i] == s[i];
      }
    }
  }

  lemma ExtendsTrans(w0: World, w1: World, w2: World)
    requires Extends(w0, w1) && Extends(w1, w2)
    ensures Extends(w0, w2)
  {
  }

  lemma AddGoalCreated(m: Made, w0: World)
    requires Valid(m.world) && Created(m, w0)
    ensures Created(AddGoal(m), w0)
  {
    var (c, w) := CreateCollider(m.world, SensorCollider);
    ExtendsTrans(w0, m.world, w);
    assert c !in m.goalSensors && c !in m.dangerSensors && c !in m.terrainColliders;
    DistinctAppend(m.goalSensors, c);
  }

  lemma AddDangerCreated(m: Made, w0: World)
    requires Valid(m.world) && Created(m, w0)
    ensures Created(AddDanger(m), w0)
  {
    var (c, w) := CreateCollider(m.world, SensorCollider);
    ExtendsTrans(w0, m.world, w);
    assert c !in m.goalSensors && c !in m.dangerSensors && c !in m.terrainColliders;
    DistinctAppend(m.dangerSensors, c);
  }

  lemma AddGroundCreated(m: Made, w0: World)
    requires Valid(m.world) && Created(m, w0)
    ensures Created(AddGround(m), w0)
  {
    var (b, w1) := CreateBody(m.world, GroundBody);
    var (c, w2) := CreateCollider(w1, GroundCollider(b));
    ExtendsTrans(w0, m.world, w2);
    assert c !in m.goalSensors && c !in m.dangerSensors && c !in m.terrainColliders;
    DistinctAppend(m.terrainColliders, c);
    assert IsTerrain(w2, c);
    forall t | t in m.terrainColliders
      ensures IsTerrain(w2, t)
    {
      assert IsTerrain(m.world, t);
    }
  }

  lemma MakeCreated(m: Made, n: Node, w0: World)
    requires Valid(m.world) && Created(m, w0)
    ensures Created(Make(m, n), w0)
  {
    match Classify(n)
    case GoalSensor => AddGoalCreated(m, w0);
    case DangerSensor => AddDangerCreated(m, w0);
    case Batched => if Contains(n.name, "ground") { AddGroundCreated(m, w0); }
    case _ =>
  }

  /** The creation facts hold over any traversal. */
  lemma {:induction false} TraverseCreated(nodes: seq<Node>, w0: World)
    requires Valid(w0)
    ensures Created(Traverse(nodes, w0).made, w0)
    decreases |nodes|
  {
    if nodes != [] {
      var p := nodes[..|nodes| - 1];
      TraverseCreated(p, w0);
      MakeCreated(Traverse(p, w0).made, nodes[|nodes| - 1], w0);
    }
  }

  /** What one visit does to each accumulator, field by field. */
  lemma VisitFacts(a: Acc, n: Node)
    requires Valid(a.made.world)
    ensures var r := Visit(a, n);
      && r.made == Make(a.made, n)
      && r.enemyMeshes == a.enemyMeshes + (if Classify(n) == EnemyMesh then [n] else [])
      && r.blockMeshes == a.blockMeshes + (if Classify(n) == BlockMesh then [n] else [])
      && r.batched == a.batched + (if Classify(n) == Batched then [n] else [])
      && r.scene == a.scene + (if ToScene(n) then [n.id] else [])
      && r.vertices == a.vertices + (if Classify(n) == Batched then Vertices(n) else 0)
      && r.indices == a.indices + (if Classify(n) == Batched then Indices(n) else 0)
      && r.fogColour == (if SetsFog(n) then Css(n.userData.colour) else a.fogColour)
      && r.skyGlow == (if IsGlow(n) then Some(n.id) else a.skyGlow)
      && r.atlas == (if SetsAtlas(n) then Some(n.id) else a.atlas)
  {
  }

  /** A non-mesh node that no rule claims leaves every accumulator as it was. */
  lemma DroppedNodeIsIgnored(a: Acc, n: Node)
    requires Valid(a.made.world) && Classify(n) == NotMesh
    ensures Visit(a, n) == a
  {
  }

  /** Where one visit routes a node: a danger mesh becomes a sensor and a
      scene object, a goal mesh only a sensor, and only a ground mesh among
      the batched ones gets a terrain collider. */
  lemma VisitRoutes(a: Acc, n: Node)
    requires Valid(a.made.world)
    ensures var r := Visit(a, n);
      && |r.made.goalSensors| == |a.made.goalSensors| + (if Classify(n) == GoalSensor then 1 else 0)
      && |r.made.dangerSensors| == |a.made.dangerSensors| + (if Classify(n) == DangerSensor then 1 else 0)
      && |r.made.terrainColliders| == |a.made.terrainColliders| + (if IsGround(n) then 1 else 0)
      && (Classify(n) == DangerSensor ==> r.scene == a.scene + [n.id])
      && (Classify(n) == GoalSensor ==> r.scene == a.scene)
      && (Classify(n) in {EnemyMesh, BlockMesh, GoalSensor, DangerSensor} ==> r.batched == a.batched)
  {
  }

  /** One traversal step, without unfolding the callback. */
  lemma TraverseStep(nodes: seq<Node>, w0: World)
    requires Valid(w0) && nodes != []
    ensures Traverse(nodes, w0) == Visit(Traverse(nodes[..|nodes| - 1], w0), nodes[|nodes| - 1])
  {
  }

  /** The traversal collects the enemy and block meshes in traversal order,
      against a plain filter of the node list. */
  lemma {:induction false} TraverseSelects(nodes: seq<Node>, w0: World)
    requires Valid(w0)
    ensures var a := Traverse(nodes, w0);
      && a.enemyMeshes == Select(nodes, EnemyMesh)
      && a.blockMeshes == Select(nodes, BlockMesh)
    decreases |nodes|
  {
    if nodes != [] {
      var p := nodes[..|nodes| - 1];
      TraverseSelects(p, w0);
      TraverseStep(nodes, w0);
      VisitFacts(Traverse(p, w0), nodes[|nodes| - 1]);
      SelectStep(nodes, EnemyMesh);
      SelectStep(nodes, BlockMesh);
    }
  }

  /** The batched meshes, in traversal order. */
  lemma {:induction false} TraverseBatched(nodes: seq<Node>, w0: World)
    requires Valid(w0)
    ensures Traverse(nodes, w0).batched == Select(nodes, Batched)
    decreases |nodes|
  {
    if nodes != [] {
      var p := nodes[..|nodes| - 1];
      TraverseBatched(p, w0);
      TraverseStep(nodes, w0);
      VisitFacts(Traverse(p, w0), nodes[|nodes| - 1]);
      SelectStep(nodes, Batched);
    }
  }

  /** The objects the traversal pushes to the scene, in traversal order. */
  lemma {:induction false} TraverseScene(nodes: seq<Node>, w0: World)
    requires Valid(w0)
    ensures Traverse(nodes, w0).scene == Ids(SceneNodes(nodes))
    decreases |nodes|
  {
    if nodes != [] {
      var p := nodes[..|nodes| - 1];
      var n := nodes[|nodes| - 1];
      TraverseScene(p, w0);
      TraverseStep(nodes, w0);
      VisitFacts(Traverse(p, w0), n);
      FilterStep(nodes, ToScene);
      IdsAppend(SceneNodes(p), n);
    }
  }

  lemma IdsAppend(s: seq<Node>, n: Node)
    ensures Ids(s + [n]) == Ids(s) + [n.id]
  {
  }

  /** One sensor collider per goal and per danger node. */
  lemma {:induction false} TraverseSensorCounts(nodes: seq<Node>, w0: World)
    requires Valid(w0)
    ensures var a := Traverse(nodes, w0);
      && |a.made.goalSensors| == |Select(nodes, GoalSensor)|
      && |a.made.dangerSensors| == |Select(nodes, DangerSensor)|
    decreases |nodes|
  {
    if nodes != [] {
      var p := nodes[..|nodes| - 1];
      TraverseSensorCounts(p, w0);
      TraverseStep(nodes, w0);
      VisitRoutes(Traverse(p, w0), nodes[|nodes| - 1]);
      SelectStep(nodes, GoalSensor);
      SelectStep(nodes, DangerSensor);
    }
  }

  /** One terrain collider per ground node. */
  lemma {:induction false} TraverseGroundCount(nodes: seq<Node>, w0: World)
    requires Valid(w0)
    ensures |Traverse(nodes, w0).made.terrainColliders| == |GroundNodes(nodes)|
    decreases |nodes|
  {
    if nodes != [] {
      var p := nodes[..|nodes| - 1];
      TraverseGroundCount(p, w0);
      TraverseStep(nodes, w0);
      VisitRoutes(Traverse(p, w0), nodes[|nodes| - 1]);
      FilterStep(nodes, IsGround);
    }
  }

  /** The vertex count is the sum over the batched nodes. */
  lemma {:induction false} TraverseVertices(nodes: seq<Node>, w0: World)
    requires Valid(w0)
    ensures Traverse(nodes, w0).vertices == VertexSum(Select(nodes, Batched))
    decreases |nodes|
  {
    if nodes != [] {
      var p := nodes[..|nodes| - 1];
      var n := nodes[|nodes| - 1];
      TraverseVertices(p, w0);
      TraverseStep(nodes, w0);
      VisitFacts(Traverse(p, w0), n);
      SelectStep(nodes, Batched);
      var b := Select(p, Batched);
      if Classify(n) == Batched {
        SumsAppend(b, n);
        assert Select(nodes, Batched) == b + [n];
      } else {
        assert Select(nodes, Batched) == b;
      }
    }
  }

  /** The index count is the sum over the batched nodes. */
  lemma {:induction false} TraverseIndices(nodes: seq<Node>, w0: World)
    requires Valid(w0)
    ensures Traverse(nodes, w0).indices == IndexSum(Select(nodes, Batched))
    decreases |nodes|
  {
    if nodes != [] {
      var p := nodes[..|nodes| - 1];
      var n := nodes[|nodes| - 1];
      TraverseIndices(p, w0);
      TraverseStep(nodes, w0);
      VisitFacts(Traverse(p, w0), n);
      SelectStep(nodes, Batched);
      var b := Select(p, Batched);
      if Classify(n) == Batched {
        SumsAppend(b, n);
        assert Select(nodes, Batched) == b + [n];
      } else {
        assert Select(nodes, Batched) == b;
      }
    }
  }

  /** The last index satisfying q, one element at a time. */
  lemma LastStep(nodes: seq<Node>, q: Node -> bool)
    requires nodes != []
    ensures Last(nodes, q) == if q(nodes[|nodes| - 1]) then Some(|nodes| - 1) else Last(nodes[..|nodes| - 1], q)
  {
  }

  /** The fog colour, the sky glow and the batched mesh's material come from
      the last node in traversal order that sets them. */
  lemma {:induction false} TraverseLast(nodes: seq<Node>, w0: World)
    requires Valid(w0)
    ensures var a := Traverse(nodes, w0);
      && a.fogColour == (match Last(nodes, SetsFog) case None => White case Some(i) => Css(nodes[i].userData.colour))
      && a.skyGlow == (match Last(nodes, IsGlow) case None => None case Some(i) => Some(nodes[i].id))
      && a.atlas == (match Last(nodes, SetsAtlas) case None => None case Some(i) => Some(nodes[i].id))
    decreases |nodes|
  {
    if nodes != [] {
      var p := nodes[..|nodes| - 1];
      var n := nodes[|nodes| - 1];
      TraverseLast(p, w0);
      TraverseStep(nodes, w0);
      VisitFacts(Traverse(p, w0), n);
      LastStep(nodes, SetsFog);
      LastStep(nodes, IsGlow);
      LastStep(nodes, SetsAtlas);
      var f := Last(p, SetsFog);
      if f.Some? { assert nodes[f.value] == p[f.value]; }
      var g := Last(p, IsGlow);
      if g.Some? { assert nodes[g.value] == p[g.value]; }
      var t := Last(p, SetsAtlas);
      if t.Some? { assert nodes[t.value] == p[t.value]; }
    }
  }

  datatype SceneObject = NodeObject(id: nat) | EnemyObject(index: nat) | BlockObject(index: nat) | BatchedMeshObject

  /** The single batched mesh: its capacities, its material (None: the default
      one) and its instances in order. */
  datatype BatchedMesh = BatchedMesh(instanceCount: nat, vertexCount: nat, indexCount: nat,
                                     material: Option<nat>, instances: seq<nat>)

  datatype ParsedLevel = ParsedLevel(
    fog: Fog,
    skyGlow: Option<nat>,
    goalSensors: seq<ColliderHandle>,
    dangerSensors: seq<ColliderHandle>,
    terrainColliders: seq<ColliderHandle>,
    scene: seq<SceneObject>,
    enemies: seq<Enemies.Enemy>,
    blocks: seq<MoveableBlocks.Block>,
    batched: BatchedMesh,
    world: World)

  /** One enemy per mesh, in order, each created after the previous one. */
  function MakeEnemies(meshes: seq<Node>, w: World): (r: (seq<Enemies.Enemy>, World))
    requires Valid(w)
    ensures Valid(r.1) && |r.0| == |meshes|
    decreases |meshes|
  {
    if meshes == [] then ([], w)
    else
      var (e, w1) := Enemies.NewEnemy(w, meshes[0].position);
      var (rest, w2) := MakeEnemies(meshes[1..], w1);
      ([e] + rest, w2)
  }

  /** Building the enemies only adds to the world. */
  lemma {:induction false} MakeEnemiesExtends(meshes: seq<Node>, w: World)
    requires Valid(w)
    ensures Extends(w, MakeEnemies(meshes, w).1)
    decreases |meshes|
  {
    if meshes != [] {
      var first := Enemies.NewEnemy(w, meshes[0].position);
      MakeEnemiesExtends(meshes[1..], first.1);
      ExtendsTrans(w, first.1, MakeEnemies(meshes[1..], first.1).1);
    }
  }

  lemma PresentExtends(e: Enemies.Enemy, w: World, w': World)
    requires Enemies.Present(e, w) && Extends(w, w')
    ensures Enemies.Present(e, w')
  {
  }

  /** Enemy i starts at mesh i's position, faces right, and is live in the
      final world with handles that were not in the initial one. */
  lemma {:induction false} MakeEnemyAt(meshes: seq<Node>, w: World, i: nat)
    requires Valid(w) && i < |meshes|
    ensures var (es, w') := MakeEnemies(meshes, w);
      && es[i].start == meshes[i].position && es[i].direction == Right
      && Enemies.Present(es[i], w') && es[i].body !in w.bodies && es[i].collider !in w.colliders
    decreases i
  {
    var first := Enemies.NewEnemy(w, meshes[0].position);
    var rest := MakeEnemies(meshes[1..], first.1);
    assert MakeEnemies(meshes, w) == ([first.0] + rest.0, rest.1);
    if i == 0 {
      MakeEnemiesExtends(meshes[1..], first.1);
      PresentExtends(first.0, first.1, rest.1);
    } else {
      MakeEnemyAt(meshes[1..], first.1, i - 1);
      assert ([first.0] + rest.0)[i] == rest.0[i - 1];
      assert meshes[i] == meshes[1..][i - 1];
    }
  }

  lemma MakeEnemiesFacts(meshes: seq<Node>, w: World)
    requires Valid(w)
    ensures var (es, w') := MakeEnemies(meshes, w);
      forall i :: 0 <= i < |meshes| ==>
        && es[i].start == meshes[i].position && es[i].direction == Right
        && Enemies.Present(es[i], w') && es[i].body !in w.bodies && es[i].collider !in w.colliders
  {
    forall i | 0 <= i < |meshes| {
      MakeEnemyAt(meshes, w, i);
    }
  }

  function BlockMeshOf(n: Node): MoveableBlocks.BlockMesh {
    MoveableBlocks.BlockMesh(n.position, n.scale, n.rotation, n.boundingBox)
  }

  predicate AllBoxed(meshes: seq<Node>) {
    forall i :: 0 <= i < |meshes| ==> meshes[i].boundingBox.Some?
  }

  /** One block per mesh, in order; the first mesh without a bounding box aborts. */
  function MakeBlocks(meshes: seq<Node>, w: World): (r: Result<(seq<MoveableBlocks.Block>, World), MoveableBlocks.BlockError>)
    requires Valid(w)
    ensures r.Ok? ==> Valid(r.value.1) && |r.value.0| == |meshes|
    decreases |meshes|
  {
    if meshes == [] then Ok(([], w))
    else
      match MoveableBlocks.NewBlock(w, BlockMeshOf(meshes[0]))
      case Err(e) => Err(e)
      case Ok((b, w1)) =>
        match MakeBlocks(meshes[1..], w1)
        case Err(e) => Err(e)
        case Ok((rest, w2)) => Ok(([b] + rest, w2))
  }

  /** Building the blocks only adds to the world. */
  lemma {:induction false} MakeBlocksExtends(meshes: seq<Node>, w: World)
    requires Valid(w)
    ensures MakeBlocks(meshes, w).Ok? ==> Extends(w, MakeBlocks(meshes, w).value.1)
    decreases |meshes|
  {
    if meshes != [] && MakeBlocks(meshes, w).Ok? {
      MakeBlocksStep(meshes, w);
      var first := MoveableBlocks.NewBlock(w, BlockMeshOf(meshes[0])).value;
      MakeBlocksExtends(meshes[1..], first.1);
      ExtendsTrans(w, first.1, MakeBlocks(meshes[1..], first.1).value.1);
    }
  }

  lemma BlockPresentExtends(b: MoveableBlocks.Block, w: World, w': World)
    requires MoveableBlocks.Present(b, w) && Extends(w, w')
    ensures MoveableBlocks.Present(b, w')
  {
  }

  lemma AllBoxedStep(meshes: seq<Node>)
    requires meshes != []
    ensures AllBoxed(meshes) <==> meshes[0].boundingBox.Some? && AllBoxed(meshes[1..])
  {
    if meshes[0].boundingBox.Some? && AllBoxed(meshes[1..]) {
      forall i | 1 <= i < |meshes| ensures meshes[i].boundingBox.Some? {
        assert meshes[i] == meshes[1..][i - 1];
      }
    }
  }

  /** Building the blocks fails exactly when a mesh has no bounding box. */
  lemma {:induction false} MakeBlocksFails(meshes: seq<Node>, w: World)
    requires Valid(w)
    ensures MakeBlocks(meshes, w).Err? <==> !AllBoxed(meshes)
    decreases |meshes|
  {
    if meshes != [] {
      AllBoxedStep(meshes);
      var r := MoveableBlocks.NewBlock(w, BlockMeshOf(meshes[0]));
      if r.Ok? {
        MakeBlocksFails(meshes[1..], r.value.1);
      }
    }
  }

  /** A successful build is the first block followed by the rest's build. */
  lemma MakeBlocksStep(meshes: seq<Node>, w: World)
    requires Valid(w) && meshes != [] && MakeBlocks(meshes, w).Ok?
    ensures var first := MoveableBlocks.NewBlock(w, BlockMeshOf(meshes[0]));
      && first.Ok?
      && MakeBlocks(meshes[1..], first.value.1).Ok?
      && var rest := MakeBlocks(meshes[1..], first.value.1).value;
        MakeBlocks(meshes, w).value == ([first.value.0] + rest.0, rest.1)
  {
  }

  /** Block i starts one unit above mesh i and is live in the final world
      with handles that were not in the initial one. */
  lemma {:induction false} MakeBlockAt(meshes: seq<Node>, w: World, i: nat)
    requires Valid(w) && i < |meshes| && MakeBlocks(meshes, w).Ok?
    ensures var (bs, w') := MakeBlocks(meshes, w).value;
      && bs[i].start == Plus(meshes[i].position, Vec3(0.0, 1.0, 0.0))
      && MoveableBlocks.Present(bs[i], w') && bs[i].body !in w.bodies && bs[i].collider !in w.colliders
    decreases i
  {
    MakeBlocksStep(meshes, w);
    var first := MoveableBlocks.NewBlock(w, BlockMeshOf(meshes[0])).value;
    var rest := MakeBlocks(meshes[1..], first.1).value;
    if i == 0 {
      MakeBlocksExtends(meshes[1..], first.1);
      BlockPresentExtends(first.0, first.1, rest.1);
    } else {
      MakeBlockAt(meshes[1..], first.1, i - 1);
      assert ([first.0] + rest.0)[i] == rest.0[i - 1];
      assert meshes[i] == meshes[1..][i - 1];
    }
  }

  lemma MakeBlocksFacts(meshes: seq<Node>, w: World)
    requires Valid(w)
    ensures var r := MakeBlocks(meshes, w);
      r.Ok? ==> var (bs, w') := r.value;
        forall i :: 0 <= i < |meshes| ==>
          && bs[i].start == Plus(meshes[i].position, Vec3(0.0, 1.0, 0.0))
          && MoveableBlocks.Present(bs[i], w') && bs[i].body !in w.bodies && bs[i].collider !in w.colliders
  {
    if MakeBlocks(meshes, w).Ok? {
      forall i | 0 <= i < |meshes| {
        MakeBlockAt(meshes, w, i);
      }
    }
  }

  function EnemyObjects(k: nat): (r: seq<SceneObject>)
    ensures |r| == k && forall i :: 0 <= i < k ==> r[i] == EnemyObject(i)
  {
    seq(k, (i: int) requires 0 <= i => EnemyObject(i))
  }

  function BlockObjects(k: nat): (r: seq<SceneObject>)
    ensures |r| == k && forall i :: 0 <= i < k ==> r[i] == BlockObject(i)
  {
    seq(k, (i: int) requires 0 <= i => BlockObject(i))
  }

  function NodeObjects(ids: seq<nat>): (r: seq<SceneObject>)
    ensures |r| == |ids| && forall i :: 0 <= i < |ids| ==> r[i] == NodeObject(ids[i])
  {
    seq(|ids|, i requires 0 <= i < |ids| => NodeObject(ids[i]))
  }

  /** `parseLevelModel`: traverse, then build the enemies, then the blocks,
      then the batched mesh. A moveable-block mesh without a bounding box
      makes the whole parse fail. */
  function Parse(nodes: seq<Node>, w0: World, config: LevelConfig): (r: Result<ParsedLevel, MoveableBlocks.BlockError>)
    requires Valid(w0)
    ensures r.Ok? ==> Valid(r.value.world)
  {
    var a := Traverse(nodes, w0);
    var (enemies, w1) := MakeEnemies(a.enemyMeshes, a.made.world);
    match MakeBlocks(a.blockMeshes, w1)
    case Err(e) => Err(e)
    case Ok((blocks, w2)) =>
      var batched := BatchedMesh(|a.batched|, a.vertices, a.indices, a.atlas, Ids(a.batched));
      var scene := NodeObjects(a.scene) + EnemyObjects(|enemies|) + BlockObjects(|blocks|) + [BatchedMeshObject];
      var fog := Fog(a.fogColour, config.cameraFollowDistance - 25.0, config.renderDistance);
      Ok(ParsedLevel(fog, a.skyGlow, a.made.goalSensors, a.made.dangerSensors, a.made.terrainColliders,
                     scene, enemies, blocks, batched, w2))
  }

  /** The parse fails exactly when some moveable-block mesh has no bounding box. */
  lemma ParseFails(nodes: seq<Node>, w0: World, config: LevelConfig)
    requires Valid(w0)
    ensures var blockMeshes := Select(nodes, BlockMesh);
      Parse(nodes, w0, config).Err? <==> exists i :: 0 <= i < |blockMeshes| && blockMeshes[i].boundingBox.None?
  {
    TraverseSelects(nodes, w0);
    var a := Traverse(nodes, w0);
    var (enemies, w1) := MakeEnemies(a.enemyMeshes, a.made.world);
    MakeBlocksFails(a.blockMeshes, w1);
  }

  /** One enemy per enemy mesh, in traversal order, at its start position
      and live in the final world, which only grew. */
  lemma ParseEnemies(nodes: seq<Node>, w0: World, config: LevelConfig)
    requires Valid(w0)
    ensures var r := Parse(nodes, w0, config);
      r.Ok? ==>
        var l := r.value;
        var enemyMeshes := Select(nodes, EnemyMesh);
        && Extends(w0, l.world)
        && |l.enemies| == |enemyMeshes|
        && (forall i :: 0 <= i < |enemyMeshes| ==>
              l.enemies[i].start == enemyMeshes[i].position && l.enemies[i].direction == Right
              && Enemies.Present(l.enemies[i], l.world))
  {
    TraverseSelects(nodes, w0);
    TraverseCreated(nodes, w0);
    var a := Traverse(nodes, w0);
    var (enemies, w1) := MakeEnemies(a.enemyMeshes, a.made.world);
    MakeEnemiesFacts(a.enemyMeshes, a.made.world);
    MakeEnemiesExtends(a.enemyMeshes, a.made.world);
    var r := Parse(nodes, w0, config);
    if r.Ok? {
      var (blocks, w2) := MakeBlocks(a.blockMeshes, w1).value;
      MakeBlocksExtends(a.blockMeshes, w1);
      ExtendsTrans(w0, a.made.world, w1);
      ExtendsTrans(w0, w1, w2);
      forall i | 0 <= i < |enemies|
        ensures Enemies.Present(enemies[i], w2)
      {
        PresentExtends(enemies[i], w1, w2);
      }
    }
  }

  /** One block per block mesh, in traversal order, one unit above its mesh
      and live in the final world; one collider per sensor or ground node. */
  lemma ParseBlocks(nodes: seq<Node>, w0: World, config: LevelConfig)
    requires Valid(w0)
    ensures var r := Parse(nodes, w0, config);
      r.Ok? ==>
        var l := r.value;
        var blockMeshes := Select(nodes, BlockMesh);
        && |l.blocks| == |blockMeshes|
        && (forall i :: 0 <= i < |blockMeshes| ==>
              l.blocks[i].start == Plus(blockMeshes[i].position, Vec3(0.0, 1.0, 0.0))
              && MoveableBlocks.Present(l.blocks[i], l.world))
        && |l.goalSensors| == |Select(nodes, GoalSensor)|
        && |l.dangerSensors| == |Select(nodes, DangerSensor)|
        && |l.terrainColliders| == |GroundNodes(nodes)|
  {
    TraverseSelects(nodes, w0);
    TraverseSensorCounts(nodes, w0);
    TraverseGroundCount(nodes, w0);
    var a := Traverse(nodes, w0);
    var (enemies, w1) := MakeEnemies(a.enemyMeshes, a.made.world);
    MakeBlocksFacts(a.blockMeshes, w1);
  }

  /** The scene list in its four groups with the batched mesh last, the fog
      from the configuration and the last background colour, the sky glow,
      and the batched mesh sized and textured from the batched nodes. */
  lemma ParseScene(nodes: seq<Node>, w0: World, config: LevelConfig)
    requires Valid(w0)
    ensures var r := Parse(nodes, w0, config);
      r.Ok? ==>
        var l := r.value;
        && l.scene == NodeObjects(Ids(SceneNodes(nodes))) + EnemyObjects(|Select(nodes, EnemyMesh)|)
                      + BlockObjects(|Select(nodes, BlockMesh)|) + [BatchedMeshObject]
        && l.fog.near == config.cameraFollowDistance - 25.0 && l.fog.far == config.renderDistance
        && l.fog.colour == (match Last(nodes, SetsFog) case None => White case Some(i) => Css(nodes[i].userData.colour))
        && l.skyGlow == (match Last(nodes, IsGlow) case None => None case Some(i) => Some(nodes[i].id))
        && l.batched.instances == Ids(Select(nodes, Batched))
        && l.batched.instanceCount == |Select(nodes, Batched)|
        && l.batched.vertexCount == VertexSum(Select(nodes, Batched))
        && l.batched.indexCount == IndexSum(Select(nodes, Batched))
        && l.batched.material == (match Last(nodes, SetsAtlas) case None => None case Some(i) => Some(nodes[i].id))
  {
    TraverseBatched(nodes, w0);
    TraverseScene(nodes, w0);
    TraverseSelects(nodes, w0);
    TraverseVertices(nodes, w0);
    TraverseIndices(nodes, w0);
    TraverseLast(nodes, w0);
  }

  /** Every collider the parse created is fresh, and the goal, danger and
      terrain lists never share a handle. */
  lemma ParseCreatesDistinctColliders(nodes: seq<Node>, w0: World, config: LevelConfig)
    requires Valid(w0)
    ensures var r := Parse(nodes, w0, config);
      r.Ok? ==>
        var l := r.value;
        && (forall c :: c in l.goalSensors ==> c !in w0.colliders && c in l.world.colliders && l.world.colliders[c].sensor)
        && (forall c :: c in l.dangerSensors ==> c !in w0.colliders && c in l.world.colliders && l.world.colliders[c].sensor)
        && (forall c :: c in l.terrainColliders ==> c !in w0.colliders && c in l.world.colliders && !l.world.colliders[c].sensor)
        && Distinct(l.goalSensors) && Distinct(l.dangerSensors) && Distinct(l.terrainColliders)
        && Disjoint(l.goalSensors, l.dangerSensors) && Disjoint(l.goalSensors, l.terrainColliders)
        && Disjoint(l.dangerSensors, l.terrainColliders)
  {
    TraverseCreated(nodes, w0);
    var a := Traverse(nodes, w0);
    var (enemies, w1) := MakeEnemies(a.enemyMeshes, a.made.world);
    MakeEnemiesExtends(a.enemyMeshes, a.made.world);
    var r := Parse(nodes, w0, config);
    if r.Ok? {
      var (blocks, w2) := MakeBlocks(a.blockMeshes, w1).value;
      MakeBlocksExtends(a.blockMeshes, w1);
      ExtendsTrans(a.made.world, w1, w2);
      assert r.value.world == w2;
      CreatedSurvives(a.made, w0, w2);
    }
  }

  /** Every enemy built gets a body of its own. */
  lemma {:induction false} MakeEnemiesDistinct(meshes: seq<Node>, w: World)
    requires Valid(w)
    ensures var es := MakeEnemies(meshes, w).0;
      forall i, j :: 0 <= i < j < |es| ==> es[i].body != es[j].body
    decreases |meshes|
  {
    if meshes != [] {
      var first := Enemies.NewEnemy(w, meshes[0].position);
      var rest := MakeEnemies(meshes[1..], first.1);
      MakeEnemiesDistinct(meshes[1..], first.1);
      MakeEnemiesFacts(meshes[1..], first.1);
      var es := MakeEnemies(meshes, w).0;
      assert es == [first.0] + rest.0;
      assert first.0.body in first.1.bodies;
      forall i, j | 0 <= i < j < |es| ensures es[i].body != es[j].body {
        assert es[j] == rest.0[j - 1];
        if i > 0 {
          assert es[i] == rest.0[i - 1];
        } else {
          assert rest.0[j - 1].body !in first.1.bodies;
        }
      }
    }
  }

  /** Every block built gets a body of its own. */
  lemma {:induction false} MakeBlocksDistinct(meshes: seq<Node>, w: World)
    requires Valid(w) && MakeBlocks(meshes, w).Ok?
    ensures var bs := MakeBlocks(meshes, w).value.0;
      forall i, j :: 0 <= i < j < |bs| ==> bs[i].body != bs[j].body
    decreases |meshes|
  {
    if meshes != [] {
      MakeBlocksStep(meshes, w);
      var first := MoveableBlocks.NewBlock(w, BlockMeshOf(meshes[0])).value;
      var rest := MakeBlocks(meshes[1..], first.1).value;
      MakeBlocksDistinct(meshes[1..], first.1);
      MakeBlocksFacts(meshes[1..], first.1);
      var bs := MakeBlocks(meshes, w).value.0;
      assert bs == [first.0] + rest.0;
      forall i, j | 0 <= i < j < |bs| ensures bs[i].body != bs[j].body {
        assert bs[j] == rest.0[j - 1];
        if i > 0 {
          assert bs[i] == rest.0[i - 1];
        }
      }
    }
  }

  /** The enemies and blocks of a parsed level own fresh bodies, no two of
      them the same: every body is created on the spot for its entity. */
  lemma ParseSeparateBodies(nodes: seq<Node>, w0: World, config: LevelConfig)
    requires Valid(w0)
    ensures var r := Parse(nodes, w0, config);
      r.Ok? ==>
        var l := r.value;
        && (forall i :: 0 <= i < |l.enemies| ==> l.enemies[i].body !in w0.bodies)
        && (forall i :: 0 <= i < |l.blocks| ==> l.blocks[i].body !in w0.bodies)
        && (forall i, j :: 0 <= i < j < |l.enemies| ==> l.enemies[i].body != l.enemies[j].body)
        && (forall i, j :: 0 <= i < j < |l.blocks| ==> l.blocks[i].body != l.blocks[j].body)
        && (forall i, j :: 0 <= i < |l.enemies| && 0 <= j < |l.blocks| ==> l.enemies[i].body != l.blocks[j].body)
  {
    var r := Parse(nodes, w0, config);
    if r.Ok? {
      TraverseCreated(nodes, w0);
      var a := Traverse(nodes, w0);
      var (enemies, w1) := MakeEnemies(a.enemyMeshes, a.made.world);
      MakeEnemiesExtends(a.enemyMeshes, a.made.world);
      ExtendsTrans(w0, a.made.world, w1);
      var (blocks, w2) := MakeBlocks(a.blockMeshes, w1).value;
      assert r.value.enemies == enemies && r.value.blocks == blocks;
      BuiltBodiesSeparate(a.enemyMeshes, a.blockMeshes, w0, a.made.world);
    }
  }

  /** The body facts of `ParseSeparateBodies`, for enemies built on a world
      that extends the initial one and blocks built after them. */
  lemma BuiltBodiesSeparate(enemyMeshes: seq<Node>, blockMeshes: seq<Node>, w0: World, w: World)
    requires Valid(w) && Extends(w0, w)
    requires MakeBlocks(blockMeshes, MakeEnemies(enemyMeshes, w).1).Ok?
    ensures var (es, w1) := MakeEnemies(enemyMeshes, w);
      var bs := MakeBlocks(blockMeshes, w1).value.0;
      && (forall i :: 0 <= i < |es| ==> es[i].body !in w0.bodies)
      && (forall i :: 0 <= i < |bs| ==> bs[i].body !in w0.bodies)
      && (forall i, j :: 0 <= i < j < |es| ==> es[i].body != es[j].body)
      && (forall i, j :: 0 <= i < j < |bs| ==> bs[i].body != bs[j].body)
      && (forall i, j :: 0 <= i < |es| && 0 <= j < |bs| ==> es[i].body != bs[j].body)
  {
    var (es, w1) := MakeEnemies(enemyMeshes, w);
    MakeEnemiesFacts(enemyMeshes, w);
    MakeEnemiesExtends(enemyMeshes, w);
    MakeEnemiesDistinct(enemyMeshes, w);
    MakeBlocksFacts(blockMeshes, w1);
    MakeBlocksDistinct(blockMeshes, w1);
    var bs := MakeBlocks(blockMeshes, w1).value.0;
    forall i | 0 <= i < |es| ensures es[i].body in w1.bodies && es[i].body !in w0.bodies {
      assert Enemies.Present(es[i], w1);
    }
    forall j | 0 <= j < |bs| ensures bs[j].body !in w1.bodies && bs[j].body !in w0.bodies {
      assert bs[j].body !in w1.bodies;
    }
  }

  /** The creation facts about the traversal's colliders still hold in any
      world that only grew from the traversal's. */
  lemma CreatedSurvives(m: Made, w0: World, w: World)
    requires Created(m, w0) && Extends(m.world, w)
    ensures forall c :: c in m.goalSensors ==> c !in w0.colliders && c in w.colliders && w.colliders[c].sensor
    ensures forall c :: c in m.dangerSensors ==> c !in w0.colliders && c in w.colliders && w.colliders[c].sensor
    ensures forall c :: c in m.terrainColliders ==> c !in w0.colliders && c in w.colliders && !w.colliders[c].sensor
  {
    forall c | c in m.terrainColliders
      ensures c !in w0.colliders && c in w.colliders && !w.colliders[c].sensor
    {
      assert IsTerrain(m.world, c);
    }
  }
}

=== FILE: physics.dfy ===
/** The rigid-body engine as this game sees it: an abstract world of bodies,
    colliders and joints addressed by opaque handles, plus the shape of a ray
    query and its answer. Dynamics, collision detection and joint solving are
    not modelled; their outcomes reach the game logic as inputs. */
module Physics {
  import opened Common

  type BodyHandle = nat
  type ColliderHandle = nat
  type JointHandle = nat

  datatype Vec3 = Vec3(x: real, y: real, z: real)
  datatype Quat = Quat(x: real, y: real, z: real, w: real)

  const Origin := Vec3(0.0, 0.0, 0.0)
  const Identity := Quat(0.0, 0.0, 0.0, 1.0)

  function Plus(a: Vec3, b: Vec3): Vec3 {
    Vec3(a.x + b.x, a.y + b.y, a.z + b.z)
  }

  function Scale(v: Vec3, k: real): Vec3 {
    Vec3(v.x * k, v.y * k, v.z * k)
  }

  datatype BodyKind = Fixed | Dynamic

  datatype Body = Body(kind: BodyKind, translation: Vec3, linvel: Vec3, rotation: Quat)

  datatype Shape = Ball(radius: real) | Cuboid(hx: real, hy: real, hz: real) | TriMesh

  datatype Collider = Collider(parent: Option<BodyHandle>, sensor: bool, shape: Shape)

  /** A spring joint: `JointData.spring(restLength, stiffness, damping, anchor1, anchor2)`
      between body1 and body2. */
  datatype Joint = Joint(body1: BodyHandle, body2: BodyHandle, anchor1: Vec3, anchor2: Vec3,
                         restLength: real, stiffness: real, damping: real)

  datatype World = World(
    bodies: map<BodyHandle, Body>,
    colliders: map<ColliderHandle, Collider>,
    joints: map<JointHandle, Joint>,
    nextBody: nat,
    nextCollider: nat,
    nextJoint: nat)

  /** Handles are allocated from counters, so every live handle is below its counter. */
  predicate Valid(w: World) {
    && (forall h :: h in w.bodies ==> h < w.nextBody)
    && (forall h :: h in w.colliders ==> h < w.nextCollider)
    && (forall h :: h in w.joints ==> h < w.nextJoint)
  }

  const EmptyWorld := World(map[], map[], map[], 0, 0, 0)

  function CreateBody(w: World, b: Body): (r: (BodyHandle, World))
    requires Valid(w)
    ensures r.0 !in w.bodies
    ensures r.1.bodies == w.bodies[r.0 := b]
    ensures r.1.colliders == w.colliders && r.1.joints == w.joints
    ensures Valid(r.1)
  {
    (w.nextBody, w.(bodies := w.bodies[w.nextBody := b], nextBody := w.nextBody + 1))
  }

  function CreateCollider(w: World, c: Collider): (r: (ColliderHandle, World))
    requires Valid(w)
    ensures r.0 !in w.colliders
    ensures r.1.colliders == w.colliders[r.0 := c]
    ensures r.1.bodies == w.bodies && r.1.joints == w.joints
    ensures Valid(r.1)
  {
    (w.nextCollider, w.(colliders := w.colliders[w.nextCollider := c], nextCollider := w.nextCollider + 1))
  }

  function CreateJoint(w: World, j: Joint): (r: (JointHandle, World))
    requires Valid(w)
    ensures r.0 !in w.joints
    ensures r.1.joints == w.joints[r.0 := j]
    ensures r.1.bodies == w.bodies && r.1.colliders == w.colliders
    ensures Valid(r.1)
  {
    (w.nextJoint, w.(joints := w.joints[w.nextJoint := j], nextJoint := w.nextJoint + 1))
  }

  /** Removal of a handle that is already gone changes nothing. */
  function RemoveBody(w: World, h: BodyHandle): World {
    w.(bodies := w.bodies - {h})
  }

  function RemoveCollider(w: World, h: ColliderHandle): World {
    w.(colliders := w.colliders - {h})
  }

  function RemoveJoint(w: World, h: JointHandle): World {
    w.(joints := w.joints - {h})
  }

  /** Tears down an entity's physics: its collider first, then its body. */
  function RemoveColliderAndBody(w: World, c: ColliderHandle, b: BodyHandle): (w': World)
    ensures w'.colliders == w.colliders - {c} && c !in w'.colliders
    ensures w'.bodies == w.bodies - {b} && b !in w'.bodies
    ensures w'.joints == w.joints
  {
    RemoveBody(RemoveCollider(w, c), b)
  }

  function SetTranslation(w: World, h: BodyHandle, t: Vec3): World
    requires h in w.bodies
  {
    w.(bodies := w.bodies[h := w.bodies[h].(translation := t)])
  }

  function SetLinvel(w: World, h: BodyHandle, v: Vec3): World
    requires h in w.bodies
  {
    w.(bodies := w.bodies[h := w.bodies[h].(linvel := v)])
  }

  lemma RemovalsKeepValid(w: World, b: BodyHandle, c: ColliderHandle, j: JointHandle)
    requires Valid(w)
    ensures Valid(RemoveBody(w, b)) && Valid(RemoveCollider(w, c)) && Valid(RemoveJoint(w, j))
  {
  }

  /** A ray cast as issued by this game: from `origin` along `dir` up to
      `maxToi`, non-solid, skipping every sensor and the collider `excluded`. */
  datatype RayQuery = RayQuery(origin: Vec3, dir: Vec3, maxToi: real, excluded: ColliderHandle)

  /** What the engine reports for the rigid body owning the hit collider. */
  datatype HitBody = HitBody(handle: BodyHandle, fixed: bool, mass: real)

  /** The nearest hit: its time of impact and the hit collider's parent body, if any. */
  datatype RayHit = RayHit(toi: real, parent: Option<HitBody>)

  /** The engine's answer to every ray query of one moment. */
  type RayCaster = RayQuery -> Option<RayHit>

  /** `ray.pointAt(toi)`. */
  function PointAt(q: RayQuery, toi: real): Vec3 {
    Plus(q.origin, Scale(q.dir, toi))
  }
}

=== FILE: player.dfy ===
/** The player controller: intents (move, jump, boost) accumulated between
    ticks, the boost resource, the contact flags refreshed from three short
    rays, and the per-tick application of the accumulated impulse. Animation,
    tilt and the damped audio parameters are cosmetic and not modelled. */
module PlayerController {
  import opened Common
  import opened Physics

  const VelocityLimit := 10.0
  const HorizontalMovementForce := 100.0
  const JumpForce := 40.0
  const WallJumpForce := 15.0
  const BoostForce := 110.0
  const BoostCapacity := 7000.0
  const BoostUsageRate := 10000.0
  const BoostRegenerationRate := 10000.0
  const HitRayLength := 0.6

  datatype PlayerState = PlayerState(
    boostRemaining: real,
    direction: Direction,
    isBoosting: bool,
    hitLeft: bool,
    hitRight: bool,
    hitDown: bool,
    impulse: Vec3)

  /** The state a new player starts in: note the 10000 units of boost, above
      the 7000 capacity. */
  const InitialState := PlayerState(10000.0, Right, false, false, false, false, Origin)

  datatype PlayerSound = JetpackBurst | JetpackLoop | Footsteps

  datatype JumpEffect = JumpEffect(sound: PlayerSound, impulse: Vec3)

  /** `jump()`: plays the burst and picks the vertical impulse from the contact
      flags left by the previous tick. The horizontal wall-jump push is fixed at 0. */
  function Jump(p: PlayerState): (e: JumpEffect)
    ensures e.sound == JetpackBurst
    ensures e.impulse.x == 0.0 && e.impulse.z == 0.0
    ensures p.hitDown ==> e.impulse.y == JumpForce
    ensures !p.hitDown && (p.hitLeft || p.hitRight) ==> e.impulse.y == WallJumpForce
    ensures !p.hitDown && !p.hitLeft && !p.hitRight ==> e.impulse.y == 0.0
  {
    var wallJump := !p.hitDown && (p.hitRight || p.hitLeft);
    var vertical := if p.hitDown then JumpForce else if wallJump then WallJumpForce else 0.0;
    JumpEffect(JetpackBurst, Vec3(0.0, vertical, 0.0))
  }

  /** A jump pushes up exactly when the player touches something, and never
      harder than from the ground. */
  lemma JumpPushesIffContact(p: PlayerState)
    ensures Jump(p).impulse.y > 0.0 <==> (p.hitDown || p.hitLeft || p.hitRight)
    ensures 0.0 <= Jump(p).impulse.y <= JumpForce
  {
  }

  /** `boost()`: only raises the request flag for the coming tick. */
  function Boost(p: PlayerState): (r: PlayerState)
    ensures r.isBoosting
    ensures r.boostRemaining == p.boostRemaining && r.impulse == p.impulse && r.direction == p.direction
    ensures r.hitDown == p.hitDown && r.hitLeft == p.hitLeft && r.hitRight == p.hitRight
  {
    p.(isBoosting := true)
  }

  /** `moveLeft()` / `moveRight()`: add the horizontal force and face that way. */
  function Move(p: PlayerState, d: Direction): (r: PlayerState)
    ensures r.direction == d
    ensures d == Left ==> r.impulse.x == p.impulse.x - HorizontalMovementForce
    ensures d == Right ==> r.impulse.x == p.impulse.x + HorizontalMovementForce
    ensures r.impulse.y == p.impulse.y && r.impulse.z == p.impulse.z
    ensures r.boostRemaining == p.boostRemaining && r.isBoosting == p.isBoosting
    ensures r.hitDown == p.hitDown && r.hitLeft == p.hitLeft && r.hitRight == p.hitRight
  {
    var force := if d == Left then -HorizontalMovementForce else HorizontalMovementForce;
    p.(impulse := p.impulse.(x := p.impulse.x + force), direction := d)
  }

  function Moves(p: PlayerState, ds: seq<Direction>): PlayerState
    decreases |ds|
  {
    if ds == [] then p else Moves(Move(p, ds[0]), ds[1..])
  }

  function Count(ds: seq<Direction>, d: Direction): nat
    decreases |ds|
  {
    if ds == [] then 0 else (if ds[0] == d then 1 else 0) + Count(ds[1..], d)
  }

  /** Within a tick move intents add up, and the last one decides the facing. */
  lemma {:induction false} MovesAccumulate(p: PlayerState, ds: seq<Direction>)
    ensures Moves(p, ds).impulse.x
      == p.impulse.x + HorizontalMovementForce * ((Count(ds, Right) as real) - (Count(ds, Left) as real))
    ensures ds != [] ==> Moves(p, ds).direction == ds[|ds| - 1]
    ensures ds == [] ==> Moves(p, ds).direction == p.direction
    decreases |ds|
  {
    if ds != [] {
      MovesAccumulate(Move(p, ds[0]), ds[1..]);
      if |ds| > 1 {
        assert ds[1..][|ds[1..]| - 1] == ds[|ds| - 1];
      }
    }
  }

  /** `#boostLogic`: consumes the request. A request with boost left adds the
      boost force and drains the resource (floored at 0); no request refills it
      (capped at capacity). The emptiness test reads the value before draining. */
  function BoostLogic(p: PlayerState, delta: real): (r: PlayerState)
    ensures !r.isBoosting
    ensures p.isBoosting && p.boostRemaining != 0.0 ==>
      r.impulse.y == p.impulse.y + BoostForce && r.boostRemaining == Max(p.boostRemaining - BoostUsageRate * delta, 0.0)
    ensures p.isBoosting && p.boostRemaining == 0.0 ==> r.impulse == p.impulse && r.boostRemaining == 0.0
    ensures !p.isBoosting ==>
      r.impulse == p.impulse && r.boostRemaining == Min(p.boostRemaining + BoostRegenerationRate * delta, BoostCapacity)
    ensures r.impulse.x == p.impulse.x && r.impulse.z == p.impulse.z
    ensures r.direction == p.direction && r.hitDown == p.hitDown && r.hitLeft == p.hitLeft && r.hitRight == p.hitRight
    ensures delta >= 0.0 && p.boostRemaining >= 0.0 && p.isBoosting ==> r.boostRemaining <= p.boostRemaining
    ensures delta >= 0.0 && !p.isBoosting ==> r.boostRemaining >= p.boostRemaining || r.boostRemaining == BoostCapacity
    ensures delta >= 0.0 && p.boostRemaining >= 0.0 ==> r.boostRemaining >= 0.0
    ensures !p.isBoosting ==> r.boostRemaining <= BoostCapacity
    ensures delta >= 0.0 && 0.0 <= p.boostRemaining <= BoostCapacity ==> 0.0 <= r.boostRemaining <= BoostCapacity
  {
    var boosting := p.isBoosting;
    var empty := p.boostRemaining == 0.0;
    var p1 := if boosting && !empty then
        p.(impulse := p.impulse.(y := p.impulse.y + BoostForce),
           boostRemaining := Max(p.boostRemaining - BoostUsageRate * delta, 0.0))
      else p;
    var p2 := if !boosting then
        p1.(boostRemaining := Min(p1.boostRemaining + BoostRegenerationRate * delta, BoostCapacity))
      else p1;
    p2.(isBoosting := false)
  }

  /** The boost resource after a run of ticks, `requests[i]` telling whether
      boost was requested before tick i. */
  function BoostAfter(remaining: real, requests: seq<bool>, deltas: seq<real>): real
    requires |requests| == |deltas|
    decreases |requests|
  {
    if requests == [] then remaining
    else
      var p := PlayerState(remaining, Right, requests[0], false, false, false, Origin);
      BoostAfter(BoostLogic(p, deltas[0]).boostRemaining, requests[1..], deltas[1..])
  }

  /** The resource never goes negative, and once a tick without a request has
      passed it stays within [0, capacity] from then on, whatever it started at. */
  lemma {:induction false} BoostStaysInRange(remaining: real, requests: seq<bool>, deltas: seq<real>)
    requires |requests| == |deltas|
    requires remaining >= 0.0
    requires forall i :: 0 <= i < |deltas| ==> deltas[i] >= 0.0
    ensures BoostAfter(remaining, requests, deltas) >= 0.0
    ensures (remaining <= BoostCapacity || false in requests) ==> BoostAfter(remaining, requests, deltas) <= BoostCapacity
    decreases |requests|
  {
    if requests != [] {
      var p := PlayerState(remaining, Right, requests[0], false, false, false, Origin);
      var next := BoostLogic(p, deltas[0]).boostRemaining;
      BoostStaysInRange(next, requests[1..], deltas[1..]);
      if false in requests && requests[0] {
        assert false in requests[1..];
      }
    }
  }

  /** The initial resource is above capacity, and a first tick spent boosting
      does not bring it back under. */
  lemma InitialBoostAboveCapacity()
    ensures InitialState.boostRemaining > BoostCapacity
    ensures BoostLogic(Boost(InitialState), 0.1).boostRemaining == 9000.0
  {
  }

  /** The query of one contact ray: from the body position, 0.6 long, skipping
      sensors and the player's own collider. */
  function HitRay(origin: Vec3, dir: Vec3, ownCollider: ColliderHandle): RayQuery {
    RayQuery(origin, dir, HitRayLength, ownCollider)
  }

  const Down := Vec3(0.0, -1.0, 0.0)
  const LeftDir := Vec3(-1.0, 0.0, 0.0)
  const RightDir := Vec3(1.0, 0.0, 0.0)

  /** `#updateHitState`: each flag is whether its ray hit anything. */
  function UpdateHitState(p: PlayerState, origin: Vec3, ownCollider: ColliderHandle, cast: RayCaster): (r: PlayerState)
    ensures r.hitDown <==> cast(RayQuery(origin, Vec3(0.0, -1.0, 0.0), 0.6, ownCollider)).Some?
    ensures r.hitLeft <==> cast(RayQuery(origin, Vec3(-1.0, 0.0, 0.0), 0.6, ownCollider)).Some?
    ensures r.hitRight <==> cast(RayQuery(origin, Vec3(1.0, 0.0, 0.0), 0.6, ownCollider)).Some?
    ensures r.boostRemaining == p.boostRemaining && r.isBoosting == p.isBoosting
    ensures r.impulse == p.impulse && r.direction == p.direction
  {
    p.(hitDown := cast(HitRay(origin, Down, ownCollider)).Some?,
       hitLeft := cast(HitRay(origin, LeftDir, ownCollider)).Some?,
       hitRight := cast(HitRay(origin, RightDir, ownCollider)).Some?)
  }

  /** The velocity limit: above 10 in |x| the x component is damped by 0.9;
      `None` means the velocity is left alone. */
  function LimitVelocity(v: Vec3): (r: Option<Vec3>)
    ensures r.Some? <==> Abs(v.x) > VelocityLimit
    ensures r.Some? ==> r.value.x == 0.9 * v.x && r.value.y == v.y && r.value.z == v.z
    ensures r.Some? ==> Abs(r.value.x) < Abs(v.x) && Abs(r.value.x) > 0.0 && (r.value.x > 0.0 <==> v.x > 0.0)
  {
    if Abs(v.x) > VelocityLimit then Some(v.(x := v.x * 0.9)) else None
  }

  datatype TickResult = TickResult(state: PlayerState, applied: Option<Vec3>, newVelocity: Option<Vec3>)

  /** The impulse the tick assembles before scaling: the pending intents plus
      the boost force when a request meets a non-empty resource. */
  function TickImpulse(p: PlayerState): Vec3 {
    var boost := if p.isBoosting && p.boostRemaining != 0.0 then BoostForce else 0.0;
    Vec3(p.impulse.x, p.impulse.y + boost, p.impulse.z)
  }

  /** `update(delta)`. `origin` is the body position after the physics step,
      `velocity` the body velocity read back after the impulse. */
  function Update(p: PlayerState, delta: real, origin: Vec3, ownCollider: ColliderHandle, cast: RayCaster,
                  velocity: Vec3): (r: TickResult)
    ensures r.state.impulse == Origin && !r.state.isBoosting
    ensures r.state.hitDown <==> cast(HitRay(origin, Down, ownCollider)).Some?
    ensures r.state.hitLeft <==> cast(HitRay(origin, LeftDir, ownCollider)).Some?
    ensures r.state.hitRight <==> cast(HitRay(origin, RightDir, ownCollider)).Some?
    ensures r.state.direction == p.direction
    ensures r.state.boostRemaining == BoostLogic(p, delta).boostRemaining
    ensures var total := TickImpulse(p);
      r.applied == (if total.x != 0.0 || total.y != 0.0 then Some(Scale(total, delta)) else None)
    ensures r.newVelocity == LimitVelocity(velocity)
  {
    var p1 := UpdateHitState(p, origin, ownCollider, cast);
    var p2 := BoostLogic(p1, delta);
    var applied := if p2.impulse.x != 0.0 || p2.impulse.y != 0.0 then Some(Scale(p2.impulse, delta)) else None;
    TickResult(p2.(impulse := Origin), applied, LimitVelocity(velocity))
  }
}

=== FILE: render_resolution.dfy ===
/** The render-resolution controller: from the canvas size, a quality
    setting in percent and the pixel budgets it derives the device pixel
    ratio, the drawing-buffer resolution and the camera's aspect or
    frustum. JavaScript divides by a zero screen without failing: a positive
    budget over it is +Infinity, which the caps clamp to 2 and 0.5, while a
    zero or negative budget gives NaN or -Infinity. The model follows that
    and reports a non-finite result as `None`. */
module RenderResolution {
  import opened Common

  const MaxRatioCap := 2.0
  const MinRatioCap := 0.5

  datatype Controller = Controller(width: real, height: real, quality: real, maxPixels: real, minPixels: real)

  /** The upper ratio `min(maxPixels / screen, 2)`. */
  function MaxPixelRatio(maxPixels: real, screenPixels: real): (r: real)
    requires screenPixels != 0.0
    ensures r <= MaxRatioCap
  {
    Min(maxPixels / screenPixels, MaxRatioCap)
  }

  /** The lower ratio `min(minPixels / screen, 0.5)`. */
  function MinPixelRatio(minPixels: real, screenPixels: real): (r: real)
    requires screenPixels != 0.0
    ensures r <= MinRatioCap
  {
    Min(minPixels / screenPixels, MinRatioCap)
  }

  /** `#calculatePixelRatio`: the quality interpolates linearly between the
      lower and the upper ratio; the quality is not clamped. Over a zero
      screen both ratios are their caps when the budgets are positive, and
      non-finite otherwise. */
  function PixelRatio(maxPixels: real, minPixels: real, screenPixels: real, quality: real): (r: Option<real>)
    ensures r.None? <==> screenPixels == 0.0 && (maxPixels <= 0.0 || minPixels <= 0.0)
    ensures screenPixels != 0.0 && quality == 0.0 ==> r == Some(MinPixelRatio(minPixels, screenPixels))
    ensures screenPixels != 0.0 && quality == 100.0 ==> r == Some(MaxPixelRatio(maxPixels, screenPixels))
  {
    if screenPixels == 0.0 then
      if maxPixels > 0.0 && minPixels > 0.0 then Some(quality / 100.0 * (MaxRatioCap - MinRatioCap) + MinRatioCap)
      else None
    else
      var hi := MaxPixelRatio(maxPixels, screenPixels);
      var lo := MinPixelRatio(minPixels, screenPixels);
      Some(quality / 100.0 * (hi - lo) + lo)
  }

  /** A zero-area canvas with positive budgets gets the capped ratios: 0.5 at
      quality 0, 2 at quality 100, and in between for a quality in [0, 100]. */
  lemma ZeroScreenUsesCaps(maxPixels: real, minPixels: real, quality: real)
    requires maxPixels > 0.0 && minPixels > 0.0
    ensures PixelRatio(maxPixels, minPixels, 0.0, 0.0) == Some(MinRatioCap)
    ensures PixelRatio(maxPixels, minPixels, 0.0, 100.0) == Some(MaxRatioCap)
    ensures 0.0 <= quality <= 100.0 ==>
      MinRatioCap <= PixelRatio(maxPixels, minPixels, 0.0, quality).value <= MaxRatioCap
  {
  }

  /** With a sane budget and a quality within [0, 100], the ratio lies
      between the lower and the upper ratio, and so never above 2. */
  lemma PixelRatioBounded(maxPixels: real, minPixels: real, screenPixels: real, quality: real)
    requires minPixels <= maxPixels && screenPixels > 0.0 && 0.0 <= quality <= 100.0
    ensures var lo := MinPixelRatio(minPixels, screenPixels);
      var hi := MaxPixelRatio(maxPixels, screenPixels);
      var r := PixelRatio(maxPixels, minPixels, screenPixels, quality).value;
      lo <= r <= hi <= MaxRatioCap
  {
    var lo := MinPixelRatio(minPixels, screenPixels);
    var hi := MaxPixelRatio(maxPixels, screenPixels);
    MulNonNeg(maxPixels - minPixels, 1.0 / screenPixels);
    assert (maxPixels - minPixels) * (1.0 / screenPixels) == maxPixels / screenPixels - minPixels / screenPixels;
    assert lo <= hi;
    var t := quality / 100.0;
    MulNonNeg(t, hi - lo);
    MulNonNeg(1.0 - t, hi - lo);
    assert (1.0 - t) * (hi - lo) == (hi - lo) - t * (hi - lo);
  }

  /** The quality is not clamped: above 100 the ratio overshoots the upper ratio. */
  lemma QualityAbove100Overshoots()
    ensures var hi := MaxPixelRatio(1920.0 * 1080.0, 1000.0 * 1000.0);
      PixelRatio(1920.0 * 1080.0, 400.0 * 600.0, 1000.0 * 1000.0, 200.0).value > hi
  {
  }

  datatype Camera = Perspective(aspect: real) | Orthographic(left: real, right: real, bottom: real, top: real)

  /** What `applyTo` leaves behind: the renderer's size and pixel ratio, the
      stored resolution and the updated camera. */
  datatype Applied = Applied(rendererWidth: real, rendererHeight: real, pixelRatio: real,
                             resolutionWidth: real, resolutionHeight: real, camera: Camera)

  /** `applyTo(renderer, camera)`. `None` when a value it stores is not
      finite: a non-finite pixel ratio, or the aspect of a perspective camera
      over a zero height. An orthographic frustum is finite for every size. */
  function ApplyTo(c: Controller, camera: Camera): (r: Option<Applied>)
    ensures r.None? <==>
      PixelRatio(c.maxPixels, c.minPixels, c.width * c.height, c.quality).None? || (camera.Perspective? && c.height == 0.0)
    ensures r.Some? ==>
      var ratio := PixelRatio(c.maxPixels, c.minPixels, c.width * c.height, c.quality).value;
      && r.value.pixelRatio == ratio
      && r.value.rendererWidth == c.width && r.value.rendererHeight == c.height
      && r.value.resolutionWidth == c.width * ratio && r.value.resolutionHeight == c.height * ratio
      && (camera.Perspective? ==> r.value.camera == Perspective(c.width / c.height))
      && (camera.Orthographic? ==>
            r.value.camera == Orthographic(c.width * -0.05, c.width * 0.05, c.height * -0.05, c.height * 0.05))
  {
    match PixelRatio(c.maxPixels, c.minPixels, c.width * c.height, c.quality)
    case None => None
    case Some(ratio) =>
      match camera
      case Perspective(_) =>
        if c.height == 0.0 then None
        else Some(Applied(c.width, c.height, ratio, c.width * ratio, c.height * ratio, Perspective(c.width / c.height)))
      case Orthographic(_, _, _, _) =>
        Some(Applied(c.width, c.height, ratio, c.width * ratio, c.height * ratio,
                     Orthographic(c.width * -0.05, c.width * 0.05, c.height * -0.05, c.height * 0.05)))
  }

  /** A canvas of zero width but positive height, with the application's
      positive budgets, still applies: a finite ratio and a flat aspect of 0. */
  lemma ZeroWidthApplies(c: Controller)
    requires c.width == 0.0 && c.height > 0.0 && c.maxPixels > 0.0 && c.minPixels > 0.0
    ensures var a := ApplyTo(c, Perspective(1.0));
      a.Some? && a.value.camera == Perspective(0.0)
      && a.value.pixelRatio == c.quality / 100.0 * 1.5 + 0.5
  {
  }

  /** The drawing buffer keeps the canvas's aspect ratio. */
  lemma ResolutionKeepsAspect(c: Controller, camera: Camera)
    requires ApplyTo(c, camera).Some?
    ensures var a := ApplyTo(c, camera).value;
      a.resolutionWidth * c.height == a.resolutionHeight * c.width
  {
    var a := ApplyTo(c, camera).value;
    assert a.resolutionWidth * c.height == c.width * a.pixelRatio * c.height;
  }
}

=== FILE: spring.dfy ===
/** One spring link of the grappling hook: it owns exactly one spring joint
    between a parent and a child body, remembers the construction values it
    exposes through its accessors, and carries the "age" that ramps the
    stretch-in effect from 0 to 1. The look-at/length interpolation is
    cosmetic and not modelled; the age and the thickness clamp are. */
module Springs {
  import opened Common
  import opened Physics

  /** The constructor's props; `None` stands for an argument left undefined. */
  datatype SpringProps = SpringProps(
    parent: BodyHandle,
    child: BodyHandle,
    length: Option<real>,
    stiffness: Option<real>,
    randomOriginOffset: Option<real>,
    parentHitPoint: Option<Vec3>,
    childHitPoint: Option<Vec3>)

  /** The default-free props the code uses when it only knows the two bodies. */
  function BareProps(parent: BodyHandle, child: BodyHandle): SpringProps {
    SpringProps(parent, child, None, None, None, None, None)
  }

  /** The joint record is kept as created; `joint` is its handle in the world. */
  datatype Spring = Spring(
    joint: JointHandle,
    jointData: Joint,
    stiffness: real,
    randomOriginOffset: real,
    parentHitPoint: Vec3,
    childHitPoint: Vec3,
    age: real)

  const DefaultLength := 1.0
  const DefaultStiffness := 3.0
  const JointDamping := 0.2

  /** The spring's joint is live in the world and unchanged since creation. */
  predicate Linked(s: Spring, w: World) {
    s.joint in w.joints && w.joints[s.joint] == s.jointData
  }

  /** `new Spring(props)`: applies the defaults and creates exactly one joint. */
  function NewSpring(props: SpringProps, w: World): (r: (Spring, World))
    requires Valid(w)
    ensures var (s, w') := r;
      && s.joint !in w.joints
      && w'.joints == w.joints[s.joint := s.jointData]
      && w'.bodies == w.bodies && w'.colliders == w.colliders
      && Valid(w') && Linked(s, w')
      && s.jointData.body1 == props.parent && s.jointData.body2 == props.child
      && s.jointData.anchor1 == s.parentHitPoint && s.jointData.anchor2 == s.childHitPoint
      && s.jointData.stiffness == s.stiffness && s.jointData.damping == 0.2
      && (props.length.None? ==> s.jointData.restLength == 1.0)
      && (props.length.Some? ==> s.jointData.restLength == props.length.value)
      && (props.stiffness.None? ==> s.stiffness == 3.0)
      && (props.stiffness.Some? ==> s.stiffness == props.stiffness.value)
      && (props.randomOriginOffset.None? ==> s.randomOriginOffset == 0.0)
      && (props.randomOriginOffset.Some? ==> s.randomOriginOffset == props.randomOriginOffset.value)
      && (props.parentHitPoint.None? ==> s.parentHitPoint == Origin)
      && (props.parentHitPoint.Some? ==> s.parentHitPoint == props.parentHitPoint.value)
      && (props.childHitPoint.None? ==> s.childHitPoint == Origin)
      && (props.childHitPoint.Some? ==> s.childHitPoint == props.childHitPoint.value)
      && s.age == 0.0
  {
    var length := props.length.GetOr(DefaultLength);
    var stiffness := props.stiffness.GetOr(DefaultStiffness);
    var parentHit := props.parentHitPoint.GetOr(Origin);
    var childHit := props.childHitPoint.GetOr(Origin);
    var data := Joint(props.parent, props.child, parentHit, childHit, length, stiffness, JointDamping);
    var (h, w') := CreateJoint(w, data);
    (Spring(h, data, stiffness, props.randomOriginOffset.GetOr(0.0), parentHit, childHit, 0.0), w')
  }

  /** `parentRigidBody`: the first body of the spring's joint. */
  function ParentRigidBody(s: Spring): BodyHandle {
    s.jointData.body1
  }

  /** `childRigidBody`: the second body of the spring's joint. */
  function ChildRigidBody(s: Spring): BodyHandle {
    s.jointData.body2
  }

  /** The accessors report what was constructed, and the bodies they report are
      the live joint's bodies for as long as the spring is linked. */
  lemma AccessorsReadJoint(props: SpringProps, w: World)
    requires Valid(w)
    ensures var (s, w') := NewSpring(props, w);
      && ParentRigidBody(s) == props.parent == w'.joints[s.joint].body1
      && ChildRigidBody(s) == props.child == w'.joints[s.joint].body2
      && s.parentHitPoint == w'.joints[s.joint].anchor1
      && s.childHitPoint == w'.joints[s.joint].anchor2
      && s.stiffness == w'.joints[s.joint].stiffness
  {
  }

  /** `destroy`: removes exactly this spring's joint and nothing else. */
  function Destroy(s: Spring, w: World): (w': World)
    requires Valid(w)
    ensures w'.joints == w.joints - {s.joint}
    ensures w'.joints.Keys == w.joints.Keys - {s.joint}
    ensures forall h :: h in w'.joints ==> w'.joints[h] == w.joints[h]
    ensures w'.bodies == w.bodies && w'.colliders == w.colliders
    ensures Valid(w')
    ensures !Linked(s, w')
  {
    RemoveJoint(w, s.joint)
  }

  /** `#age = min(#age + delta * 10, 1)`. */
  function NextAge(age: real, delta: real): (r: real)
    ensures r <= 1.0
    ensures age <= 1.0 && delta >= 0.0 ==> age <= r
    ensures 0.0 <= age && delta >= 0.0 ==> 0.0 <= r
    ensures delta >= 0.0 && age + 10.0 * delta >= 1.0 ==> r == 1.0
  {
    Min(age + delta * 10.0, 1.0)
  }

  /** The age stays within [0, 1] and never decreases over any run of
      non-negative deltas, starting from a new spring's 0. */
  lemma {:induction false} AgeRunBounded(age: real, deltas: seq<real>)
    requires 0.0 <= age <= 1.0
    requires forall i :: 0 <= i < |deltas| ==> deltas[i] >= 0.0
    ensures age <= AgeAfter(age, deltas) <= 1.0
    decreases |deltas|
  {
    if deltas != [] {
      var next := NextAge(age, deltas[0]);
      AgeRunBounded(next, deltas[1..]);
    }
  }

  function AgeAfter(age: real, deltas: seq<real>): real
    decreases |deltas|
  {
    if deltas == [] then age else AgeAfter(NextAge(age, deltas[0]), deltas[1..])
  }

  /** The thickness: `min(max(0.4, 1 - distance * 0.1), 1)`. */
  function ZScale(distance: real): (r: real)
    ensures 0.4 <= r <= 1.0
    ensures 0.0 <= distance <= 6.0 ==> r == 1.0 - distance * 0.1
    ensures distance >= 6.0 ==> r == 0.4
    ensures distance <= 0.0 ==> r == 1.0
  {
    Min(Max(0.4, 1.0 - distance * 0.1), 1.0)
  }

  /** `update(delta)` as far as it is not cosmetic: only the age moves. */
  function Update(s: Spring, delta: real): (r: Spring)
    ensures r.joint == s.joint && r.jointData == s.jointData
    ensures r.stiffness == s.stiffness && r.parentHitPoint == s.parentHitPoint && r.childHitPoint == s.childHitPoint
    ensures r.randomOriginOffset == s.randomOriginOffset
    ensures r.age == NextAge(s.age, delta)
  {
    s.(age := NextAge(s.age, delta))
  }
}

=== FILE: ticker.dfy ===
/** The frame ticker: a running flag, the time of the last frame and an
    insertion-ordered set of update functions. The clock is read by the
    caller and passed in as `now`, in seconds; the animation-frame request
    that schedules the next tick is the caller calling `Tick` again. */
module Tickers {
  import opened Common

  const DeltaMax := 0.1

  /** `F` identifies an update function; equality is reference identity. */
  datatype Ticker<F(==)> = Ticker(time: real, queue: seq<F>, running: bool, hasBeforeTick: bool, hasAfterTick: bool)

  /** What one tick does, in order. */
  datatype TickEvent<F> = BeforeTick | Run(f: F, delta: real) | AfterTick

  /** `new Ticker()`: stopped, with the time base at construction. */
  function NewTicker<F(==)>(now: real): (t: Ticker<F>)
    ensures !t.running && t.queue == [] && t.time == now
  {
    Ticker(now, [], false, false, false)
  }

  /** The `#delta` getter: the elapsed time capped at 0.1; the time base moves to now. */
  function Delta(time: real, now: real): (d: real)
    ensures d <= DeltaMax
    ensures now - time <= DeltaMax ==> d == now - time
    ensures now - time > DeltaMax ==> d == DeltaMax
  {
    Min(now - time, DeltaMax)
  }

  function Runs<F>(queue: seq<F>, delta: real): (r: seq<TickEvent<F>>)
    ensures |r| == |queue| && forall i :: 0 <= i < |queue| ==> r[i] == Run(queue[i], delta)
  {
    seq(|queue|, i requires 0 <= i < |queue| => Run(queue[i], delta))
  }

  datatype Stepped<F(==)> = Stepped(ticker: Ticker<F>, events: seq<TickEvent<F>>)

  /** The update functions' events followed by the optional after-hook. */
  function RunsThen<F>(queue: seq<F>, delta: real, hasAfter: bool): (r: seq<TickEvent<F>>)
    ensures |r| == |queue| + (if hasAfter then 1 else 0)
    ensures hasAfter ==> r[|r| - 1] == AfterTick
    ensures forall i :: 0 <= i < |queue| ==> r[i] == Run(queue[i], delta)
  {
    if hasAfter then Runs(queue, delta) + [AfterTick] else Runs(queue, delta)
  }

  /** The events of one running tick. */
  function Frame<F>(hasBefore: bool, queue: seq<F>, delta: real, hasAfter: bool): (r: seq<TickEvent<F>>)
    ensures var before := if hasBefore then 1 else 0;
      && |r| == before + |queue| + (if hasAfter then 1 else 0)
      && (hasBefore ==> r[0] == BeforeTick)
      && (hasAfter ==> r[|r| - 1] == AfterTick)
      && forall i :: 0 <= i < |queue| ==> r[before + i] == Run(queue[i], delta)
  {
    var tail := RunsThen(queue, delta, hasAfter);
    if hasBefore then
      assert forall i :: 0 <= i < |queue| ==> ([BeforeTick] + tail)[1 + i] == tail[i];
      [BeforeTick] + tail
    else tail
  }

  /** `#update`: nothing when stopped; otherwise the optional before-hook, every
      update function in insertion order with one shared delta capped at 0.1,
      then the optional after-hook. */
  function Tick<F(==)>(t: Ticker<F>, now: real): (r: Stepped<F>)
    ensures !t.running ==> r.ticker == t && r.events == []
    ensures t.running ==>
      && r.ticker == t.(time := now)
      && r.events == Frame(t.hasBeforeTick, t.queue, Delta(t.time, now), t.hasAfterTick)
  {
    if !t.running then Stepped(t, [])
    else Stepped(t.(time := now), Frame(t.hasBeforeTick, t.queue, Delta(t.time, now), t.hasAfterTick))
  }

  /** Every update function of a tick sees the same delta, never above 0.1. */
  lemma TickDeltaBounded<F>(t: Ticker<F>, now: real, i: nat)
    requires t.running && i < |t.queue|
    ensures var before := if t.hasBeforeTick then 1 else 0;
      var e := Tick(t, now).events[before + i];
      e.Run? && e.f == t.queue[i] && e.delta <= DeltaMax
      && (now - t.time <= DeltaMax ==> e.delta == now - t.time)
  {
  }

  /** `start()`: a no-op when running; otherwise it sets the flag, resets
      the time base to `now` and ticks once, reading the clock again as
      `frameNow`. */
  function Start<F(==)>(t: Ticker<F>, now: real, frameNow: real): (r: Stepped<F>)
    ensures t.running ==> r == Stepped(t, [])
    ensures !t.running ==> r == Tick(t.(running := true, time := now), frameNow)
    ensures r.ticker.running
  {
    if t.running then Stepped(t, [])
    else Tick(t.(running := true, time := now), frameNow)
  }

  /** `stop()`. */
  function Stop<F(==)>(t: Ticker<F>): (r: Ticker<F>)
    ensures !r.running && r.queue == t.queue && r.time == t.time
  {
    t.(running := false)
  }

  /** `resume()`: as written, it never sets the running flag; on a stopped
      ticker it only moves the time base, and its tick returns at once. */
  function Resume<F(==)>(t: Ticker<F>, now: real, frameNow: real): (r: Stepped<F>)
    ensures t.running ==> r == Stepped(t, [])
    ensures !t.running ==> r.ticker == t.(time := now) && r.events == []
    ensures r.ticker.running == t.running
  {
    if t.running then Stepped(t, [])
    else Tick(t.(time := now), frameNow)
  }

  /** `add(f)`: set semantics, so a second add changes nothing. */
  function Add<F(==)>(t: Ticker<F>, f: F): (r: Ticker<F>)
    ensures f in r.queue
    ensures f in t.queue ==> r == t
    ensures f !in t.queue ==> r.queue == t.queue + [f]
    ensures r.running == t.running && r.time == t.time
    ensures Distinct(t.queue) ==> Distinct(r.queue)
  {
    if f in t.queue then t else t.(queue := t.queue + [f])
  }

  /** `remove(f)`: the other functions keep their order. */
  function Remove<F(==)>(t: Ticker<F>, f: F): (r: Ticker<F>)
    ensures f !in r.queue
    ensures forall g :: g in t.queue && g != f ==> g in r.queue
    ensures forall g :: g in r.queue ==> g in t.queue
    ensures r.running == t.running && r.time == t.time
  {
    FilterComplete(t.queue, g => g != f);
    t.(queue := Filter(t.queue, g => g != f))
  }

  /** Removing what was just added restores the ticker. */
  lemma {:induction false} AddRemoveRoundTrip<F>(t: Ticker<F>, f: F)
    requires f !in t.queue
    ensures Remove(Add(t, f), f) == t
  {
    FilterAppend(t.queue, f, g => g != f);
    FilterKeepsAll(t.queue, f);
  }

  lemma {:induction false} FilterKeepsAll<F>(s: seq<F>, f: F)
    requires f !in s
    ensures Filter(s, g => g != f) == s
    decreases |s|
  {
    if s != [] {
      FilterKeepsAll(s[1..], f);
    }
  }

  /** Removing a function that is queued once cuts exactly its slot out of
      the queue: the functions before and after it keep their order. */
  lemma {:induction false} RemoveCutsSlot<F>(t: Ticker<F>, f: F, i: nat)
    requires i < |t.queue| && t.queue[i] == f
    requires forall j :: 0 <= j < |t.queue| && j != i ==> t.queue[j] != f
    ensures Remove(t, f).queue == t.queue[..i] + t.queue[i + 1..]
  {
    FilterCutsSlot(t.queue, f, i);
  }

  lemma {:induction false} FilterCutsSlot<F>(s: seq<F>, f: F, i: nat)
    requires i < |s| && s[i] == f
    requires forall j :: 0 <= j < |s| && j != i ==> s[j] != f
    ensures Filter(s, g => g != f) == s[..i] + s[i + 1..]
    decreases |s|
  {
    if i == 0 {
      assert f !in s[1..] by {
        forall j | 0 <= j < |s[1..]| ensures s[1..][j] != f {
          assert s[1..][j] == s[j + 1];
        }
      }
      FilterKeepsAll(s[1..], f);
    } else {
      var tail := s[1..];
      forall j | 0 <= j < |tail| && j != i - 1 ensures tail[j] != f {
        assert tail[j] == s[j + 1];
      }
      FilterCutsSlot(tail, f, i - 1);
      assert s[..i] == [s[0]] + tail[..i - 1];
      assert s[i + 1..] == tail[i..];
    }
  }

  /** Stopped tickers do nothing: after `stop`, ticks and `resume` run no
      update function until `start` is called. */
  lemma StoppedStaysSilent<F>(t: Ticker<F>, now1: real, frameNow: real, now2: real)
    ensures var s := Resume(Stop(t), now1, frameNow);
      && !s.ticker.running && s.events == []
      && Tick(s.ticker, now2).events == []
  {
  }

  /** Adding is idempotent, and the queue never holds a function twice, so
      a function added twice runs once per tick. */
  lemma AddIdempotent<F>(t: Ticker<F>, f: F)
    requires Distinct(t.queue)
    ensures Add(Add(t, f), f) == Add(t, f)
    ensures Distinct(Add(t, f).queue)
    ensures exists k :: 0 <= k < |Add(t, f).queue| && Add(t, f).queue[k] == f
  {
  }
}

=== FILE: user_input.dfy ===
/** Keyboard, mouse and touch events turned into held-input flags, a look
    vector and callbacks. Browser events are abstracted to the fields the
    handlers read; `onParent` is "the event's target is the game element"
    for key events, `outside` is "the target is a node outside the game
    element" for mouse and touch events. */
module UserInput {
  datatype InputState = InputState(
    lookX: real, lookY: real,
    left: bool, right: bool, up: bool, down: bool, boost: bool,
    touchStartX: real, touchStartY: real)

  const Initial := InputState(0.0, 0.0, false, false, false, false, false, 0.0, 0.0)

  datatype Callback = JumpPressed | GrappleReleasePressed | GrappleEscapePressed | GrapplePressed(width: real, height: real)

  /** The keys whose default browser action is suppressed. */
  const GameKeys: seq<string> := ["w", "a", "d", "s", "q", "e", " ", "ArrowUp", "ArrowLeft", "ArrowRight", "ArrowDown", "Shift", "/", "."]

  /** What a key means to the game. */
  datatype KeyRole = BoostKey | DownKey | LeftKey | RightKey | ReleaseKey | EscapeKey | OtherKey

  function RoleOf(key: string): (r: KeyRole)
    ensures r == BoostKey <==> key == " " || key == "w" || key == "ArrowUp"
    ensures r == DownKey <==> key == "s" || key == "ArrowDown"
    ensures r == LeftKey <==> key == "a" || key == "ArrowLeft"
    ensures r == RightKey <==> key == "d" || key == "ArrowRight"
    ensures r == ReleaseKey <==> key == "/" || key == "e"
    ensures r == EscapeKey <==> key == "." || key == "q"
    ensures r != OtherKey ==> key in GameKeys
  {
    if key == " " || key == "w" || key == "ArrowUp" then BoostKey
    else if key == "s" || key == "ArrowDown" then DownKey
    else if key == "a" || key == "ArrowLeft" then LeftKey
    else if key == "d" || key == "ArrowRight" then RightKey
    else if key == "/" || key == "e" then ReleaseKey
    else if key == "." || key == "q" then EscapeKey
    else OtherKey
  }

  datatype KeyEvent = KeyEvent(key: string, onParent: bool, repeat: bool)

  /** A handler's outcome: the new state, the callbacks fired in order, and
      whether the browser's default action was prevented. */
  datatype Handled = Handled(state: InputState, callbacks: seq<Callback>, prevented: bool)

  /** The held flag a key drives, set to v. */
  function SetFlag(s: InputState, role: KeyRole, v: bool): (r: InputState)
    ensures role == BoostKey ==> r == s.(boost := v)
    ensures role == DownKey ==> r == s.(down := v)
    ensures role == LeftKey ==> r == s.(left := v)
    ensures role == RightKey ==> r == s.(right := v)
    ensures role in {ReleaseKey, EscapeKey, OtherKey} ==> r == s
  {
    match role
    case BoostKey => s.(boost := v)
    case DownKey => s.(down := v)
    case LeftKey => s.(left := v)
    case RightKey => s.(right := v)
    case _ => s
  }

  /** `keydown`: ignored off the game element and on auto-repeat; the boost
      keys also fire the jump callback; release and escape keys only fire
      their callbacks. */
  function KeyDown(s: InputState, e: KeyEvent): (r: Handled)
    ensures r.prevented <==> e.onParent && e.key in GameKeys
    ensures !e.onParent || e.repeat ==> r.state == s && r.callbacks == []
    ensures e.onParent && !e.repeat ==>
      && r.state == SetFlag(s, RoleOf(e.key), true)
      && (RoleOf(e.key) == BoostKey ==> r.callbacks == [JumpPressed])
      && (RoleOf(e.key) == ReleaseKey ==> r.callbacks == [GrappleReleasePressed])
      && (RoleOf(e.key) == EscapeKey ==> r.callbacks == [GrappleEscapePressed])
      && (RoleOf(e.key) in {DownKey, LeftKey, RightKey, OtherKey} ==> r.callbacks == [])
  {
    if !e.onParent then Handled(s, [], false)
    else
      var prevented := e.key in GameKeys;
      if e.repeat then Handled(s, [], prevented)
      else
        var role := RoleOf(e.key);
        var callbacks :=
          match role
          case BoostKey => [JumpPressed]
          case ReleaseKey => [GrappleReleasePressed]
          case EscapeKey => [GrappleEscapePressed]
          case _ => [];
        Handled(SetFlag(s, role, true), callbacks, prevented)
  }

  /** `keyup`: clears only the matching flag and never fires a callback. */
  function KeyUp(s: InputState, e: KeyEvent): (r: Handled)
    ensures r.prevented <==> e.onParent && e.key in GameKeys
    ensures r.callbacks == []
    ensures !e.onParent || e.repeat ==> r.state == s
    ensures e.onParent && !e.repeat ==> r.state == SetFlag(s, RoleOf(e.key), false)
  {
    if !e.onParent then Handled(s, [], false)
    else
      var prevented := e.key in GameKeys;
      if e.repeat then Handled(s, [], prevented)
      else Handled(SetFlag(s, RoleOf(e.key), false), [], prevented)
  }

  /** Pressing and releasing a key leaves the state as it was, provided the
      key's flag was not already held. */
  lemma KeyPressRoundTrip(s: InputState, key: string)
    requires RoleOf(key) == BoostKey ==> !s.boost
    requires RoleOf(key) == DownKey ==> !s.down
    requires RoleOf(key) == LeftKey ==> !s.left
    requires RoleOf(key) == RightKey ==> !s.right
    ensures KeyUp(KeyDown(s, KeyEvent(key, true, false)).state, KeyEvent(key, true, false)).state == s
  {
  }

  /** A held flag is only ever set by its own keys' keydown. */
  lemma OnlyBoostKeysBoost(s: InputState, e: KeyEvent)
    requires !s.boost
    ensures KeyDown(s, e).state.boost <==> e.onParent && !e.repeat && (e.key == " " || e.key == "w" || e.key == "ArrowUp")
  {
  }

  datatype MouseEvent = MouseEvent(button: int, buttons: int, clientX: real, clientY: real, outside: bool)

  /** The game element's bounding rectangle, read by the handlers. */
  datatype Rect = Rect(left: real, top: real, width: real, height: real)

  /** `mousedown`: button 0 grapples (passing the element's size), button 1
      escapes, button 2 releases, any other button does nothing. */
  function MouseDown(s: InputState, e: MouseEvent, rect: Rect): (r: Handled)
    ensures r.state == s
    ensures r.prevented <==> !e.outside
    ensures e.outside ==> r.callbacks == []
    ensures !e.outside ==>
      && (e.button == 0 ==> r.callbacks == [GrapplePressed(rect.width, rect.height)])
      && (e.button == 1 ==> r.callbacks == [GrappleEscapePressed])
      && (e.button == 2 ==> r.callbacks == [GrappleReleasePressed])
      && (e.button !in {0, 1, 2} ==> r.callbacks == [])
  {
    if e.outside then Handled(s, [], false)
    else if e.button == 0 then Handled(s, [GrapplePressed(rect.width, rect.height)], true)
    else if e.button == 1 then Handled(s, [GrappleEscapePressed], true)
    else if e.button == 2 then Handled(s, [GrappleReleasePressed], true)
    else Handled(s, [], true)
  }

  /** `mouseup`: only suppresses the default. */
  function MouseUp(s: InputState, e: MouseEvent): (r: Handled)
    ensures r.state == s && r.callbacks == [] && (r.prevented <==> !e.outside)
  {
    Handled(s, [], !e.outside)
  }

  /** `mousemove`: aims only while no button is held, relative to the last
      touch start and the element's corner. */
  function MouseMove(s: InputState, e: MouseEvent, rect: Rect): (r: Handled)
    ensures r.callbacks == [] && (r.prevented <==> !e.outside)
    ensures e.outside || e.buttons != 0 ==> r.state == s
    ensures !e.outside && e.buttons == 0 ==>
      r.state == s.(lookX := e.clientX - s.touchStartX - rect.left, lookY := e.clientY - s.touchStartY - rect.top)
  {
    if e.outside then Handled(s, [], false)
    else if e.buttons == 0 then
      Handled(s.(lookX := e.clientX - s.touchStartX - rect.left, lookY := e.clientY - s.touchStartY - rect.top), [], true)
    else Handled(s, [], true)
  }

  datatype Touch = Touch(clientX: real, clientY: real)

  /** `touchstart`: the look vector is zeroed, the first touch becomes the
      touch origin, and a second finger presses "up". A touch start always
      carries at least one touch. */
  function TouchStart(s: InputState, touches: seq<Touch>, outside: bool): (r: Handled)
    requires |touches| >= 1
    ensures r.callbacks == [] && (r.prevented <==> !outside)
    ensures outside ==> r.state == s
    ensures !outside ==>
      && r.state.lookX == 0.0 && r.state.lookY == 0.0
      && r.state.touchStartX == touches[0].clientX && r.state.touchStartY == touches[0].clientY
      && (r.state.up <==> s.up || |touches| >= 2)
      && r.state.left == s.left && r.state.right == s.right && r.state.down == s.down && r.state.boost == s.boost
  {
    if outside then Handled(s, [], false)
    else
      var s1 := s.(lookX := 0.0, lookY := 0.0, touchStartX := touches[0].clientX, touchStartY := touches[0].clientY);
      Handled(if |touches| >= 2 then s1.(up := true) else s1, [], true)
  }

  /** `touchmove`: aims from the touch origin. */
  function TouchMove(s: InputState, touches: seq<Touch>, outside: bool, rect: Rect): (r: Handled)
    requires |touches| >= 1
    ensures r.callbacks == [] && (r.prevented <==> !outside)
    ensures outside ==> r.state == s
    ensures !outside ==>
      r.state == s.(lookX := touches[0].clientX - s.touchStartX - rect.left, lookY := touches[0].clientY - s.touchStartY - rect.top)
  {
    if outside then Handled(s, [], false)
    else Handled(s.(lookX := touches[0].clientX - s.touchStartX - rect.left,
                    lookY := touches[0].clientY - s.touchStartY - rect.top), [], true)
  }

  /** `touchend`: zeroes the look vector and releases "up". */
  function TouchEnd(s: InputState, outside: bool): (r: Handled)
    ensures r.callbacks == [] && (r.prevented <==> !outside)
    ensures outside ==> r.state == s
    ensures !outside ==> r.state == s.(lookX := 0.0, lookY := 0.0, up := false)
  {
    if outside then Handled(s, [], false)
    else Handled(s.(lookX := 0.0, lookY := 0.0, up := false), [], true)
  }

  /** A two-finger touch presses "up" until the touch ends, and the touch's
      end leaves the look vector at rest. */
  lemma TwoFingerTouchPressesUp(s: InputState, a: Touch, b: Touch)
    ensures var started := TouchStart(s, [a, b], false).state;
      && started.up
      && var ended := TouchEnd(started, false).state;
      && !ended.up && ended.lookX == 0.0 && ended.lookY == 0.0
      && ended.left == s.left && ended.right == s.right && ended.boost == s.boost && ended.down == s.down
  {
  }
}
